=== FILE: README.md ===
# Ami Secret frontend — a Dafny model

This project models the client-side logic of the Ami Secret ("Secret Santa")
single-page application. It covers these parts:

- the authentication provider (token slot, current user, loading flag) and the
  route guard;
- the sign-in / sign-up page;
- the onboarding preferences page (chip inputs, list cleaning, validation,
  draft);
- the profile page (tag input, bio, loading, saving);
- the join-by-code page;
- the game creation page (player rows and their name suggestions);
- the dashboard (listing and leaving games);
- the admin lobby and the player lobby (admin check, search and sort,
  optimistic removal, leaving, admin promotion and revocation, with rollback).

Every request is an abstract outcome passed as a parameter: ok with a payload,
refused with the body's message, or thrown. Toasts, logout and navigation are
returned as an `Effects` value (`Wrappers.Effects`), never performed. Each
optimistic edit is split into a `Begin` step (checks, snapshot, optimistic
update) and a `Finish` step that takes the request's outcome.

The model uses these conventions:

- Strings are `seq<char>`. A `char` is one Unicode scalar value, while
  JavaScript strings count UTF-16 code units. The two agree on every
  character of the Basic Multilingual Plane, and the model assumes such text.
- The whitespace class of `\s` and `trim` is written out (`JsText.IsSpace`).
- `toLowerCase`, `toUpperCase` and `localeCompare(…, 'fr')` are passed in as
  function parameters (`lower`, `upper`, `compare`).
- `formatCode`'s upper-casing of ASCII letters is concrete.
- A stored token counts only when present and non-empty (`Wrappers.HasToken`),
  as `!token` does.

Modules, one per source file or shared helper:

- `Wrappers`: Option, notices, effects, the `or` of messages.
- `JsText`: `trim`, `includes`, `slice`, `split(' ').filter(Boolean)`.
- `Payload`: loosely typed JSON values.
- `FirstOccurrence`: the `findIndex(...) === i` filter.
- `ListOps`: index filter, `slice(0, -1)`.
- `Avatar`: `hashIdx`, `initials`.
- `Email`: the e-mail regular expression.
- `Users`: the `_id ?? id ?? userId` rule.
- `Session`: `AuthProvider`, `RequireAuth`.
- The pages: `AuthPage`, `Preferences`, `Profile`, `JoinGame`, `CreateGame`,
  `Dashboard`, `Roster` (game record, admin ids, search and sort),
  `LobbyAdmin`, `PlayerLobby`.

Behaviours of the code worth noting:

- A refused `/users/me` clears the user but leaves the stored token in place,
  so a session without a user may still hold a token.
- Sign-in and sign-up refusals throw fixed messages ("Identifiants invalides",
  "Erreur d’inscription"), not the server's.
- A successful sign-in whose body has no token stores the text "undefined".
- The session is ended (logout, then the sign-in page) by a 401 reply on the
  join page and the dashboard, and by a missing token in the lobbies and on
  the profile page. The creation, preferences and profile pages show a 401
  like any other error.
- The profile loader never restores the bio (`Profile.SaveThenLoad`).

## Model

| member | source | states |
|---|---|---|
| Wrappers.OrElse | src/pages/Dashboard.tsx:40 | JavaScript `or` on messages: the message when present and non-empty, else the fallback |
| JsText.Trim | src/pages/PreferencesPage.tsx:38 | `trim`: no whitespace at either end, empty exactly for blank input |
| JsText.TrimPadded | src/pages/PreferencesPage.tsx:38 | `trim` removes exactly the whitespace around the text: a string without whitespace at its ends, padded by whitespace on both sides, trims back to itself |
| JsText.TrimIdempotent | src/pages/PreferencesPage.tsx:38 | trimming twice is trimming once |
| JsText.Take | src/pages/Profile.tsx:64 | `slice(0, n)`: a prefix of length min(n, len) |
| JsText.Words | src/pages/PlayerLobby.tsx:50 | `split(' ').filter(Boolean)`: non-empty pieces without spaces |
| JsText.WordsKeepContent | src/pages/PlayerLobby.tsx:50 | the words concatenated are the input without its space characters |
| JsText.FirstWordStart | src/pages/PlayerLobby.tsx:50 | a trimmed non-empty name's first word starts with its first character |
| Payload.Member | src/pages/Profile.tsx:149 | property access: an object's field or `undefined`, never a throw on a non-null value |
| Payload.Or | src/pages/Profile.tsx:154-155 | JavaScript `or` on JSON values: `a` when truthy, else `b` |
| Payload.ListOrEmpty | src/pages/PreferencesPage.tsx:138-140 | `Array.isArray(x) ? x : []` |
| Payload.StringOrEmpty | src/pages/PreferencesPage.tsx:141-142 | `typeof x === 'string' ? x : ''` |
| Users.MyId | src/pages/PlayerLobby.tsx:114 | my id is `_id`, else `id`, else `userId`, else empty; empty without a user |
| Users.MyIdIsFirstPresent | src/pages/PlayerLobby.tsx:114 | my id is the first identifier present among `_id`, `id`, `userId`, or empty when none is |
| Avatar.HashStep | src/pages/PlayerLobby.tsx:46 | one hash step stays below 2^32 (`>>> 0`) |
| Avatar.Hash | src/pages/PlayerLobby.tsx:44-47 | the hash of a string is an unsigned 32-bit value |
| Avatar.HashIdx | src/pages/PlayerLobby.tsx:44-48 | the loop computes the hash of the whole string, reduced to a valid gradient index |
| Avatar.Initials | src/pages/PlayerLobby.tsx:49-50 | never empty; the fallback emoji for a blank name |
| Avatar.InitialsStartWithFirstLetter | src/pages/PlayerLobby.tsx:49-50 | the initials begin with the upper-cased first character of the trimmed name |
| Avatar.InitialsAtMostTwo | src/pages/PlayerLobby.tsx:49-50 | with one-character upper-casing: at most two initials, exactly two for two or more words |
| Avatar.InitialsOfFirstTwoWords | src/pages/PlayerLobby.tsx:49-50 | with one-character upper-casing: the fallback emoji without words, the first word's upper-cased first character for one word, and the first characters of the first two words otherwise |
| Email.EmailValidMatchesPattern | src/pages/Profile.tsx:41 | the executable check accepts exactly the strings matching `^[^\s@]+@[^\s@]+\.[^\s@]+$` |
| Email.EmailValidShape | src/pages/Profile.tsx:41 | a valid address has no whitespace and a single '@' |
| FirstOccurrence.FindIndex | src/pages/PreferencesPage.tsx:157 | `findIndex`: the first position with the key, or -1 when none has it |
| FirstOccurrence.KeepUpTo | src/pages/PreferencesPage.tsx:157 | the filter on a prefix keeps distinct keys and exactly the prefix's keys; each element kept is the first of the input with its key, and they appear in the order of those first positions |
| FirstOccurrence.KeepFirst | src/pages/PreferencesPage.tsx:157 | one element per key of the input, each the input's first element with that key, in the order of their positions |
| FirstOccurrence.KeepUpToPrefix | src/pages/PreferencesPage.tsx:157 | the filter on a prefix depends only on that prefix |
| FirstOccurrence.KeepFirstSnoc | src/pages/PreferencesPage.tsx:157 | appending an element keeps it exactly when its key is new, and changes nothing else |
| FirstOccurrence.KeepFirstCovers | src/pages/PreferencesPage.tsx:157 | every input element's key survives the filter |
| FirstOccurrence.KeepFirstNonEmpty | src/pages/PreferencesPage.tsx:157 | a non-empty input keeps at least one element |
| FirstOccurrence.KeepUpToDistinct | src/pages/PreferencesPage.tsx:157 | on distinct keys the filter on a prefix is the prefix |
| FirstOccurrence.KeepFirstDistinct | src/pages/PreferencesPage.tsx:157 | a list with distinct keys passes unchanged |
| FirstOccurrence.KeepFirstIdempotent | src/pages/PreferencesPage.tsx:157 | filtering twice is filtering once |
| ListOps.RemoveIndex | src/pages/Profile.tsx:71 | `filter((_, i) => i !== idx)` removes exactly position `idx`, or nothing when out of range |
| ListOps.DropLast | src/pages/Profile.tsx:78 | `slice(0, -1)`: the list minus its last element |
| Preferences.Collapse | src/pages/PreferencesPage.tsx:38 | `replace(/\s+/g, ' ')` keeps emptiness and whether the string starts with whitespace |
| Preferences.CollapseMatchesSpec | src/pages/PreferencesPage.tsx:38 | `replace(/\s+/g, ' ')` turns each whitespace run into exactly one space: the result is the whitespace-free pieces joined by single spaces, with one space in front and one behind exactly when the input starts or ends with whitespace |
| Preferences.CollapseSingleSpaces | src/pages/PreferencesPage.tsx:38 | after collapsing the only whitespace is ' ', never doubled |
| Preferences.CollapseLast | src/pages/PreferencesPage.tsx:38 | collapsing ends in whitespace exactly when the input does |
| Preferences.Normalized | src/pages/PreferencesPage.tsx:38 | `normalized` is canonical (trimmed, single spaces) and empty exactly for blank input |
| Preferences.NormalizedJoinsTokens | src/pages/PreferencesPage.tsx:38 | `normalized` is the whitespace-free pieces of the input joined by single spaces |
| Preferences.CollapseFixed | src/pages/PreferencesPage.tsx:38 | a single-spaced string is unchanged by collapsing |
| Preferences.CanonicalFixed | src/pages/PreferencesPage.tsx:38 | a canonical string is its own normal form |
| Preferences.NormalizedIdempotent | src/pages/PreferencesPage.tsx:38 | normalising twice is normalising once |
| Preferences.NormalizedKeepsContent | src/pages/PreferencesPage.tsx:38 | normalising keeps every non-whitespace character, in order |
| Preferences.AddFromInput | src/pages/PreferencesPage.tsx:42-51 | blank input does nothing; a duplicate up to case only clears the input; otherwise the normal form is appended |
| Preferences.AddFromInputDistinct | src/pages/PreferencesPage.tsx:42-51 | adding never puts two chips equal up to case in the list |
| Preferences.AddFromInputOnce | src/pages/PreferencesPage.tsx:42-51 | adding the same text twice adds at most one chip |
| Preferences.AddNotice | src/pages/PreferencesPage.tsx:42-51 | the "“…” est déjà ajouté" information, naming the normal form, is shown exactly when a non-blank input is already present up to case, that is exactly when a non-blank input adds no chip |
| Preferences.ChipsKeyDown | src/pages/PreferencesPage.tsx:53-62 | Enter and ',' add; Backspace on an empty input drops the last chip; other keys do nothing |
| Preferences.RemoveAt | src/pages/PreferencesPage.tsx:64-67 | removes exactly the chip at the index |
| Preferences.NonEmptyOnly | src/pages/PreferencesPage.tsx:156 | `filter(Boolean)` keeps exactly the non-empty entries |
| Preferences.NormalizeAll | src/pages/PreferencesPage.tsx:155 | `map(normalized)` position by position |
| Preferences.NormalizedEntries | src/pages/PreferencesPage.tsx:153-156 | the normalised non-empty entries are canonical; none exactly when every entry is blank |
| Preferences.NormalizedEntryKept | src/pages/PreferencesPage.tsx:153-157 | every non-blank entry's normal form survives up to case |
| Preferences.CleanedIsLeaders | src/pages/PreferencesPage.tsx:153-157 | normalise, drop empties, keep the first of each case-group: the result is the normal forms of the entries that are the first non-blank ones of their case-group, in input order |
| Preferences.CleanList | src/pages/PreferencesPage.tsx:153-157 | `cleanList` keeps, in input order, the normal form of the first non-blank entry of each case-group; the entries are canonical, non-empty, and no two are equal up to case |
| Preferences.CleanListEmpty | src/pages/PreferencesPage.tsx:153-157 | the cleaned list is empty exactly when every entry is blank |
| Preferences.CleanListCovers | src/pages/PreferencesPage.tsx:153-157 | cleaning drops only blanks and repeats: each non-blank entry is represented up to case |
| Preferences.CleanListIdempotent | src/pages/PreferencesPage.tsx:153-157 | cleaning a cleaned list changes nothing |
| Preferences.Validate | src/pages/PreferencesPage.tsx:159-167 | likes flagged iff all blank; color and animal flagged iff blank |
| Preferences.Submit | src/pages/PreferencesPage.tsx:171-190 | no token shows "Non authentifié" and goes back to "/"; errors block; the body is sent iff there is a token and no error, and holds each list cleaned as `cleanList` does, the trimmed color and animal, and at least one like; a blocked form records exactly `validate`'s flags |
| Preferences.FinishSubmit | src/pages/PreferencesPage.tsx:201-223 | only a saved reply clears the draft and moves to the dashboard, with "Préférences enregistrées avec succès !"; a refusal shows the server message or its fallback; a throw shows its message or "Une erreur est survenue." |
| Preferences.LoadDraft | src/pages/PreferencesPage.tsx:133-145 | a missing or unreadable draft changes nothing; each of the three lists is the draft's array or [], and color and animal the draft's string or '' |
| Preferences.DraftRoundTrip | src/pages/PreferencesPage.tsx:133-150 | a saved draft loads back as the same form |
| Profile.Candidate | src/pages/Profile.tsx:62-64 | the tag to add is a prefix of the trimmed text, of its full length up to 48 and of length 48 beyond; empty exactly for blank text |
| Profile.Add | src/pages/Profile.tsx:61-69 | appends the candidate iff it is new and the list has fewer than 50; a full list warns "Maximum 50 éléments" |
| Profile.AddKeepsWellFormed | src/pages/Profile.tsx:61-69 | adding keeps tags distinct, non-empty, at most 48 long and at most 50 |
| Profile.AddTwice | src/pages/Profile.tsx:61-69 | adding the same text twice adds at most one tag |
| Profile.Remove | src/pages/Profile.tsx:71 | removes exactly the tag at the index |
| Profile.KeyDown | src/pages/Profile.tsx:73-80 | Enter, ',' and ';' add the draft; Backspace on an empty draft drops the last tag |
| Profile.RemoveKeepsWellFormed | src/pages/Profile.tsx:71 | removing keeps the list well-formed |
| Profile.KeyDownKeepsWellFormed | src/pages/Profile.tsx:73-80 | every key keeps the list well-formed |
| Profile.SetBio | src/pages/Profile.tsx:320 | the bio is the typed text cut to 500 characters; nothing else changes |
| Profile.UserOf | src/pages/Profile.tsx:149 | the `user` field of `json.data`, or `{}`, is always truthy |
| Profile.Load | src/pages/Profile.tsx:136-165 | no id does nothing; no token ends the session; a failure keeps the preferences; a load takes each list's array or [], the color and animal when truthy or '', and drops the bio; a reply without `data` keeps the preferences and shows the engine's error; refusals and throws show the server message or their fallbacks |
| Profile.ReloadDiscardsEdits | src/pages/Profile.tsx:136-165 | a successful reload replaces the page's preferences whatever they were, so unsaved edits are lost |
| Profile.SaveThenLoad | src/pages/Profile.tsx:149-197 | preferences saved and served back load unchanged except the bio, which is lost |
| Profile.SaveAll | src/pages/Profile.tsx:167-181 | a blank name, then an invalid address, then a missing token stop in order; the account update carries the trimmed name and the address |
| Profile.ValidEmailIsTrimmed | src/pages/Profile.tsx:180 | trimming a valid address leaves it unchanged |
| Profile.FinishSave | src/pages/Profile.tsx:182-210 | preferences are sent only after the account update succeeded; "Profil mis à jour ✨" exactly when both succeed; each refusal and throw shows its message or its own fallback |
| Profile.SaveReportMatchesSync | src/pages/Profile.tsx:182-210 | the success toast is shown exactly when the user takes the trimmed name and address; the preferences reply matters only after the account update succeeded |
| Profile.Renamed | src/pages/Profile.tsx:203-204 | the user record takes the new name and address; its other fields and its id stay |
| Profile.SyncUser | src/pages/Profile.tsx:201-206 | after both requests succeed, the signed-in user's name and address become the trimmed ones in place; otherwise, or without a user, nothing changes; the user's ids never change |
| Session.Initial | src/context/AuthProvider.tsx:8-9 | on mount: no user, loading, the stored token |
| Session.FetchUser | src/context/AuthProvider.tsx:11-34 | no token: no request and no user; ok sets the payload, refusal clears the user, a throw keeps it; loading ends; the token is never touched |
| Session.HandleAuth | src/context/AuthProvider.tsx:40-44 | stores the body's token (the text "undefined" when absent) and re-fetches the user: an ok reply sets it, a refusal clears it, a throw keeps it |
| Session.Authenticate | src/context/AuthProvider.tsx:46-64 | only an accepted response changes the session; a refusal throws the fixed login or sign-up message; an unreadable body or a failed fetch throws the error's own message |
| Session.Logout | src/context/AuthProvider.tsx:66-69 | no token, no user |
| Session.LogoutIdempotent | src/context/AuthProvider.tsx:66-69 | logging out twice is logging out once |
| Session.FetchAfterLogout | src/context/AuthProvider.tsx:11-17 | after logout a user fetch sends nothing and yields no user |
| Session.ChildrenShownAfterMount | src/context/AuthProvider.tsx:36-38 | children are hidden on mount and shown after the first fetch, whatever it returns |
| Session.Guard | src/components/RequireAuth.tsx:5-12 | renders iff a provider with a user exists; otherwise replaces the entry by "/" |
| Session.GuardReadsOnlyUser | src/components/RequireAuth.tsx:8-10 | sessions with the same user get the same decision |
| Session.SignInOpensGuard | src/context/AuthProvider.tsx:40-64 | an accepted sign-in with a user opens guarded pages; logout closes them |
| Session.RefusalKeepsGuard | src/context/AuthProvider.tsx:56-64 | a refused sign-in leaves the guard's decision unchanged |
| AuthPage.RedirectIfSignedIn | src/pages/AuthPage.tsx:30-34 | a signed-in user is sent to the dashboard, replacing the entry, and only then |
| AuthPage.ToggleForm | src/pages/AuthPage.tsx:36-40 | ignored while submitting; otherwise switches mode and clears the fields |
| AuthPage.ToggleTwice | src/pages/AuthPage.tsx:36-40 | toggling twice returns to the same mode with fields cleared |
| AuthPage.Submit | src/pages/AuthPage.tsx:42-53 | the checks in source order with their messages, among them the short-password warning; a call happens iff all pass, with the fields as typed |
| AuthPage.StartSubmitting | src/pages/AuthPage.tsx:53-55 | the form is busy exactly when a call starts |
| AuthPage.FailureText | src/pages/AuthPage.tsx:66-72 | a message mentioning "courriel" or "mot de passe" becomes the generic one; any other is shown or falls back |
| AuthPage.FinishSubmit | src/pages/AuthPage.tsx:56-74 | success routes login to the dashboard with "Connexion réussie !" and sign-up to onboarding with "Compte créé avec succès !"; failure frees the form and shows the failure text |
| AuthPage.RefusedLoginMessage | src/pages/AuthPage.tsx:66-72 | a refused login shows "Identifiants invalides" as is |
| JoinGame.KeepAlnum | src/pages/JoinGame.tsx:24 | every ASCII letter and digit as often as in the input and no other character; identity on such strings |
| JoinGame.KeepAlnumAppend | src/pages/JoinGame.tsx:24 | filtering distributes over concatenation |
| JoinGame.FormatCode | src/pages/JoinGame.tsx:24 | a code of at most six upper-case letters and digits: the first six kept characters, upper-cased |
| JoinGame.FormatCodeFixesCodes | src/pages/JoinGame.tsx:24 | a code is its own format |
| JoinGame.FormatCodeIdempotent | src/pages/JoinGame.tsx:24 | formatting twice is formatting once |
| JoinGame.Prefill | src/pages/JoinGame.tsx:19-22 | a non-empty `?code=` replaces the field by its format |
| JoinGame.Submit | src/pages/JoinGame.tsx:26-40 | fewer than four characters stops first, then a missing token sends to /login; otherwise the formatted code is sent |
| JoinGame.PrefilledSubmit | src/pages/JoinGame.tsx:19-40 | submitting a prefilled field sends the formatted parameter |
| JoinGame.FinishJoin | src/pages/JoinGame.tsx:55-84 | success ("Bienvenue dans la partie!") and 409 ("Tu es déjà dans cette partie.") lead to the lobby; 401 ends the session; other failures only show an error, a throw its message or "Erreur inconnue." |
| JoinGame.RefusalFallbacks | src/pages/JoinGame.tsx:62-74 | the fallback texts by status; the 409 fallback text is never shown |
| Roster.AdminIdsOf | src/pages/LobbyAdminPage.tsx:312-316 | the admin ids are `adminIds` when non-empty, else the `adminUsers` ids |
| Roster.AdminSet | src/pages/LobbyAdminPage.tsx:138-147 | the admin-id set of the loaded game, empty before loading |
| Roster.Without | src/pages/LobbyAdminPage.tsx:255 | keeps exactly the players with another id |
| Roster.WithoutAppend | src/pages/LobbyAdminPage.tsx:255 | removal works piecewise, so order is kept |
| Roster.WithPlayers | src/pages/LobbyAdminPage.tsx:276 | only the roster of a present game is replaced |
| Roster.Select | src/pages/LobbyAdminPage.tsx:150-156 | all players for an empty query, otherwise exactly those whose lower-cased name or address contains it, each as often as in the roster |
| Roster.Insert | src/pages/LobbyAdminPage.tsx:157 | insertion adds exactly one element (multiset) |
| Roster.InsertSorted | src/pages/LobbyAdminPage.tsx:157 | inserting into a name-sorted list keeps it sorted |
| Roster.SortByName | src/pages/LobbyAdminPage.tsx:157 | the sort is a permutation |
| Roster.SortByNameSorted | src/pages/LobbyAdminPage.tsx:157 | under a consistent comparator the result is sorted by name |
| Roster.Filtered | src/pages/LobbyAdminPage.tsx:149-158 | `filtered` holds exactly the matching players, each as often as in the roster; every player for a blank search |
| Roster.FilteredSorted | src/pages/LobbyAdminPage.tsx:149-158 | `filtered` is sorted by name |
| LobbyAdmin.FetchGame | src/pages/LobbyAdminPage.tsx:100-130 | no token ends the session; no code does nothing; only a game I administer is stored; otherwise only a replacing redirect to /room/code; a refusal or throw records the server message or its fallback and never ends the session |
| LobbyAdmin.LoadedGameIsMine | src/pages/LobbyAdminPage.tsx:120-124 | a stored game lists me as admin, so I cannot be removed |
| LobbyAdmin.AskRemove | src/pages/LobbyAdminPage.tsx:221-232 | admins and myself are refused with an error; anyone else opens the confirmation |
| LobbyAdmin.CloseConfirm | src/pages/LobbyAdminPage.tsx:235-239 | closing is ignored while busy |
| LobbyAdmin.RemoveBegin | src/pages/LobbyAdminPage.tsx:242-258 | with game, target and token: busy, the target's id leaves the roster, the old roster is kept |
| LobbyAdmin.RemoveFinish | src/pages/LobbyAdminPage.tsx:259-280 | success closes with the server or default message; failure restores the roster and shows the failure text |
| LobbyAdmin.RemoveRollsBack | src/pages/LobbyAdminPage.tsx:250-276 | a failed removal restores exactly the previous game |
| LobbyAdmin.RemoveKeepsOthers | src/pages/LobbyAdminPage.tsx:250-273 | a successful removal keeps every other player and field |
| LobbyAdmin.Dedup | src/pages/LobbyAdminPage.tsx:328-330 | `Array.from(new Set(ids))`: the same ids, each once |
| LobbyAdmin.PromotedIds | src/pages/LobbyAdminPage.tsx:326-331 | the old admin ids plus the new one, each once |
| LobbyAdmin.RevokedIds | src/pages/LobbyAdminPage.tsx:365-370 | the old admin ids minus the revoked one, each once |
| LobbyAdmin.DropId | src/pages/LobbyAdminPage.tsx:368 | `set.delete`: exactly the other ids, still distinct |
| LobbyAdmin.PromoteBegin | src/pages/LobbyAdminPage.tsx:319-331 | with game and token the admin ids gain the player and the whole game is kept |
| LobbyAdmin.RevokeBegin | src/pages/LobbyAdminPage.tsx:353-370 | revoking myself is refused before the token check; otherwise the admin ids lose the player |
| LobbyAdmin.AdminFinish | src/pages/LobbyAdminPage.tsx:333-390 | success keeps the optimistic game and announces the change, by default naming the player; a refusal or throw restores the snapshot with the change's own fallback text |
| LobbyAdmin.PromoteInserts | src/pages/LobbyAdminPage.tsx:326-331 | the new admin set is the old one plus the player; nothing else changes |
| LobbyAdmin.RevokeDeletes | src/pages/LobbyAdminPage.tsx:365-370 | while I am admin, the new set is the old one minus the player and still holds me |
| LobbyAdmin.AdminRollsBack | src/pages/LobbyAdminPage.tsx:324-390 | a failed promotion or revocation restores exactly the previous page state |
| PlayerLobby.FetchGame | src/pages/PlayerLobby.tsx:87-109 | no token ends the session; no code does nothing; a loaded game is stored with no toast and no logout; a join redirect iff I am neither admin nor player; a refusal or throw records the server message or its fallback |
| PlayerLobby.RedirectMatchesStatus | src/pages/PlayerLobby.tsx:99-126 | the redirect happens iff the page's own admin and player flags are both false |
| PlayerLobby.AskLeave | src/pages/PlayerLobby.tsx:180 | opens the leave dialog and nothing else |
| PlayerLobby.CloseLeave | src/pages/PlayerLobby.tsx:181 | closing is ignored while leaving |
| PlayerLobby.LeaveBegin | src/pages/PlayerLobby.tsx:182-187 | with game and token: busy, my entries leave the roster, the old roster is kept |
| PlayerLobby.LeaveFinish | src/pages/PlayerLobby.tsx:188-200 | success closes and goes to the dashboard; failure restores the roster with its message |
| PlayerLobby.LeavingHidesMe | src/pages/PlayerLobby.tsx:181-187 | while leaving I am not listed and the dialog cannot close |
| PlayerLobby.LeaveRollsBack | src/pages/PlayerLobby.tsx:186-197 | a failed leave restores exactly the previous game |
| CreateGame.SetAt | src/pages/createGame.tsx:30-34 | `copy[i] = v`: sets position i, keeps the others, and leaves holes when writing past the end |
| CreateGame.DropSlot | src/pages/createGame.tsx:68 | the index filter drops holes too; without holes it removes exactly the index |
| CreateGame.Offered | src/pages/createGame.tsx:176 | a row offers the names in its slot, none for a hole or missing slot |
| CreateGame.PlayerChange | src/pages/createGame.tsx:15-46 | the row takes the value; over two characters a found search fills its slot and a failed one changes nothing; otherwise the slot is emptied |
| CreateGame.SelectSuggestion | src/pages/createGame.tsx:48-59 | the row takes the name and offers nothing more |
| CreateGame.AddPlayer | src/pages/createGame.tsx:61-64 | one more empty row and empty slot |
| CreateGame.RemovePlayer | src/pages/createGame.tsx:66-69 | the row and its slot go |
| CreateGame.PlayerChangeAligned | src/pages/createGame.tsx:15-46 | editing a row keeps rows and slots aligned, with no holes |
| CreateGame.SelectSuggestionAligned | src/pages/createGame.tsx:48-59 | choosing a suggestion keeps rows and slots aligned |
| CreateGame.AddPlayerAligned | src/pages/createGame.tsx:61-64 | adding a row keeps rows and slots aligned |
| CreateGame.RemovePlayerAligned | src/pages/createGame.tsx:66-69 | an offered removal keeps alignment and removes exactly the row's slot |
| CreateGame.SubmitStart | src/pages/createGame.tsx:71-97 | an incomplete form stops with its message, then a missing token with "Non authentifié"; otherwise the form is posted as typed |
| CreateGame.FinishCreate | src/pages/createGame.tsx:98-104 | a created game opens its lobby; failures show the server, fallback or thrown message |
| CreateGame.InitialNotSent | src/pages/createGame.tsx:10 | the starting form, with its empty row, is never posted |
| CreateGame.SentPlayersNotBlank | src/pages/createGame.tsx:75-95 | a posted form has no blank player row |
| Dashboard.WithoutGame | src/pages/Dashboard.tsx:44 | keeps exactly the games with another id, each as often as before; the list is unchanged when no game has the id |
| Dashboard.WithoutGameAppend | src/pages/Dashboard.tsx:44 | the filter works piecewise over concatenation, so the games kept stay in order |
| Dashboard.LeaveGame | src/pages/Dashboard.tsx:29-55 | no token: error, no request; declined: nothing; ok drops the game; 401 ends the session; other failures report their message |
| Dashboard.FetchGames | src/pages/Dashboard.tsx:57-101 | no user: nothing; no token: no games; a request always ends loading; ok lists the data or nothing; abort is silent; 401 ends the session and records no error; no other reply raises a toast |
| Dashboard.LeaveAfterFetch | src/pages/Dashboard.tsx:44-82 | leaving a just-loaded game removes it and only it |
| Dashboard.FailedLeaveKeepsGames | src/pages/Dashboard.tsx:29-55 | a declined or failed leave never changes the list |

## Left out

- Rendering, animations, toasts' timing, and the 900 ms delay before the dashboard redirect: only their effects are modelled.
- Network access, JSON parsing and local storage are not modelled. They are parameters: request outcomes, parsed drafts and the stored token.
- Interleavings of concurrent requests (a search answering after its row was removed, two fetches racing) are out of scope: each request's outcome is applied where the code awaits it.
- The lobbies' `drawPairs`, `openProfile` / `closeProfile`, `copyLink`, `copyCode` and `shareJoin`: they are fire-and-report requests or clipboard and share calls that do not change the modelled state.
- Profile.SaveAll: the call to the context's `setUser` after saving is left out, because the provider exposes no setter and the call does nothing. The in-place write of the name and address into the user object is modelled (`Profile.SyncUser`). A user record without a `name` or `email` property is not modelled: the record always has both.
- Preferences.FinishSubmit: the update of the provider's user from the reply is left out, because it goes through `auth.setUser`, which the provider does not expose, so it does nothing.
- `Number(...)` inputs for weeks and reminder days are integers here; NaN and fractions are not modelled.
- Payload arrays are string arrays; arrays holding other values, and game payloads missing fields, are not modelled.
- Roster.SortByName: modelled as a stable insertion sort. Sortedness is proved for any consistent comparator. Stability and the engine's own sort algorithm are not.
- LobbyAdmin.RevokeDeletes: proved only while I am an admin and revoke someone else. Emptying `adminIds` would make the page fall back to `adminUsers`, and no reachable flow produces that.
- Dashboard.LeaveGame: a thrown error without a message shows the error object itself (`err?.message ?? err`); the model shows an empty text.
- Avatar.Initials and the search use `toUpperCase` / `toLowerCase` as parameters: Unicode case mapping is not modelled.
- JsText.Trim: the contract states only the shape of the result. That exactly the surrounding whitespace goes is the lemma `JsText.TrimPadded`, kept out of the contract for proof cost.
- Preferences.Collapse: the contract states emptiness and the leading character only. The whole result is the lemma `Preferences.CollapseMatchesSpec`, kept out of the contract for proof cost.
- Preferences.Normalized: the contract states canonical form and emptiness. The whole result is the lemma `Preferences.NormalizedJoinsTokens`, kept out of the contract for proof cost.
- Avatar.Initials: the contract states non-emptiness and the fallback. The exact initials are the lemma `Avatar.InitialsOfFirstTwoWords`, for one-character upper-casing.
- Avatar.HashIdx, Avatar.Initials, Profile.Candidate, Profile.SetBio, AuthPage.Submit, CreateGame.PlayerChange: characters outside the Basic Multilingual Plane count as one character here and as two code units in JavaScript. Hashes of their code, `w[0]`, the 48- and 500-character caps, the six-character password minimum and the over-two-characters search threshold differ for such text.
- Profile.Load: the loading effect also re-runs whenever the name field changes (`name` is among its dependencies), so typing a name reloads the preferences and discards unsaved tags, color, animal and bio. When the effect runs is not modelled; `Profile.ReloadDiscardsEdits` shows what each run does to the edits.

=== FILE: authpage.dfy ===
/** The sign-in / sign-up page (src/pages/AuthPage.tsx): the redirect of a
    signed-in user, the form toggle, the checks of `handleSubmit` in their
    order, the routing after success and the error message shown.
    `lower` stands for `String.prototype.toLowerCase`. */
module AuthPage {
  import opened Wrappers
  import opened JsText
  import opened Email
  import opened Users
  import Session

  const MinPassword: nat := 6

  datatype AuthForm = AuthForm(isLogin: bool, name: string, email: string, password: string, submitting: bool)

  const InitialForm := AuthForm(true, "", "", "", false)

  /** A signed-in user is sent to the dashboard, replacing the entry. */
  function RedirectIfSignedIn(user: Option<User>): (r: Option<Nav>)
    ensures r.Some? <==> user.Some?
    ensures r.Some? ==> r.value == Nav("/dashboard", true)
  {
    if user.Some? then Some(Nav("/dashboard", true)) else None
  }

  /** `toggleForm`: ignored while a request is running; otherwise the other
      mode with all three fields empty. */
  function ToggleForm(f: AuthForm): (r: AuthForm)
    ensures f.submitting ==> r == f
    ensures !f.submitting ==> r.isLogin == !f.isLogin && r.name == "" && r.email == "" && r.password == "" && !r.submitting
  {
    if f.submitting then f else AuthForm(!f.isLogin, "", "", "", false)
  }

  /** Toggling twice returns to the first mode, with the fields cleared. */
  lemma ToggleTwice(f: AuthForm)
    requires !f.submitting
    ensures ToggleForm(ToggleForm(f)) == f.(name := "", email := "", password := "")
  {
  }

  datatype AuthStart =
    | AuthStopped(notice: Notice)
    | CallLogin(email: string, password: string)
    | CallSignup(name: string, email: string, password: string)

  /** All the checks pass. */
  predicate Acceptable(f: AuthForm) {
    && f.email != "" && f.password != ""
    && EmailValid(f.email)
    && (f.isLogin || !Blank(f.name))
    && |f.password| >= MinPassword
  }

  /** The synchronous part of `handleSubmit`. Each check, in order, stops
      with its own message before any call: no provider, a missing address
      or password, an invalid address, a blank name when signing up, a
      password under six characters. Only a form passing every check reaches
      the provider, with the fields as typed. */
  function Submit(f: AuthForm, hasContext: bool): (r: AuthStart)
    ensures !r.AuthStopped? <==> hasContext && Acceptable(f)
    ensures !hasContext ==> r == AuthStopped(Error("Erreur interne : AuthContext indisponible"))
    ensures hasContext && (f.email == "" || f.password == "") ==> r == AuthStopped(Warning("Courriel et mot de passe sont requis."))
    ensures hasContext && f.email != "" && f.password != "" && !EmailValid(f.email) ==>
      r == AuthStopped(Warning("Veuillez entrer une adresse courriel valide."))
    ensures hasContext && f.email != "" && f.password != "" && EmailValid(f.email) && !f.isLogin && Blank(f.name) ==>
      r == AuthStopped(Warning("Le nom est requis."))
    ensures (hasContext && f.email != "" && f.password != "" && EmailValid(f.email) && (f.isLogin || !Blank(f.name))
             && |f.password| < MinPassword) ==>
      r == AuthStopped(Warning("Mot de passe trop court (min. 6 caractères)."))
    ensures r.CallLogin? <==> hasContext && Acceptable(f) && f.isLogin
    ensures r.CallLogin? ==> r == CallLogin(f.email, f.password)
    ensures r.CallSignup? ==> r == CallSignup(f.name, f.email, f.password)
  {
    if !hasContext then AuthStopped(Error("Erreur interne : AuthContext indisponible"))
    else if f.email == "" || f.password == "" then AuthStopped(Warning("Courriel et mot de passe sont requis."))
    else if !EmailValid(f.email) then AuthStopped(Warning("Veuillez entrer une adresse courriel valide."))
    else if !f.isLogin && Blank(f.name) then AuthStopped(Warning("Le nom est requis."))
    else if |f.password| < MinPassword then AuthStopped(Warning("Mot de passe trop court (min. 6 caractères)."))
    else if f.isLogin then CallLogin(f.email, f.password)
    else CallSignup(f.name, f.email, f.password)
  }

  /** The form while the call runs. */
  function StartSubmitting(f: AuthForm, hasContext: bool): (r: AuthForm)
    ensures r.submitting <==> f.submitting || !Submit(f, hasContext).AuthStopped?
    ensures r == f.(submitting := r.submitting)
  {
    if Submit(f, hasContext).AuthStopped? then f else f.(submitting := true)
  }

  /** The message shown for a failed call with error message `message`: a
      message that mentions the address or the password (in any case) is
      replaced by a generic one; any other is shown as it is, or a fallback
      when empty. */
  function FailureText(message: Option<string>, lower: string -> string): (t: string)
    ensures var m := lower(message.GetOr(""));
      Includes(m, "courriel") || Includes(m, "mot de passe") ==> t == "Courriel ou mot de passe incorrect"
    ensures var m := lower(message.GetOr(""));
      !Includes(m, "courriel") && !Includes(m, "mot de passe") ==> t == OrElse(message, "Erreur d'authentification.")
  {
    var m := lower(message.GetOr(""));
    if Includes(m, "courriel") || Includes(m, "mot de passe") then "Courriel ou mot de passe incorrect"
    else OrElse(message, "Erreur d'authentification.")
  }

  datatype AuthFinish = AuthFinish(form: AuthForm, effects: Effects)

  /** After the call: success routes a login to the dashboard and a sign-up
      to onboarding, both replacing the entry, and leaves the form busy; a
      failure shows `FailureText` and frees the form. */
  function FinishSubmit(f: AuthForm, error: Option<Option<string>>, lower: string -> string): (r: AuthFinish)
    ensures error.None? && f.isLogin ==> r.effects.nav == Some(Nav("/dashboard", true))
    ensures error.None? && !f.isLogin ==> r.effects.nav == Some(Nav("/onboard", true))
    ensures error.None? ==> r.form == f && r.effects.notice.Some? && r.effects.notice.value.Success?
    ensures error.None? && f.isLogin ==> r.effects.notice == Some(Success("Connexion réussie !"))
    ensures error.None? && !f.isLogin ==> r.effects.notice == Some(Success("Compte créé avec succès !"))
    ensures error.Some? ==> r.form == f.(submitting := false) && r.effects == Toast(Error(FailureText(error.value, lower)))
    ensures !r.effects.logout
  {
    match error
    case None =>
      if f.isLogin then AuthFinish(f, Effects(Some(Success("Connexion réussie !")), false, Some(Nav("/dashboard", true))))
      else AuthFinish(f, Effects(Some(Success("Compte créé avec succès !")), false, Some(Nav("/onboard", true))))
    case Some(m) => AuthFinish(f.(submitting := false), Toast(Error(FailureText(m, lower))))
  }

  /** A string without the first character of `q` does not contain `q`. */
  lemma MissingFirstChar(s: string, q: string)
    requires q != [] && q[0] !in s
    ensures !Includes(s, q)
  {
    forall i | 0 <= i <= |s| ensures !(q <= s[i..]) {
      if i < |s| {
        assert s[i..][0] == s[i] != q[0];
      }
    }
  }

  /** A refused login shows the provider's own message: with the usual
      lower-casing it mentions neither "courriel" nor "mot de passe". */
  lemma RefusedLoginMessage(f: AuthForm, lower: string -> string)
    requires f.isLogin
    requires lower(Session.LoginRefused) == "identifiants invalides"
    ensures FinishSubmit(f, Some(Some(Session.LoginRefused)), lower).effects == Toast(Error("Identifiants invalides"))
  {
    var m := "identifiants invalides";
    assert 'c' !in m;
    assert 'm' !in m;
    MissingFirstChar(m, "courriel");
    MissingFirstChar(m, "mot de passe");
  }
}

=== FILE: avatar.dfy ===
/** The avatar helpers shared by the lobby pages and the profile page: a
    string hash that picks one of six gradients, and the initials shown in the
    avatar bubble (src/pages/LobbyAdminPage.tsx, src/pages/PlayerLobby.tsx,
    src/pages/Profile.tsx each carry an identical copy). */
module Avatar {
  import opened JsText

  /** The six avatar gradients, in source order. */
  const Grads: seq<string> := [
    "from-emerald-400 to-green-600",
    "from-sky-400 to-blue-600",
    "from-fuchsia-400 to-purple-600",
    "from-amber-400 to-orange-600",
    "from-pink-400 to-rose-600",
    "from-teal-400 to-cyan-600"
  ]

  const Uint32Modulus: nat := 0x1_0000_0000

  /** One step of the hash, `(h * 31 + code) >>> 0`. For `h` below 2^32 and a
      code unit below 2^16 the product is exact in a double, so `>>> 0` is
      reduction modulo 2^32. */
  function HashStep(h: nat, c: char): (r: nat)
    ensures r < Uint32Modulus
  {
    (h * 31 + c as int) % Uint32Modulus
  }

  /** The hash accumulated over all of `s`, left to right. */
  function Hash(s: string): (h: nat)
    ensures h < Uint32Modulus
  {
    if s == [] then 0 else HashStep(Hash(s[..|s| - 1]), s[|s| - 1])
  }

  /** `hashIdx`: the loop of the source, proved to compute `Hash(s)` and to
      keep the accumulator a uint32; the index always selects a gradient. */
  method HashIdx(s: string) returns (idx: nat)
    ensures idx < |Grads|
    ensures idx == Hash(s) % |Grads|
  {
    var h: nat := 0;
    var i := 0;
    while i < |s|
      invariant 0 <= i <= |s|
      invariant h < Uint32Modulus
      invariant h == Hash(s[..i])
    {
      assert s[..i + 1][..i] == s[..i];
      h := (h * 31 + s[i] as int) % Uint32Modulus;
      i := i + 1;
    }
    assert s[..|s|] == s;
    idx := h % |Grads|;
  }

  /** `initials`: the upper-cased first characters of the first two words of
      the trimmed name, or "🙂" when that yields nothing. `upper` stands for
      `String.prototype.toUpperCase`. */
  function Initials(name: string, upper: string -> string): (r: string)
    ensures Blank(name) ==> r == "🙂"
    ensures r != []
  {
    var ws := Words(Trim(name));
    var firsts := if |ws| == 0 then [] else if |ws| == 1 then upper(ws[0][..1]) else upper(ws[0][..1]) + upper(ws[1][..1]);
    if firsts == [] then "🙂" else firsts
  }

  /** The initials start with the upper-cased first character of the trimmed
      name, for an upper-casing that maps no character to nothing. */
  lemma InitialsStartWithFirstLetter(name: string, upper: string -> string)
    requires !Blank(name)
    requires forall c: char :: upper([c]) != []
    ensures upper([Trim(name)[0]]) <= Initials(name, upper)
  {
    var t := Trim(name);
    assert !IsSpace(t[0]);
    FirstWordStart(t);
    assert Words(t)[0][..1] == [t[0]];
  }

  /** When upper-casing maps every character to a single character (true for
      ASCII, false for 'ß' which becomes "SS"), the initials are at most two
      characters, exactly two when the name has two words. */
  lemma InitialsAtMostTwo(name: string, upper: string -> string)
    requires forall c: char :: |upper([c])| == 1
    ensures |Initials(name, upper)| <= 2
    ensures |Words(Trim(name))| >= 2 ==> |Initials(name, upper)| == 2
  {
    var ws := Words(Trim(name));
    if |ws| >= 1 {
      assert ws[0][..1] == [ws[0][0]];
      assert |upper(ws[0][..1])| == 1;
    }
    if |ws| >= 2 {
      assert ws[1][..1] == [ws[1][0]];
      assert |upper(ws[1][..1])| == 1;
    }
  }

  /** When upper-casing maps every character to a single character, the
      initials are the upper-cased first characters of the first two words
      of the trimmed name: one for a one-word name, two otherwise, and the
      fallback for a name without words. */
  lemma InitialsOfFirstTwoWords(name: string, upper: string -> string)
    requires forall c: char :: |upper([c])| == 1
    ensures var ws := Words(Trim(name));
      |ws| == 0 ==> Initials(name, upper) == "🙂"
    ensures var ws := Words(Trim(name));
      |ws| == 1 ==> Initials(name, upper) == upper([ws[0][0]])
    ensures var ws := Words(Trim(name));
      |ws| >= 2 ==> Initials(name, upper) == upper([ws[0][0]]) + upper([ws[1][0]])
  {
    var ws := Words(Trim(name));
    if |ws| == 1 {
      assert ws[0][..1] == [ws[0][0]];
      assert |upper([ws[0][0]])| == 1;
    } else if |ws| >= 2 {
      assert ws[0][..1] == [ws[0][0]];
      assert ws[1][..1] == [ws[1][0]];
      assert |upper([ws[0][0]])| == 1;
    }
  }
}

=== FILE: creategame.dfy ===
/** The game creation page (src/pages/createGame.tsx): the player rows with
    their name suggestions, kept side by side in two arrays, and the checks
    and outcomes of creating the game. The user search and the creation
    request are abstract outcomes. */
module CreateGame {
  import opened Wrappers
  import opened JsText
  import opened ListOps

  /** A slot of the suggestions array: a list of names, or a hole
      (`None`) left when a later index was assigned first. */
  type Slot = Option<seq<string>>

  datatype CreateForm = CreateForm(name: string, weeks: int, reminderDays: int,
                                   players: seq<string>, suggestions: seq<Slot>, error: string)

  const InitialForm := CreateForm("", 4, 2, [""], [], "")

  /** `copy[index] = v` on a copy of the array: past the end, the array grows
      and the positions in between are holes. */
  function SetAt(a: seq<Slot>, i: nat, v: seq<string>): (r: seq<Slot>)
    ensures |r| == if i < |a| then |a| else i + 1
    ensures r[i] == Some(v)
    ensures forall j :: 0 <= j < |a| && j != i ==> r[j] == a[j]
    ensures forall j :: |a| <= j < i ==> r[j].None?
  {
    if i < |a| then a[i := Some(v)] else a + seq(i - |a|, _ => None) + [Some(v)]
  }

  /** `prev.filter((_, i) => i !== index)` on the suggestions: the callback
      never sees a hole, so holes vanish along with the slot at `index`. */
  function DropSlot(a: seq<Slot>, index: int): (r: seq<Slot>)
    ensures forall k :: 0 <= k < |r| ==> r[k].Some?
    ensures (forall j :: 0 <= j < |a| ==> a[j].Some?) ==> r == RemoveIndex(a, index)
  {
    if a == [] then []
    else (if index != 0 && a[0].Some? then [a[0]] else []) + DropSlot(a[1..], index - 1)
  }

  /** The rows and suggestion slots stay side by side: at least one row, at
      most one row without a slot (the last), and no holes. */
  predicate Aligned(f: CreateForm) {
    && 1 <= |f.players|
    && |f.players| - 1 <= |f.suggestions| <= |f.players|
    && forall j :: 0 <= j < |f.suggestions| ==> f.suggestions[j].Some?
  }

  /** The names a row offers below its field. */
  function Offered(f: CreateForm, i: nat): (r: seq<string>)
    ensures r != [] ==> i < |f.suggestions| && f.suggestions[i] == Some(r)
  {
    if i < |f.suggestions| && f.suggestions[i].Some? then f.suggestions[i].value else []
  }

  /** How the user search answered: the names of the matches, or nothing
      (refused, unreadable or thrown). */
  datatype Search = Found(names: seq<string>) | SearchFailed

  /** `handlePlayerChange` for row `i`: the row takes the typed value; past
      two characters a successful search fills the row's suggestions and a
      failed one leaves them; otherwise they are emptied. */
  function PlayerChange(f: CreateForm, i: nat, value: string, search: Search): (r: CreateForm)
    requires i < |f.players|
    ensures r.players == f.players[i := value]
    ensures r.name == f.name && r.weeks == f.weeks && r.reminderDays == f.reminderDays && r.error == f.error
    ensures |value| <= 2 ==> Offered(r, i) == []
    ensures |value| > 2 && search.Found? ==> Offered(r, i) == search.names
    ensures |value| > 2 && search.SearchFailed? ==> r.suggestions == f.suggestions
    ensures |f.suggestions| <= |r.suggestions|
    ensures forall j :: 0 <= j < |f.suggestions| && j != i ==> r.suggestions[j] == f.suggestions[j]
  {
    var players := f.players[i := value];
    if |value| > 2 then
      match search
      case Found(names) => f.(players := players, suggestions := SetAt(f.suggestions, i, names))
      case SearchFailed => f.(players := players)
    else f.(players := players, suggestions := SetAt(f.suggestions, i, []))
  }

  /** `selectSuggestion`: the row takes the chosen name and offers nothing
      more. */
  function SelectSuggestion(f: CreateForm, i: nat, name: string): (r: CreateForm)
    requires i < |f.players|
    ensures r.players == f.players[i := name]
    ensures Offered(r, i) == []
    ensures |f.suggestions| <= |r.suggestions|
    ensures forall j :: 0 <= j < |f.suggestions| && j != i ==> r.suggestions[j] == f.suggestions[j]
    ensures r.name == f.name && r.weeks == f.weeks && r.reminderDays == f.reminderDays && r.error == f.error
  {
    f.(players := f.players[i := name], suggestions := SetAt(f.suggestions, i, []))
  }

  /** `addPlayer`: one more empty row and one more empty slot. */
  function AddPlayer(f: CreateForm): (r: CreateForm)
    ensures r.players == f.players + [""]
    ensures r.suggestions == f.suggestions + [Some([])]
    ensures r.name == f.name && r.error == f.error
  {
    f.(players := f.players + [""], suggestions := f.suggestions + [Some([])])
  }

  /** The remove control is shown only while there is more than one row. */
  predicate RemoveOffered(f: CreateForm) {
    |f.players| > 1
  }

  /** `removePlayer`: the row and its slot go. */
  function RemovePlayer(f: CreateForm, i: nat): (r: CreateForm)
    ensures r.players == RemoveIndex(f.players, i)
    ensures r.suggestions == DropSlot(f.suggestions, i)
    ensures r.name == f.name && r.error == f.error
  {
    f.(players := RemoveIndex(f.players, i), suggestions := DropSlot(f.suggestions, i))
  }

  lemma InitialAligned()
    ensures Aligned(InitialForm)
  {
  }

  /** Every edit the page offers keeps rows and slots side by side, so a
      removal takes out the suggestions of the removed row and no other. */
  lemma PlayerChangeAligned(f: CreateForm, i: nat, value: string, search: Search)
    requires Aligned(f) && i < |f.players|
    ensures Aligned(PlayerChange(f, i, value, search))
  {
  }

  lemma SelectSuggestionAligned(f: CreateForm, i: nat, name: string)
    requires Aligned(f) && i < |f.players|
    ensures Aligned(SelectSuggestion(f, i, name))
  {
  }

  lemma AddPlayerAligned(f: CreateForm)
    requires Aligned(f)
    ensures Aligned(AddPlayer(f))
  {
  }

  lemma RemovePlayerAligned(f: CreateForm, i: nat)
    requires Aligned(f) && RemoveOffered(f) && i < |f.players|
    ensures Aligned(RemovePlayer(f, i))
    ensures RemovePlayer(f, i).suggestions == RemoveIndex(f.suggestions, i)
  {
  }

  /** The form passes `handleSubmit`'s check: a non-blank name, at least one
      week, a reminder delay that is not negative, and no blank row. */
  predicate Complete(f: CreateForm) {
    && !Blank(f.name)
    && f.weeks > 0
    && f.reminderDays >= 0
    && forall j :: 0 <= j < |f.players| ==> !Blank(f.players[j])
  }

  /** The body posted to `/games`: the fields as typed. */
  datatype CreateBody = CreateBody(name: string, weeks: int, reminderDays: int, players: seq<string>)

  datatype CreateStart = CreateStopped(form: CreateForm) | CreateSend(form: CreateForm, body: CreateBody)

  /** The synchronous part of `handleSubmit`: the error is cleared; an
      incomplete form stops with a message, then a missing token stops with
      "Non authentifié"; otherwise the form is posted as typed. */
  function SubmitStart(f: CreateForm, token: Option<string>): (r: CreateStart)
    ensures r.CreateSend? <==> Complete(f) && HasToken(token)
    ensures !Complete(f) ==> r == CreateStopped(f.(error := "Veuillez remplir tous les champs correctement."))
    ensures Complete(f) && !HasToken(token) ==> r == CreateStopped(f.(error := "Non authentifié"))
    ensures r.CreateSend? ==> r.form == f.(error := "") && r.body == CreateBody(f.name, f.weeks, f.reminderDays, f.players)
  {
    var g := f.(error := "");
    if Blank(Trim(f.name)) || f.weeks <= 0 || f.reminderDays < 0 || exists j :: 0 <= j < |f.players| && Trim(f.players[j]) == "" then
      CreateStopped(g.(error := "Veuillez remplir tous les champs correctement."))
    else if !HasToken(token) then CreateStopped(g.(error := "Non authentifié"))
    else CreateSend(g, CreateBody(f.name, f.weeks, f.reminderDays, f.players))
  }

  /** How the creation request ended: created with the game's code, refused
      with the body's message, or thrown (an unreadable body or a failed
      fetch) with the error's message. */
  datatype CreateReply = Created(code: string) | CreateNotOk(message: Option<string>) | CreateThrew(thrown: string)

  datatype CreateEnd = CreateEnd(form: CreateForm, nav: Option<Nav>)

  /** The rest of `handleSubmit`: a created game opens its lobby; any failure
      shows its message, the refusal's falling back to a fixed text. */
  function FinishCreate(f: CreateForm, reply: CreateReply): (r: CreateEnd)
    ensures r.nav.Some? <==> reply.Created?
    ensures reply.Created? ==> r == CreateEnd(f, Some(Nav("/lobby/" + reply.code, false)))
    ensures reply.CreateNotOk? ==> r.form == f.(error := OrElse(reply.message, "Erreur lors de la création de la partie"))
    ensures reply.CreateThrew? ==> r.form == f.(error := reply.thrown)
  {
    match reply
    case Created(code) => CreateEnd(f, Some(Nav("/lobby/" + code, false)))
    case CreateNotOk(m) => CreateEnd(f.(error := OrElse(m, "Erreur lors de la création de la partie")), None)
    case CreateThrew(m) => CreateEnd(f.(error := m), None)
  }

  /** The starting form is never posted: its only row is empty. */
  lemma InitialNotSent(token: Option<string>)
    ensures SubmitStart(InitialForm, token).CreateStopped?
  {
  }

  /** A posted form sends every player row, none of them blank. */
  lemma SentPlayersNotBlank(f: CreateForm, token: Option<string>)
    requires SubmitStart(f, token).CreateSend?
    ensures forall j :: 0 <= j < |SubmitStart(f, token).body.players| ==> Trim(SubmitStart(f, token).body.players[j]) != ""
  {
  }
}

=== FILE: dashboard.dfy ===
/** The dashboard (src/pages/Dashboard.tsx): loading my games and leaving
    one of them. The browser's confirmation dialog and the responses are
    parameters; the toasts, logout and navigation are effects. */
module Dashboard {
  import opened Wrappers

  /** A game as listed; `adminName` is the admin's name when the game has
      one. */
  datatype GameSummary = GameSummary(id: string, name: string, code: string, weeks: int, reminder: int, adminName: Option<string>)

  datatype Dash = Dash(loading: bool, error: Option<string>, games: seq<GameSummary>)

  const InitialDash := Dash(false, None, [])

  /** `prev.filter((g) => g._id !== gameId)`: keeps exactly the other games,
      in order. */
  function WithoutGame(games: seq<GameSummary>, id: string): (r: seq<GameSummary>)
    ensures forall g :: g in r <==> g in games && g.id != id
    ensures forall g :: multiset(r)[g] == if g.id != id then multiset(games)[g] else 0
    ensures |r| <= |games|
    ensures (forall i :: 0 <= i < |games| ==> games[i].id != id) ==> r == games
  {
    if games == [] then []
    else
      var rest := WithoutGame(games[1..], id);
      var r := if games[0].id != id then [games[0]] + rest else rest;
      WithoutGameStep(games, id, rest, r);
      r
  }

  /** One step of the filter: what the first game adds to the games kept
      from the rest. */
  lemma WithoutGameStep(games: seq<GameSummary>, id: string, rest: seq<GameSummary>, r: seq<GameSummary>)
    requires games != []
    requires forall g :: multiset(rest)[g] == if g.id != id then multiset(games[1..])[g] else 0
    requires |rest| <= |games| - 1
    requires (forall i :: 0 <= i < |games| - 1 ==> games[1..][i].id != id) ==> rest == games[1..]
    requires r == if games[0].id != id then [games[0]] + rest else rest
    ensures forall g :: multiset(r)[g] == if g.id != id then multiset(games)[g] else 0
    ensures forall g :: g in r <==> g in games && g.id != id
    ensures |r| <= |games|
    ensures (forall i :: 0 <= i < |games| ==> games[i].id != id) ==> r == games
  {
    if forall i :: 0 <= i < |games| ==> games[i].id != id {
      assert forall i :: 0 <= i < |games| - 1 ==> games[1..][i].id != id;
    }
    assert games == [games[0]] + games[1..];
    assert multiset(games) == multiset{games[0]} + multiset(games[1..]);
    if games[0].id != id {
      assert multiset(r) == multiset{games[0]} + multiset(rest);
    }
    forall g ensures g in r <==> g in games && g.id != id {
      assert g in r <==> multiset(r)[g] > 0;
      assert g in games <==> multiset(games)[g] > 0;
    }
  }

  /** The filter works piecewise, so the games kept stay in their order. */
  lemma {:induction false} WithoutGameAppend(a: seq<GameSummary>, b: seq<GameSummary>, id: string)
    ensures WithoutGame(a + b, id) == WithoutGame(a, id) + WithoutGame(b, id)
    decreases |a|
  {
    if a == [] {
      assert a + b == b;
    } else {
      assert (a + b)[0] == a[0];
      assert (a + b)[1..] == a[1..] + b;
      WithoutGameAppend(a[1..], b, id);
      if a[0].id != id {
        assert [a[0]] + WithoutGame(a[1..], id) + WithoutGame(b, id)
            == [a[0]] + (WithoutGame(a[1..], id) + WithoutGame(b, id));
      }
    }
  }

  /** How a request ended: ok; not ok with the status and the body's
      `message` (absent when the body is not JSON); or thrown with the
      error's name and message. */
  datatype Reply<T> = Ok(data: T) | NotOk(status: int, message: Option<string>) | Threw(name: string, thrown: Option<string>)

  /** The session-expired effects of a 401. */
  predicate Expired(e: Effects) {
    e == SessionExpired
  }

  /** The message the page shows for a failed request: the body's message
      (or `fallback`) for a refusal, the error's message for a throw. */
  function ErrorMessage<T>(reply: Reply<T>, fallback: string): string {
    match reply
    case Ok(_) => ""
    case NotOk(_, m) => OrElse(m, fallback)
    case Threw(_, m) => m.GetOr("")
  }

  datatype LeaveEnd = LeaveEnd(dash: Dash, effects: Effects, requested: bool)

  /** `leaveGame`: without a token, an error and no request; a declined
      confirmation does nothing; success drops the game and says so; a 401
      ends the session; any other failure reports its message. */
  function LeaveGame(d: Dash, token: Option<string>, gameId: string, confirmed: bool, reply: Reply<()>): (r: LeaveEnd)
    ensures r.requested <==> HasToken(token) && confirmed
    ensures !HasToken(token) ==> r == LeaveEnd(d, Toast(Error("Non autorisé. Connecte-toi à nouveau.")), false)
    ensures HasToken(token) && !confirmed ==> r == LeaveEnd(d, NoEffects, false)
    ensures r.requested && reply.Ok? ==> r.dash == d.(games := WithoutGame(d.games, gameId)) && r.effects == Toast(Success("Tu as quitté la partie."))
    ensures r.requested && !reply.Ok? ==> r.dash == d
    ensures r.requested ==> (Expired(r.effects) <==> reply.NotOk? && reply.status == 401)
    ensures r.requested && !reply.Ok? && !(reply.NotOk? && reply.status == 401) ==>
      r.effects == Toast(Error("Erreur lors de la sortie : " + ErrorMessage(reply, "Échec de la sortie de la partie")))
  {
    if !HasToken(token) then LeaveEnd(d, Toast(Error("Non autorisé. Connecte-toi à nouveau.")), false)
    else if !confirmed then LeaveEnd(d, NoEffects, false)
    else
      match reply
      case Ok(_) => LeaveEnd(d.(games := WithoutGame(d.games, gameId)), Toast(Success("Tu as quitté la partie.")), true)
      case NotOk(status, m) =>
        if status == 401 then LeaveEnd(d, SessionExpired, true)
        else LeaveEnd(d, Toast(Error("Erreur lors de la sortie : " + OrElse(m, "Échec de la sortie de la partie"))), true)
      case Threw(_, m) => LeaveEnd(d, Toast(Error("Erreur lors de la sortie : " + m.GetOr(""))), true)
  }

  datatype FetchEnd = FetchEnd(dash: Dash, effects: Effects, requested: bool)

  /** The games effect: nothing before the user is known; without a token
      the list is emptied; otherwise a request whose end always clears the
      loading flag. An ok body gives its `data` list (none when it is not a
      list), an abort changes nothing more, a 401 ends the session, and any
      other failure records its message. */
  function FetchGames(d: Dash, hasUser: bool, token: Option<string>, reply: Reply<Option<seq<GameSummary>>>): (r: FetchEnd)
    ensures r.requested <==> hasUser && HasToken(token)
    ensures !hasUser ==> r == FetchEnd(d, NoEffects, false)
    ensures hasUser && !HasToken(token) ==> r == FetchEnd(d.(games := []), NoEffects, false)
    ensures r.requested ==> !r.dash.loading
    ensures r.requested && reply.Ok? ==> r.dash.error.None? && r.dash.games == reply.data.GetOr([])
    ensures r.requested && !reply.Ok? ==> r.dash.games == d.games
    ensures r.requested ==> (Expired(r.effects) <==> reply.NotOk? && reply.status == 401)
    ensures r.requested && reply.Threw? && reply.name == "AbortError" ==> r.dash.error.None? && r.effects == NoEffects
    ensures r.requested && reply.NotOk? && reply.status != 401 ==> r.dash.error == Some(OrElse(reply.message, "Impossible de charger les parties"))
    ensures r.requested && reply.Threw? && reply.name != "AbortError" ==> r.dash.error == Some(reply.thrown.GetOr("Erreur inconnue"))
    ensures r.requested && !(reply.NotOk? && reply.status == 401) ==> r.effects == NoEffects
    ensures r.requested && reply.NotOk? && reply.status == 401 ==> r.effects == SessionExpired && r.dash.error.None?
  {
    if !hasUser then FetchEnd(d, NoEffects, false)
    else if !HasToken(token) then FetchEnd(d.(games := []), NoEffects, false)
    else
      var busy := d.(loading := true, error := None);
      match reply
      case Ok(data) => FetchEnd(busy.(games := data.GetOr([]), loading := false), NoEffects, true)
      case NotOk(status, m) =>
        if status == 401 then FetchEnd(busy.(loading := false), SessionExpired, true)
        else FetchEnd(busy.(error := Some(OrElse(m, "Impossible de charger les parties")), loading := false), NoEffects, true)
      case Threw(name, m) =>
        if name == "AbortError" then FetchEnd(busy.(loading := false), NoEffects, true)
        else FetchEnd(busy.(error := Some(m.GetOr("Erreur inconnue")), loading := false), NoEffects, true)
  }

  /** Leaving a game just loaded removes it and only it from the list. */
  lemma LeaveAfterFetch(d: Dash, token: Option<string>, games: seq<GameSummary>, gameId: string)
    requires HasToken(token)
    ensures var loaded := FetchGames(d, true, token, Ok(Some(games))).dash;
      var left := LeaveGame(loaded, token, gameId, true, Ok(())).dash;
      (forall g :: g in left.games <==> g in games && g.id != gameId) && left.error.None? && !left.loading
  {
  }

  /** A failed or declined leave never changes the list. */
  lemma FailedLeaveKeepsGames(d: Dash, token: Option<string>, gameId: string, confirmed: bool, reply: Reply<()>)
    requires !(HasToken(token) && confirmed && reply.Ok?)
    ensures LeaveGame(d, token, gameId, confirmed, reply).dash == d
  {
  }
}

=== FILE: email.dfy ===
/** The e-mail check `/^[^\s@]+@[^\s@]+\.[^\s@]+$/` used by the profile page
    (`emailValid`) and, with the case-insensitive flag that changes nothing for
    these character classes, by the sign-in page. */
module Email {
  import opened JsText

  /** A character allowed by `[^\s@]`. */
  predicate Plain(c: char) {
    !IsSpace(c) && c != '@'
  }

  predicate AllPlain(s: string) {
    forall k :: 0 <= k < |s| ==> Plain(s[k])
  }

  /** The reference reading of the pattern: there is one '@' at `i` and a '.'
      at `j`, with at least one character before the '@', between them, and
      after the '.', and every other character is neither whitespace nor '@'. */
  ghost predicate MatchesPattern(s: string) {
    exists i, j :: 0 < i && i + 1 < j && j + 1 < |s| && s[i] == '@' && s[j] == '.'
      && (forall k :: 0 <= k < |s| && k != i ==> Plain(s[k]))
  }

  /** Index of the first occurrence of `c` in `s`, or `|s|` when absent. */
  function IndexOf(s: string, c: char): (n: nat)
    ensures n <= |s|
    ensures n < |s| ==> s[n] == c
    ensures forall k :: 0 <= k < n ==> s[k] != c
  {
    if s == [] then 0 else if s[0] == c then 0 else 1 + IndexOf(s[1..], c)
  }

  /** Whether the domain part holds a '.' that is neither its first nor its
      last character. */
  predicate InnerDot(d: string) {
    exists j :: 0 < j < |d| - 1 && d[j] == '.'
  }

  /** The executable check: split at the first '@'; the local part must be a
      non-empty run of plain characters, and the domain part must be plain
      with an inner dot. */
  predicate EmailValid(e: string) {
    var i := IndexOf(e, '@');
    0 < i < |e| && AllPlain(e[..i]) && AllPlain(e[i + 1..]) && InnerDot(e[i + 1..])
  }

  /** The check accepts exactly the strings the pattern matches. */
  lemma EmailValidMatchesPattern(e: string)
    ensures EmailValid(e) <==> MatchesPattern(e)
  {
    var i := IndexOf(e, '@');
    if EmailValid(e) {
      var d := e[i + 1..];
      var j :| 0 < j < |d| - 1 && d[j] == '.';
      assert e[i + 1 + j] == '.';
      forall k | 0 <= k < |e| && k != i ensures Plain(e[k]) {
        if k < i {
          assert e[k] == e[..i][k];
        } else {
          assert e[k] == d[k - i - 1];
        }
      }
      assert 0 < i && i + 1 < i + 1 + j && i + 1 + j + 1 < |e| && e[i] == '@' && e[i + 1 + j] == '.';
    }
    if MatchesPattern(e) {
      var a, b :| 0 < a && a + 1 < b && b + 1 < |e| && e[a] == '@' && e[b] == '.'
        && (forall k :: 0 <= k < |e| && k != a ==> Plain(e[k]));
      assert i <= a;
      assert !Plain(e[i]);
      assert i == a;
      var d := e[i + 1..];
      assert d[b - i - 1] == '.';
      assert InnerDot(d);
      assert AllPlain(e[..i]) by {
        forall k | 0 <= k < i ensures Plain(e[..i][k]) {
          assert e[..i][k] == e[k];
        }
      }
      assert AllPlain(d) by {
        forall k | 0 <= k < |d| ensures Plain(d[k]) {
          assert d[k] == e[i + 1 + k];
        }
      }
    }
  }

  /** A valid address holds exactly one '@' and no whitespace at all. */
  lemma EmailValidShape(e: string)
    requires EmailValid(e)
    ensures forall k :: 0 <= k < |e| ==> !IsSpace(e[k])
    ensures forall k :: 0 <= k < |e| && e[k] == '@' ==> k == IndexOf(e, '@')
  {
    var i := IndexOf(e, '@');
    forall k | 0 <= k < |e| && k != i ensures Plain(e[k]) {
      if k < i {
        assert e[k] == e[..i][k];
      } else {
        assert e[k] == e[i + 1..][k - i - 1];
      }
    }
  }
}

=== FILE: firstoccurrence.dfy ===
/** Keeping the first element of each key, in order. The preferences page
    writes it as `a.filter((v, i, a) => a.findIndex(x => fold(x) === fold(v)) === i)`;
    the admin lobby gets the same thing from `Array.from(new Set(ids))`, with the
    identity as key. */
module FirstOccurrence {

  /** `findIndex`: the first position whose key is `k`, or -1. */
  function FindIndex<T, K(==)>(a: seq<T>, key: T -> K, k: K): (n: int)
    ensures -1 <= n < |a|
    ensures n >= 0 ==> key(a[n]) == k && forall m :: 0 <= m < n ==> key(a[m]) != k
    ensures n == -1 ==> forall m :: 0 <= m < |a| ==> key(a[m]) != k
  {
    if a == [] then -1
    else if key(a[0]) == k then 0
    else
      var r := FindIndex(a[1..], key, k);
      if r == -1 then -1 else r + 1
  }

  /** The keys occurring among the first `n` elements of `a`. */
  ghost function PrefixKeys<T, K>(a: seq<T>, key: T -> K, n: nat): set<K>
    requires n <= |a|
  {
    set i | 0 <= i < n :: key(a[i])
  }

  /** The keys of all elements of `s`. */
  ghost function KeysOf<T, K>(s: seq<T>, key: T -> K): set<K> {
    set j | 0 <= j < |s| :: key(s[j])
  }

  /** No two elements share a key. */
  ghost predicate Distinct<T, K>(s: seq<T>, key: T -> K) {
    forall i, j :: 0 <= i < j < |s| ==> key(s[i]) != key(s[j])
  }

  /** The filter applied to the first `n` elements: it keeps `a[i]` exactly
      when `i` is the first position holding `a[i]`'s key. The result has
      pairwise distinct keys, covers every key of the prefix, each element
      kept is the first element of `a` with its key, and the elements kept
      appear in the order of those first positions. */
  function KeepUpTo<T, K(==)>(a: seq<T>, key: T -> K, n: nat): (r: seq<T>)
    requires n <= |a|
    ensures |r| <= n
    ensures Distinct(r, key)
    ensures KeysOf(r, key) == PrefixKeys(a, key, n)
    ensures forall j :: 0 <= j < |r| ==>
      0 <= FindIndex(a, key, key(r[j])) < n && r[j] == a[FindIndex(a, key, key(r[j]))]
    ensures forall i, j :: 0 <= i < j < |r| ==> FindIndex(a, key, key(r[i])) < FindIndex(a, key, key(r[j]))
  {
    if n == 0 then []
    else
      var prev := KeepUpTo(a, key, n - 1);
      var x := a[n - 1];
      var f := FindIndex(a, key, key(x));
      if f == n - 1 then
        KeepStepKeys(a, key, n, prev);
        KeepStepPositions(a, key, n, prev, prev + [x]);
        prev + [x]
      else
        assert key(x) in PrefixKeys(a, key, n - 1) by {
          assert 0 <= f < n - 1;
        }
        assert PrefixKeys(a, key, n) == PrefixKeys(a, key, n - 1) + {key(x)};
        prev
  }

  /** Appending `a[n-1]`, the first element with its key, to the filter of
      the first `n-1` elements keeps the keys distinct and covers the prefix
      of length `n`. */
  lemma KeepStepKeys<T, K>(a: seq<T>, key: T -> K, n: nat, prev: seq<T>)
    requires 0 < n <= |a| && FindIndex(a, key, key(a[n - 1])) == n - 1
    requires Distinct(prev, key) && KeysOf(prev, key) == PrefixKeys(a, key, n - 1)
    ensures Distinct(prev + [a[n - 1]], key)
    ensures KeysOf(prev + [a[n - 1]], key) == PrefixKeys(a, key, n)
  {
    var x := a[n - 1];
    var r := prev + [x];
    assert key(x) !in PrefixKeys(a, key, n - 1);
    assert forall j :: 0 <= j < |prev| ==> r[j] == prev[j];
    assert r[|prev|] == x;
    assert KeysOf(r, key) == KeysOf(prev, key) + {key(x)};
    assert PrefixKeys(a, key, n) == PrefixKeys(a, key, n - 1) + {key(x)};
  }

  /** The same step keeps every element at the first position of its key,
      in increasing order of those positions. */
  lemma KeepStepPositions<T, K>(a: seq<T>, key: T -> K, n: nat, prev: seq<T>, r: seq<T>)
    requires 0 < n <= |a| && FindIndex(a, key, key(a[n - 1])) == n - 1
    requires forall j :: 0 <= j < |prev| ==>
      0 <= FindIndex(a, key, key(prev[j])) < n - 1 && prev[j] == a[FindIndex(a, key, key(prev[j]))]
    requires forall i, j :: 0 <= i < j < |prev| ==> FindIndex(a, key, key(prev[i])) < FindIndex(a, key, key(prev[j]))
    requires r == prev + [a[n - 1]]
    ensures forall j :: 0 <= j < |r| ==>
      0 <= FindIndex(a, key, key(r[j])) < n && r[j] == a[FindIndex(a, key, key(r[j]))]
    ensures forall i, j :: 0 <= i < j < |r| ==> FindIndex(a, key, key(r[i])) < FindIndex(a, key, key(r[j]))
  {
    assert forall j :: 0 <= j < |prev| ==> r[j] == prev[j];
    assert r[|prev|] == a[n - 1];
  }

  /** The whole filter: one element per key of `a`, each the first element
      of `a` with that key, in the order of their positions in `a`. */
  function KeepFirst<T, K(==)>(a: seq<T>, key: T -> K): (r: seq<T>)
    ensures |r| <= |a|
    ensures Distinct(r, key)
    ensures KeysOf(r, key) == KeysOf(a, key)
    ensures forall j :: 0 <= j < |r| ==>
      0 <= FindIndex(a, key, key(r[j])) && r[j] == a[FindIndex(a, key, key(r[j]))]
    ensures forall i, j :: 0 <= i < j < |r| ==> FindIndex(a, key, key(r[i])) < FindIndex(a, key, key(r[j]))
    ensures forall j :: 0 <= j < |r| ==> r[j] in a
  {
    var r := KeepUpTo(a, key, |a|);
    assert PrefixKeys(a, key, |a|) == KeysOf(a, key);
    assert forall j :: 0 <= j < |r| ==> r[j] in a by {
      forall j | 0 <= j < |r| ensures r[j] in a {
        var f := FindIndex(a, key, key(r[j]));
        assert r[j] == a[f];
      }
    }
    r
  }

  /** The filter looks only at the first `n` elements. */
  lemma {:induction false} KeepUpToPrefix<T, K>(a: seq<T>, b: seq<T>, key: T -> K, n: nat)
    requires n <= |a| && n <= |b| && a[..n] == b[..n]
    ensures KeepUpTo(a, key, n) == KeepUpTo(b, key, n)
  {
    if n > 0 {
      assert a[..n - 1] == b[..n - 1];
      KeepUpToPrefix(a, b, key, n - 1);
      assert forall m :: 0 <= m < n ==> a[m] == b[m] by {
        forall m | 0 <= m < n ensures a[m] == b[m] {
          assert a[..n][m] == b[..n][m];
        }
      }
      var k := key(a[n - 1]);
      var fa := FindIndex(a, key, k);
      var fb := FindIndex(b, key, k);
      assert fa == n - 1 <==> fb == n - 1;
    }
  }

  /** Appending an element keeps it exactly when its key is new. */
  lemma KeepFirstSnoc<T, K>(a: seq<T>, x: T, key: T -> K)
    ensures KeepFirst(a + [x], key) == KeepFirst(a, key) + (if key(x) in KeysOf(a, key) then [] else [x])
  {
    var b := a + [x];
    assert b[..|a|] == a[..|a|];
    KeepUpToPrefix(a, b, key, |a|);
    KeepUpToLast(b, key, |b|);
    FindIndexSnoc(a, x, key);
    assert b[|b| - 1] == x;
  }

  /** The filter of a prefix one longer: the last element joins when it is
      the first with its key. */
  lemma KeepUpToLast<T, K>(a: seq<T>, key: T -> K, n: nat)
    requires 0 < n <= |a|
    ensures KeepUpTo(a, key, n) ==
      KeepUpTo(a, key, n - 1) + (if FindIndex(a, key, key(a[n - 1])) == n - 1 then [a[n - 1]] else [])
  {
  }

  /** An appended element is the first with its key exactly when no element
      before it has that key. */
  lemma FindIndexSnoc<T, K>(a: seq<T>, x: T, key: T -> K)
    ensures FindIndex(a + [x], key, key(x)) == |a| <==> key(x) !in KeysOf(a, key)
  {
    var b := a + [x];
    var f := FindIndex(b, key, key(x));
    assert b[|a|] == x;
    if key(x) in KeysOf(a, key) {
      var m :| 0 <= m < |a| && key(a[m]) == key(x);
      assert b[m] == a[m];
    } else {
      forall m | 0 <= m < |a| ensures key(b[m]) != key(x) {
        assert b[m] == a[m];
      }
    }
  }

  /** Every element of the input has an element of the same key in the
      result; in particular the result is empty only for an empty input. */
  lemma KeepFirstCovers<T, K>(a: seq<T>, key: T -> K, i: nat)
    requires i < |a|
    ensures exists j :: 0 <= j < |KeepFirst(a, key)| && key(KeepFirst(a, key)[j]) == key(a[i])
  {
    var r := KeepUpTo(a, key, |a|);
    assert r == KeepFirst(a, key);
    assert key(a[i]) in PrefixKeys(a, key, |a|);
    assert key(a[i]) in KeysOf(r, key);
    var j :| 0 <= j < |r| && key(r[j]) == key(a[i]);
  }

  /** The result is empty only for an empty input. */
  lemma KeepFirstNonEmpty<T, K>(a: seq<T>, key: T -> K)
    ensures a != [] ==> KeepFirst(a, key) != []
  {
    if a != [] {
      KeepFirstCovers(a, key, 0);
    }
  }

  /** On a list whose keys are already distinct, every element is its key's
      first occurrence, so the filter keeps the prefix whole. */
  lemma {:induction false} KeepUpToDistinct<T, K>(a: seq<T>, key: T -> K, n: nat)
    requires n <= |a|
    requires Distinct(a, key)
    ensures KeepUpTo(a, key, n) == a[..n]
  {
    if n > 0 {
      KeepUpToDistinct(a, key, n - 1);
      var f := FindIndex(a, key, key(a[n - 1]));
      assert f == n - 1;
      assert a[..n] == a[..n - 1] + [a[n - 1]];
    }
  }

  /** A list with distinct keys passes the filter unchanged. */
  lemma KeepFirstDistinct<T, K>(a: seq<T>, key: T -> K)
    requires Distinct(a, key)
    ensures KeepFirst(a, key) == a
  {
    KeepUpToDistinct(a, key, |a|);
    assert a[..|a|] == a;
  }

  /** Filtering twice is filtering once. */
  lemma KeepFirstIdempotent<T, K>(a: seq<T>, key: T -> K)
    ensures KeepFirst(KeepFirst(a, key), key) == KeepFirst(a, key)
  {
    KeepFirstDistinct(KeepFirst(a, key), key);
  }
}

=== FILE: joingame.dfy ===
/** The join page (src/pages/JoinGame.tsx): code formatting, the checks
    before the join request, and what each response leads to. */
module JoinGame {
  import opened Wrappers

  const CodeLength: nat := 6
  const MinCodeLength: nat := 4

  /** A character kept by `/[^a-zA-Z0-9]/g` removal. */
  predicate AsciiAlnum(c: char) {
    ('a' <= c <= 'z') || ('A' <= c <= 'Z') || ('0' <= c <= '9')
  }

  /** A character of a formatted code. */
  predicate CodeChar(c: char) {
    ('A' <= c <= 'Z') || ('0' <= c <= '9')
  }

  predicate IsCode(s: string) {
    |s| <= CodeLength && forall k :: 0 <= k < |s| ==> CodeChar(s[k])
  }

  /** `replace(/[^a-zA-Z0-9]/g, '')`: the ASCII letters and digits, in order. */
  function KeepAlnum(s: string): (r: string)
    ensures |r| <= |s|
    ensures forall k :: 0 <= k < |r| ==> AsciiAlnum(r[k])
    ensures (forall k :: 0 <= k < |s| ==> AsciiAlnum(s[k])) ==> r == s
    ensures forall c :: multiset(r)[c] == if AsciiAlnum(c) then multiset(s)[c] else 0
  {
    if s == [] then []
    else
      assert s == [s[0]] + s[1..];
      (if AsciiAlnum(s[0]) then [s[0]] else []) + KeepAlnum(s[1..])
  }

  /** Removal distributes over concatenation: nothing is lost or reordered. */
  lemma {:induction false} KeepAlnumAppend(a: string, b: string)
    ensures KeepAlnum(a + b) == KeepAlnum(a) + KeepAlnum(b)
    decreases |a|
  {
    if a == [] {
      assert a + b == b;
    } else {
      assert (a + b)[0] == a[0];
      assert (a + b)[1..] == a[1..] + b;
      KeepAlnumAppend(a[1..], b);
      var h := if AsciiAlnum(a[0]) then [a[0]] else [];
      ConcatAssoc(h, KeepAlnum(a[1..]), KeepAlnum(b));
    }
  }

  lemma ConcatAssoc(x: string, y: string, z: string)
    ensures x + (y + z) == x + y + z
  {
  }

  /** `toUpperCase` on an ASCII letter or digit. */
  function AsciiUpper(c: char): (u: char)
    requires AsciiAlnum(c)
    ensures CodeChar(u)
    ensures CodeChar(c) ==> u == c
  {
    if 'a' <= c <= 'z' then (c as int - 32) as char else c
  }

  function UpperAll(s: string): (r: string)
    requires forall k :: 0 <= k < |s| ==> AsciiAlnum(s[k])
    ensures |r| == |s|
    ensures forall k :: 0 <= k < |s| ==> r[k] == AsciiUpper(s[k])
  {
    if s == [] then [] else [AsciiUpper(s[0])] + UpperAll(s[1..])
  }

  /** `formatCode`: letters and digits only, at most six, upper-cased. The
      result is a code; its characters are the first six letters and digits
      of the input, upper-cased. */
  function FormatCode(v: string): (r: string)
    ensures IsCode(r)
    ensures |r| == if |KeepAlnum(v)| <= CodeLength then |KeepAlnum(v)| else CodeLength
    ensures forall k :: 0 <= k < |r| ==> r[k] == AsciiUpper(KeepAlnum(v)[k])
  {
    var a := KeepAlnum(v);
    var t := if |a| <= CodeLength then a else a[..CodeLength];
    UpperAll(t)
  }

  /** A code is its own format. */
  lemma FormatCodeFixesCodes(s: string)
    requires IsCode(s)
    ensures FormatCode(s) == s
  {
    assert KeepAlnum(s) == s;
  }

  /** Formatting twice is formatting once. */
  lemma FormatCodeIdempotent(v: string)
    ensures FormatCode(FormatCode(v)) == FormatCode(v)
  {
    FormatCodeFixesCodes(FormatCode(v));
  }

  /** Prefilling from `?code=`: a non-empty parameter replaces the field by
      its formatted value. */
  function Prefill(code: string, param: Option<string>): (r: string)
    ensures param.Some? && param.value != "" ==> r == FormatCode(param.value)
    ensures param.None? || param.value == "" ==> r == code
  {
    if param.Some? && param.value != "" then FormatCode(param.value) else code
  }

  datatype JoinStart = JoinStopped(effects: Effects) | JoinSend(code: string)

  /** The synchronous part of `onSubmit`: a formatted code shorter than four
      characters stops with an error, then a missing token sends to
      `/login`; otherwise the formatted code is sent. */
  function Submit(code: string, token: Option<string>): (r: JoinStart)
    ensures r.JoinSend? <==> |FormatCode(code)| >= MinCodeLength && HasToken(token)
    ensures |FormatCode(code)| < MinCodeLength ==> r == JoinStopped(Toast(Error("Le code doit contenir au moins 4 caractères.")))
    ensures |FormatCode(code)| >= MinCodeLength && !HasToken(token) ==>
      r == JoinStopped(Effects(Some(Error("Tu dois être connecté pour rejoindre une partie.")), false, Some(Nav("/login", false))))
    ensures r.JoinSend? ==> r.code == FormatCode(code) && MinCodeLength <= |r.code| && IsCode(r.code)
  {
    var cleaned := FormatCode(code);
    if cleaned == "" || |cleaned| < MinCodeLength then JoinStopped(Toast(Error("Le code doit contenir au moins 4 caractères.")))
    else if !HasToken(token) then JoinStopped(Effects(Some(Error("Tu dois être connecté pour rejoindre une partie.")), false, Some(Nav("/login", false))))
    else JoinSend(cleaned)
  }

  /** Submitting a prefilled field sends the formatted parameter itself. */
  lemma PrefilledSubmit(param: string, token: Option<string>)
    requires param != "" && HasToken(token) && |FormatCode(param)| >= MinCodeLength
    ensures Submit(Prefill("", Some(param)), token) == JoinSend(FormatCode(param))
  {
    FormatCodeIdempotent(param);
  }

  /** How the join request ended; `message` is the body's `message` field. */
  datatype JoinReply = Joined | JoinNotOk(status: int, message: Option<string>) | JoinThrew(message: Option<string>)

  /** The message of a refused join: the server's, else a fallback chosen
      by status. */
  function RefusalMessage(status: int, message: Option<string>): string {
    OrElse(message,
      if status == 404 then "Code invalide ou partie introuvable."
      else if status == 409 then "Tu es déjà inscrit à cette partie."
      else "Impossible de rejoindre la partie.")
  }

  /** The rest of `onSubmit`: success and 409 both lead to the lobby of the
      sent code, 409 as information rather than an error; 401 ends the
      session; every other failure only shows an error. */
  function FinishJoin(code: string, reply: JoinReply): (e: Effects)
    ensures e.nav == Some(Nav("/lobby/" + code, false)) <==> reply.Joined? || (reply.JoinNotOk? && reply.status == 409)
    ensures reply.JoinNotOk? && reply.status == 401 ==> e == SessionExpired
    ensures e.logout <==> reply.JoinNotOk? && reply.status == 401
    ensures reply.JoinNotOk? && reply.status == 409 ==> e.notice.Some? && !e.notice.value.Error?
    ensures e.nav.None? <==> !(reply.Joined? || (reply.JoinNotOk? && (reply.status == 401 || reply.status == 409)))
    ensures e.nav.None? ==> e.notice.Some? && e.notice.value.Error?
    ensures reply.JoinNotOk? && reply.status != 401 && reply.status != 409 ==> e == Toast(Error(RefusalMessage(reply.status, reply.message)))
    ensures reply.Joined? ==> e == Effects(Some(Success("Bienvenue dans la partie!")), false, Some(Nav("/lobby/" + code, false)))
    ensures reply.JoinNotOk? && reply.status == 409 ==>
      e == Effects(Some(Info("Tu es déjà dans cette partie.")), false, Some(Nav("/lobby/" + code, false)))
    ensures reply.JoinThrew? ==> e == Toast(Error(reply.message.GetOr("Erreur inconnue.")))
  {
    match reply
    case Joined => Effects(Some(Success("Bienvenue dans la partie!")), false, Some(Nav("/lobby/" + code, false)))
    case JoinNotOk(status, m) =>
      if status == 401 then SessionExpired
      else if status == 409 then Effects(Some(Info("Tu es déjà dans cette partie.")), false, Some(Nav("/lobby/" + code, false)))
      else Toast(Error(RefusalMessage(status, m)))
    case JoinThrew(m) => Toast(Error(m.GetOr("Erreur inconnue.")))
  }

  /** Without a server message, a 404 reads "Code invalide ou partie
      introuvable." and any other refusal but 401 and 409 the generic
      message; the 409 fallback text is never shown, since 409 leaves before
      it is used. */
  lemma RefusalFallbacks(code: string, status: int)
    requires status != 401 && status != 409
    ensures FinishJoin(code, JoinNotOk(status, None)).notice ==
      Some(Error(if status == 404 then "Code invalide ou partie introuvable." else "Impossible de rejoindre la partie."))
    ensures FinishJoin(code, JoinNotOk(409, None)).notice != Some(Error("Tu es déjà inscrit à cette partie."))
  {
  }
}

=== FILE: jstext.dfy ===
/** The JavaScript string primitives the pages rely on: the whitespace class
    `\s` (which is also what `trim` strips), `trim`, `includes`, `slice(0, n)`
    and `split(' ').filter(Boolean)`. A `char` is one Unicode scalar value,
    where JavaScript counts UTF-16 code units: the two agree for every
    character of the Basic Multilingual Plane. */
module JsText {

  /** ECMAScript WhiteSpace and LineTerminator code points: the set matched by
      `\s` in a regular expression and removed by `String.prototype.trim`. */
  predicate IsSpace(c: char) {
    || c == ' ' || ('\t' <= c <= '\r')
    || c == '\U{00A0}' || c == '\U{1680}' || ('\U{2000}' <= c <= '\U{200A}')
    || c == '\U{2028}' || c == '\U{2029}' || c == '\U{202F}' || c == '\U{205F}'
    || c == '\U{3000}' || c == '\U{FEFF}'
  }

  /** Every character is whitespace: `!s.trim()` in the pages. */
  predicate Blank(s: string) {
    forall k :: 0 <= k < |s| ==> IsSpace(s[k])
  }

  /** Removes leading whitespace. */
  function TrimStart(s: string): (r: string)
    ensures |r| <= |s| && r == s[|s| - |r|..]
    ensures forall k :: 0 <= k < |s| - |r| ==> IsSpace(s[k])
    ensures r != [] ==> !IsSpace(r[0])
  {
    if s != [] && IsSpace(s[0]) then TrimStart(s[1..]) else s
  }

  /** Removes trailing whitespace. */
  function TrimEnd(s: string): (r: string)
    ensures |r| <= |s| && r == s[..|r|]
    ensures forall k :: |r| <= k < |s| ==> IsSpace(s[k])
    ensures r != [] ==> !IsSpace(r[|r| - 1])
  {
    if s != [] && IsSpace(s[|s| - 1]) then TrimEnd(s[..|s| - 1]) else s
  }

  /** `String.prototype.trim`: the result neither starts nor ends with
      whitespace, and it is empty exactly when the input is blank;
      `TrimPadded` shows that only the whitespace around the text goes. */
  function Trim(s: string): (r: string)
    ensures |r| <= |s|
    ensures r != [] ==> !IsSpace(r[0]) && !IsSpace(r[|r| - 1])
    ensures r == [] <==> Blank(s)
  {
    var a := TrimStart(s);
    var r := TrimEnd(a);
    assert r != [] ==> r[0] == a[0];
    assert r == [] ==> a == [] by {
      if a != [] {
        assert !IsSpace(a[0]);
      }
    }
    assert Blank(s) ==> a == [] by {
      if a != [] {
        assert !IsSpace(s[|s| - |a|]);
      }
    }
    r
  }

  /** What `TrimEnd` drops is a blank suffix. */
  lemma TrimEndRest(a: string)
    ensures a == TrimEnd(a) + a[|TrimEnd(a)|..]
    ensures Blank(a[|TrimEnd(a)|..])
  {
    var b := TrimEnd(a);
    var q := a[|b|..];
    forall k | 0 <= k < |q| ensures IsSpace(q[k]) {
      assert q[k] == a[|b| + k];
    }
  }

  lemma {:induction false} TrimStartBlankPrefix(p: string, x: string)
    requires Blank(p)
    ensures TrimStart(p + x) == TrimStart(x)
    decreases |p|
  {
    if p == [] {
      assert p + x == x;
    } else {
      assert (p + x)[1..] == p[1..] + x;
      assert Blank(p[1..]) by {
        forall k | 0 <= k < |p[1..]| ensures IsSpace(p[1..][k]) {
          assert p[1..][k] == p[k + 1];
        }
      }
      TrimStartBlankPrefix(p[1..], x);
    }
  }

  lemma {:induction false} TrimEndBlankSuffix(x: string, q: string)
    requires Blank(q)
    ensures TrimEnd(x + q) == TrimEnd(x)
    decreases |q|
  {
    if q == [] {
      assert x + q == x;
    } else {
      var q' := q[..|q| - 1];
      assert (x + q)[..|x + q| - 1] == x + q';
      assert Blank(q') by {
        forall k | 0 <= k < |q'| ensures IsSpace(q'[k]) {
          assert q'[k] == q[k];
        }
      }
      TrimEndBlankSuffix(x, q');
    }
  }

  /** Trimming removes exactly the whitespace around the text: padding any
      string without whitespace at its ends by whitespace on either side and
      trimming gives that string back. */
  lemma TrimPadded(p: string, m: string, q: string)
    requires Blank(p) && Blank(q)
    requires m != [] ==> !IsSpace(m[0]) && !IsSpace(m[|m| - 1])
    ensures Trim(p + m + q) == m
  {
    AppendAssoc(p, m, q);
    TrimStartBlankPrefix(p, m + q);
    if m == [] {
      assert m + q == q;
      assert TrimStart(q) == [];
    } else {
      assert (m + q)[0] == m[0];
      assert TrimStart(m + q) == m + q;
      TrimEndBlankSuffix(m, q);
    }
  }

  lemma AppendAssoc(a: string, b: string, c: string)
    ensures a + b + c == a + (b + c)
  {
  }

  /** Trimming a trimmed string changes nothing. */
  lemma TrimIdempotent(s: string)
    ensures Trim(Trim(s)) == Trim(s)
  {
    var t := Trim(s);
    if t != [] {
      assert !IsSpace(t[0]);
      assert TrimStart(t) == t;
      assert TrimEnd(t) == t;
    }
  }

  /** `s.includes(q)`. */
  predicate Includes(s: string, q: string) {
    exists i :: 0 <= i <= |s| && q <= s[i..]
  }

  /** `s.slice(0, n)`: at most `n` characters, a prefix of `s`, and all of `s`
      when it is short enough. */
  function Take(s: string, n: nat): (r: string)
    ensures |r| <= n && r <= s
    ensures |s| <= n ==> r == s
    ensures |s| > n ==> |r| == n
  {
    if |s| <= n then s else s[..n]
  }

  /** The longest prefix of `s` that holds no space character `' '`. */
  function WordPrefix(s: string): (w: string)
    ensures w <= s
    ensures forall k :: 0 <= k < |w| ==> w[k] != ' '
    ensures |w| < |s| ==> s[|w|] == ' '
  {
    if s == [] || s[0] == ' ' then [] else [s[0]] + WordPrefix(s[1..])
  }

  /** `s.split(' ').filter(Boolean)`: the non-empty pieces between spaces
      (only U+0020 separates; tabs stay inside a word). */
  function Words(s: string): (ws: seq<string>)
    ensures forall i :: 0 <= i < |ws| ==> ws[i] != [] && ' ' !in ws[i]
    decreases |s|
  {
    if s == [] then []
    else if s[0] == ' ' then Words(s[1..])
    else
      var w := WordPrefix(s);
      assert ' ' !in w by {
        forall k | 0 <= k < |w| ensures w[k] != ' ' { }
      }
      [w] + Words(s[|w|..])
  }

  /** All characters of `s` except the space `' '`, in order. */
  function DropSpaceChar(s: string): string {
    if s == [] then [] else (if s[0] == ' ' then [] else [s[0]]) + DropSpaceChar(s[1..])
  }

  /** The concatenation of a list of strings. */
  function Concat(ws: seq<string>): string {
    if ws == [] then [] else ws[0] + Concat(ws[1..])
  }

  lemma {:induction false} DropSpaceCharAppend(a: string, b: string)
    ensures DropSpaceChar(a + b) == DropSpaceChar(a) + DropSpaceChar(b)
    decreases |a|
  {
    if a == [] {
      assert a + b == b;
    } else {
      assert (a + b)[1..] == a[1..] + b;
      DropSpaceCharAppend(a[1..], b);
    }
  }

  lemma {:induction false} DropSpaceCharOfWord(w: string)
    requires forall k :: 0 <= k < |w| ==> w[k] != ' '
    ensures DropSpaceChar(w) == w
    decreases |w|
  {
    if w != [] {
      DropSpaceCharOfWord(w[1..]);
    }
  }

  /** The words, read in order, are exactly the non-space characters of the
      input: splitting loses nothing but the separators. */
  lemma {:induction false} WordsKeepContent(s: string)
    ensures Concat(Words(s)) == DropSpaceChar(s)
    decreases |s|
  {
    if s == [] {
    } else if s[0] == ' ' {
      WordsKeepContent(s[1..]);
    } else {
      var w := WordPrefix(s);
      assert s == w + s[|w|..];
      WordsKeepContent(s[|w|..]);
      DropSpaceCharAppend(w, s[|w|..]);
      DropSpaceCharOfWord(w);
      assert Words(s) == [w] + Words(s[|w|..]);
      assert Concat(Words(s)) == w + Concat(Words(s[|w|..]));
    }
  }

  /** A string starting with a non-space character has a first word, and that
      word starts with the same character. */
  lemma FirstWordStart(s: string)
    requires s != [] && s[0] != ' '
    ensures Words(s) != [] && Words(s)[0] != [] && Words(s)[0][0] == s[0]
  {
    var w := WordPrefix(s);
    assert w == [s[0]] + WordPrefix(s[1..]);
  }
}

=== FILE: listops.dfy ===
/** The array edits the pages share: `values.filter((_, i) => i !== idx)` and
    `values.slice(0, -1)`. */
module ListOps {

  /** `values.filter((_, i) => i !== idx)`: walks the list dropping the
      element whose position equals `idx`. Removes exactly that element when
      `idx` is a position of the list, and nothing otherwise. */
  function RemoveIndex<T>(values: seq<T>, idx: int): (r: seq<T>)
    ensures 0 <= idx < |values| ==> r == values[..idx] + values[idx + 1..]
    ensures !(0 <= idx < |values|) ==> r == values
    ensures 0 <= idx < |values| ==> |r| == |values| - 1
  {
    if values == [] then []
    else
      var rest := RemoveIndex(values[1..], idx - 1);
      if idx == 0 then rest else [values[0]] + rest
  }

  /** `values.slice(0, -1)`: everything but the last element. */
  function DropLast<T>(values: seq<T>): (r: seq<T>)
    ensures values != [] ==> r + [values[|values| - 1]] == values
    ensures values == [] ==> r == []
  {
    if values == [] then [] else values[..|values| - 1]
  }
}

=== FILE: lobbyadmin.dfy ===
/** The admin lobby (src/pages/LobbyAdminPage.tsx): loading the game with
    the admin check, and the optimistic roster and admin edits with their
    rollback. Each edit is a `Begin` step (checks, snapshot, optimistic
    update, request) and a `Finish` step taking the request's outcome. */
module LobbyAdmin {
  import opened Wrappers
  import opened Roster
  import FO = FirstOccurrence

  datatype AdminLobby = AdminLobby(game: Option<Game>, loading: bool, error: Option<string>,
                                   confirmOpen: bool, target: Option<Player>, busy: bool)

  const InitialLobby := AdminLobby(None, true, None, false, None, false)

  // ————— fetchGame —————

  datatype Step = Step(lobby: AdminLobby, effects: Effects, requested: bool)

  /** `fetchGame`: without a token the session ends, without a code nothing
      happens; otherwise a refusal or a throw records the error, and a game
      whose admin ids do not contain my (non-empty) id sends me to the
      player view `/room/<code>` without ever being stored. Only a game I
      administer is stored. */
  function FetchGame(s: AdminLobby, token: Option<string>, code: string, myId: string, reply: GameReply): (r: Step)
    ensures r.requested <==> HasToken(token) && code != ""
    ensures !r.requested ==> r.lobby == s
    ensures !HasToken(token) ==> r.effects == SessionExpired
    ensures r.requested ==> !r.lobby.loading && r.lobby.confirmOpen == s.confirmOpen && r.lobby.target == s.target && r.lobby.busy == s.busy
    ensures r.lobby.game != s.game ==> r.requested && reply.GameOk? && r.lobby.game == Some(reply.game)
    ensures r.requested && reply.GameOk? && myId != "" && myId in AdminIdsOf(reply.game) ==>
      r.lobby.game == Some(reply.game) && r.effects == NoEffects
    ensures r.requested && reply.GameOk? && (myId == "" || myId !in AdminIdsOf(reply.game)) ==>
      r.effects == Effects(None, false, Some(Nav("/room/" + code, true))) && r.lobby.game == s.game
    ensures r.requested && reply.GameOk? ==> r.lobby.error.None?
    ensures r.requested && !reply.GameOk? ==> r.lobby.error.Some? && r.lobby.game == s.game
    ensures r.requested && !reply.GameOk? ==> r.effects == NoEffects
    ensures r.requested && !reply.GameOk? ==>
      r.lobby.error == Some(if reply.GameNotOk? then OrElse(reply.message, "Erreur de chargement") else OrElse(reply.message, "Erreur"))
  {
    if !HasToken(token) then Step(s, SessionExpired, false)
    else if code == "" then Step(s, NoEffects, false)
    else
      match reply
      case GameNotOk(m) => Step(s.(loading := false, error := Some(OrElse(m, "Erreur de chargement"))), NoEffects, true)
      case GameThrew(m) => Step(s.(loading := false, error := Some(OrElse(m, "Erreur"))), NoEffects, true)
      case GameOk(g) =>
        if myId == "" || myId !in AdminIdsOf(g) then
          Step(s.(loading := false, error := None), Effects(None, false, Some(Nav("/room/" + code, true))), true)
        else
          Step(s.(game := Some(g), loading := false, error := None), NoEffects, true)
  }

  /** Once a game is stored by loading, I am among its admins, so I can
      never be offered for removal. */
  lemma LoadedGameIsMine(s: AdminLobby, token: Option<string>, code: string, myId: string, g: Game, p: Player)
    requires s.game.None?
    requires FetchGame(s, token, code, myId, GameOk(g)).lobby.game.Some?
    requires p.id == myId
    ensures myId in AdminSet(FetchGame(s, token, code, myId, GameOk(g)).lobby.game)
    ensures !CanRemove(FetchGame(s, token, code, myId, GameOk(g)).lobby.game, p, myId)
  {
  }

  // ————— removal with confirmation —————

  /** `askRemovePlayer`: an admin or myself is refused with an error and
      nothing opens; anyone else becomes the target of an open
      confirmation. */
  function AskRemove(s: AdminLobby, p: Player, myId: string): (r: Step)
    ensures !CanRemove(s.game, p, myId) ==> r.lobby == s && r.effects == Toast(Error("Impossible de retirer un admin ou vous-même"))
    ensures CanRemove(s.game, p, myId) ==> r.lobby == s.(target := Some(p), confirmOpen := true) && r.effects == NoEffects
    ensures !r.requested
  {
    if !CanRemove(s.game, p, myId) then Step(s, Toast(Error("Impossible de retirer un admin ou vous-même")), false)
    else Step(s.(target := Some(p), confirmOpen := true), NoEffects, false)
  }

  /** `closeConfirm`: does nothing while the removal runs. */
  function CloseConfirm(s: AdminLobby): (r: AdminLobby)
    ensures s.busy ==> r == s
    ensures !s.busy ==> r == s.(confirmOpen := false, target := None)
  {
    if s.busy then s else s.(confirmOpen := false, target := None)
  }

  /** The page state after a `Begin` step and the snapshot the `Finish`
      step restores on failure. */
  datatype Begun<T> = Begun(step: Step, snapshot: T)

  /** The first half of `confirmRemove`: without a game or a target nothing
      happens; without a token the session ends; otherwise the page is busy,
      the roster loses exactly the target's id, and the previous roster is
      kept. */
  function RemoveBegin(s: AdminLobby, token: Option<string>): (r: Begun<seq<Player>>)
    ensures r.step.requested <==> s.game.Some? && s.target.Some? && HasToken(token)
    ensures !r.step.requested ==> r.step.lobby == s
    ensures s.game.Some? && s.target.Some? && !HasToken(token) ==> r.step.effects == SessionExpired
    ensures r.step.requested ==>
      && r.snapshot == s.game.value.players
      && r.step.lobby == s.(busy := true, game := WithPlayers(s.game, Without(s.game.value.players, s.target.value.id)))
  {
    if s.game.None? || s.target.None? then Begun(Step(s, NoEffects, false), [])
    else if !HasToken(token) then Begun(Step(s, SessionExpired, false), [])
    else
      var g := s.game.value;
      Begun(Step(s.(busy := true, game := Some(g.(players := Without(g.players, s.target.value.id)))), NoEffects, true), g.players)
  }

  /** The second half: success frees the page and closes the confirmation;
      failure puts the snapshot back and leaves the confirmation open. */
  function RemoveFinish(s: AdminLobby, snapshot: seq<Player>, reply: ActionReply): (r: Step)
    ensures !r.lobby.busy && !r.requested && !r.effects.logout && r.effects.nav.None?
    ensures reply.Done? ==> r.lobby == s.(busy := false, confirmOpen := false, target := None)
    ensures reply.Done? ==> r.effects.notice == Some(Success(OrElse(reply.message, "Joueur retiré.")))
    ensures !reply.Done? ==> r.lobby == s.(busy := false, game := WithPlayers(s.game, snapshot))
    ensures !reply.Done? ==> r.effects.notice == Some(Error(FailureText(reply, "Retrait impossible", "Erreur lors du retrait.")))
  {
    match reply
    case Done(m) => Step(CloseConfirm(s.(busy := false)), Toast(Success(OrElse(m, "Joueur retiré."))), false)
    case _ => Step(s.(busy := false, game := WithPlayers(s.game, snapshot)), Toast(Error(FailureText(reply, "Retrait impossible", "Erreur lors du retrait."))), false)
  }

  /** A failed removal gives back exactly the game the page had. */
  lemma RemoveRollsBack(s: AdminLobby, token: Option<string>, reply: ActionReply)
    requires !reply.Done?
    requires RemoveBegin(s, token).step.requested
    ensures RemoveFinish(RemoveBegin(s, token).step.lobby, RemoveBegin(s, token).snapshot, reply).lobby.game == s.game
  {
  }

  /** A successful removal leaves every other player, in order, and every
      other field of the game. */
  lemma RemoveKeepsOthers(s: AdminLobby, token: Option<string>, reply: ActionReply)
    requires reply.Done?
    requires RemoveBegin(s, token).step.requested
    ensures var g := RemoveFinish(RemoveBegin(s, token).step.lobby, RemoveBegin(s, token).snapshot, reply).lobby.game;
      g == Some(s.game.value.(players := Without(s.game.value.players, s.target.value.id)))
  {
  }

  // ————— promote / revoke —————

  /** The identity, the key of `new Set(ids)`. */
  function Same(x: string): string { x }

  /** `Array.from(new Set(ids))`: each id once, at its first place. */
  function Dedup(ids: seq<string>): (r: seq<string>)
    ensures FO.Distinct(r, Same)
    ensures forall x :: x in r <==> x in ids
  {
    var r := FO.KeepFirst(ids, Same);
    forall x | x in ids ensures x in r {
      var i :| 0 <= i < |ids| && ids[i] == x;
      FO.KeepFirstCovers(ids, Same, i);
    }
    r
  }

  /** The admin ids after `set.add(id)`: the previous ones, deduplicated, and
      `id` at the end when it was not there. */
  function PromotedIds(g: Game, id: string): (r: seq<string>)
    ensures forall x :: x in r <==> x in AdminIdsOf(g) || x == id
    ensures FO.Distinct(r, Same)
    ensures r != []
  {
    var d := Dedup(AdminIdsOf(g));
    if id in d then d
    else
      var r := d + [id];
      assert forall i :: 0 <= i < |d| ==> r[i] == d[i];
      r
  }

  /** The admin ids after `set.delete(id)`: the previous ones, deduplicated,
      without `id`. */
  function RevokedIds(g: Game, id: string): (r: seq<string>)
    ensures forall x :: x in r <==> x in AdminIdsOf(g) && x != id
    ensures FO.Distinct(r, Same)
  {
    var d := Dedup(AdminIdsOf(g));
    DropId(d, id)
  }

  function DropId(d: seq<string>, id: string): (r: seq<string>)
    ensures forall x :: x in r <==> x in d && x != id
    ensures FO.Distinct(d, Same) ==> FO.Distinct(r, Same)
  {
    if d == [] then []
    else
      var rest := DropId(d[1..], id);
      assert forall x :: x in d <==> x == d[0] || x in d[1..];
      if d[0] == id then rest
      else
        var r := [d[0]] + rest;
        assert FO.Distinct(d, Same) ==> d[0] !in d[1..];
        r
  }

  /** The first half of `promoteToAdmin`: without a game nothing happens,
      without a token the session ends; otherwise the admin ids gain `p`'s
      id and the whole game is kept for rollback. */
  function PromoteBegin(s: AdminLobby, p: Player, token: Option<string>): (r: Begun<Option<Game>>)
    ensures r.step.requested <==> s.game.Some? && HasToken(token)
    ensures !r.step.requested ==> r.step.lobby == s
    ensures s.game.Some? && !HasToken(token) ==> r.step.effects == SessionExpired
    ensures r.step.requested ==> (r.snapshot == s.game &&
      r.step.lobby == s.(game := Some(s.game.value.(adminIds := PromotedIds(s.game.value, p.id)))))
  {
    if s.game.None? then Begun(Step(s, NoEffects, false), None)
    else if !HasToken(token) then Begun(Step(s, SessionExpired, false), None)
    else
      var g := s.game.value;
      Begun(Step(s.(game := Some(g.(adminIds := PromotedIds(g, p.id)))), NoEffects, true), s.game)
  }

  /** The first half of `revokeAdmin`: without a game nothing happens;
      revoking myself is refused with an error before anything else;
      without a token the session ends; otherwise the admin ids lose `p`'s
      id and the whole game is kept for rollback. */
  function RevokeBegin(s: AdminLobby, p: Player, myId: string, token: Option<string>): (r: Begun<Option<Game>>)
    ensures r.step.requested <==> s.game.Some? && p.id != myId && HasToken(token)
    ensures !r.step.requested ==> r.step.lobby == s
    ensures s.game.Some? && p.id == myId ==> r.step.effects == Toast(Error("Tu ne peux pas te retirer toi-même de l'administration."))
    ensures s.game.Some? && p.id != myId && !HasToken(token) ==> r.step.effects == SessionExpired
    ensures r.step.requested ==> (r.snapshot == s.game &&
      r.step.lobby == s.(game := Some(s.game.value.(adminIds := RevokedIds(s.game.value, p.id)))))
  {
    if s.game.None? then Begun(Step(s, NoEffects, false), None)
    else if p.id == myId then Begun(Step(s, Toast(Error("Tu ne peux pas te retirer toi-même de l'administration.")), false), None)
    else if !HasToken(token) then Begun(Step(s, SessionExpired, false), None)
    else
      var g := s.game.value;
      Begun(Step(s.(game := Some(g.(adminIds := RevokedIds(g, p.id)))), NoEffects, true), s.game)
  }

  /** Which admin change a request carries. */
  datatype AdminChange = Promote | Revoke

  /** The success message a change shows by default, naming the player. */
  function DoneText(change: AdminChange, p: Player): string {
    if change == Promote then p.name + " est maintenant admin." else p.name + " n'est plus admin."
  }

  /** The second half of `promoteToAdmin` and `revokeAdmin`: success keeps
      the optimistic game and shows the server message or the default one
      naming `p`; a refusal or a throw restores the snapshot game and shows
      the server message or the change's own fallback. */
  function AdminFinish(s: AdminLobby, change: AdminChange, p: Player, snapshot: Option<Game>, reply: ActionReply): (r: Step)
    ensures reply.Done? ==> r.lobby == s && r.effects == Toast(Success(OrElse(reply.message, DoneText(change, p))))
    ensures !reply.Done? ==> r.lobby == s.(game := snapshot) && r.effects.notice.Some? && r.effects.notice.value.Error?
    ensures reply.Rejected? && change == Promote ==> r.effects == Toast(Error(OrElse(reply.message, "Impossible de nommer admin")))
    ensures reply.Threw? && change == Promote ==> r.effects == Toast(Error(OrElse(reply.message, "Erreur lors de la nomination.")))
    ensures reply.Rejected? && change == Revoke ==> r.effects == Toast(Error(OrElse(reply.message, "Impossible de retirer l'admin")))
    ensures reply.Threw? && change == Revoke ==> r.effects == Toast(Error(OrElse(reply.message, "Erreur lors du retrait d'admin.")))
    ensures !r.requested && !r.effects.logout && r.effects.nav.None?
  {
    if reply.Done? then Step(s, Toast(Success(OrElse(reply.message, DoneText(change, p)))), false)
    else
      var text := if change == Promote then FailureText(reply, "Impossible de nommer admin", "Erreur lors de la nomination.")
                  else FailureText(reply, "Impossible de retirer l'admin", "Erreur lors du retrait d'admin.");
      Step(s.(game := snapshot), Toast(Error(text)), false)
  }

  /** Promotion inserts into the admin set: the new set is the old one
      plus `p`'s id, and nothing else of the game changes. */
  lemma PromoteInserts(s: AdminLobby, p: Player, token: Option<string>)
    requires PromoteBegin(s, p, token).step.requested
    ensures var after := PromoteBegin(s, p, token).step.lobby.game;
      && AdminSet(after) == AdminSet(s.game) + {p.id}
      && after.value == s.game.value.(adminIds := after.value.adminIds)
  {
    var g := s.game.value;
    var after := PromoteBegin(s, p, token).step.lobby.game.value;
    assert AdminIdsOf(after) == PromotedIds(g, p.id);
  }

  /** Revocation deletes from the admin set. While I am an admin and revoke
      someone else, I stay, so the stored list is not empty and the new set
      is exactly the old one without `p`'s id. */
  lemma RevokeDeletes(s: AdminLobby, p: Player, myId: string, token: Option<string>)
    requires RevokeBegin(s, p, myId, token).step.requested
    requires myId in AdminSet(s.game)
    ensures var after := RevokeBegin(s, p, myId, token).step.lobby.game;
      && AdminSet(after) == AdminSet(s.game) - {p.id}
      && myId in AdminSet(after)
      && after.value == s.game.value.(adminIds := after.value.adminIds)
  {
    var g := s.game.value;
    var ids := RevokedIds(g, p.id);
    assert myId in ids;
    var after := RevokeBegin(s, p, myId, token).step.lobby.game.value;
    assert AdminIdsOf(after) == ids;
  }

  /** A failed promotion or revocation gives back exactly the game the page
      had before. */
  lemma AdminRollsBack(s: AdminLobby, p: Player, myId: string, token: Option<string>, reply: ActionReply)
    requires !reply.Done?
    ensures PromoteBegin(s, p, token).step.requested ==>
      AdminFinish(PromoteBegin(s, p, token).step.lobby, Promote, p, PromoteBegin(s, p, token).snapshot, reply).lobby == s
    ensures RevokeBegin(s, p, myId, token).step.requested ==>
      AdminFinish(RevokeBegin(s, p, myId, token).step.lobby, Revoke, p, RevokeBegin(s, p, myId, token).snapshot, reply).lobby == s
  {
  }
}

=== FILE: payload.dfy ===
/** A loosely typed JSON value, as read from a response body or a stored
    draft, with JavaScript truthiness. Arrays are arrays of strings, the only
    arrays the pages read. */
module Payload {

  datatype Field =
    | Undefined
    | Null
    | Bool(b: bool)
    | Num(n: int)
    | Str(s: string)
    | StrArray(items: seq<string>)
    | Object(fields: map<string, Field>)

  /** JavaScript truthiness of the field's value. */
  predicate Truthy(f: Field) {
    match f
    case Undefined => false
    case Null => false
    case Bool(b) => b
    case Num(n) => n != 0
    case Str(s) => s != ""
    case StrArray(_) => true
    case Object(_) => true
  }

  /** Property access on an object: a missing key reads as `undefined`. */
  function Get(obj: map<string, Field>, key: string): Field {
    if key in obj then obj[key] else Undefined
  }

  /** `v.key` on a value that is neither `null` nor `undefined`: an object
      yields its property, any other value has none of the properties the
      pages read. */
  function Member(v: Field, key: string): (r: Field)
    requires !v.Undefined? && !v.Null?
    ensures v.Object? ==> r == Get(v.fields, key)
    ensures !v.Object? ==> r == Undefined
  {
    if v.Object? then Get(v.fields, key) else Undefined
  }

  /** `a || b`: `a` when truthy, `b` otherwise. */
  function Or(a: Field, b: Field): (r: Field)
    ensures Truthy(a) ==> r == a
    ensures !Truthy(a) ==> r == b
  {
    if Truthy(a) then a else b
  }

  /** `Array.isArray(f) ? f : []`. */
  function ListOrEmpty(f: Field): (r: seq<string>)
    ensures f.StrArray? ==> r == f.items
    ensures !f.StrArray? ==> r == []
  {
    if f.StrArray? then f.items else []
  }

  /** `typeof f === 'string' ? f : ''`. */
  function StringOrEmpty(f: Field): (r: string)
    ensures f.Str? ==> r == f.s
    ensures !f.Str? ==> r == ""
  {
    if f.Str? then f.s else ""
  }
}

=== FILE: playerlobby.dfy ===
/** The player lobby (src/pages/PlayerLobby.tsx): loading the game with the
    membership check, my admin and player status, and leaving the game
    optimistically, with rollback. */
module PlayerLobby {
  import opened Wrappers
  import opened Roster

  datatype Lobby = Lobby(game: Option<Game>, loading: bool, error: Option<string>, leaveOpen: bool, leaveBusy: bool)

  const InitialLobby := Lobby(None, true, None, false, false)

  datatype Step = Step(lobby: Lobby, effects: Effects, requested: bool)

  /** `isMeAdmin`: a non-empty id among the admin ids. */
  predicate IsMeAdmin(game: Option<Game>, myId: string) {
    myId != "" && myId in AdminSet(game)
  }

  /** `isMePlayer`: some roster entry has my id. */
  predicate IsMePlayer(game: Option<Game>, myId: string) {
    game.Some? && exists i :: 0 <= i < |game.value.players| && game.value.players[i].id == myId
  }

  /** `fetchGame`: the session ends without a token and nothing happens
      without a code; a refusal or throw records the error; a loaded game is
      always stored, and when I am neither one of its admins nor one of its
      players the page is replaced by the join page for its code. */
  function FetchGame(s: Lobby, token: Option<string>, code: string, myId: string, reply: GameReply): (r: Step)
    ensures r.requested <==> HasToken(token) && code != ""
    ensures !r.requested ==> r.lobby == s
    ensures !HasToken(token) ==> r.effects == SessionExpired
    ensures r.requested ==> !r.lobby.loading && r.lobby.leaveOpen == s.leaveOpen && r.lobby.leaveBusy == s.leaveBusy
    ensures r.requested && reply.GameOk? ==> r.lobby.game == Some(reply.game) && r.lobby.error.None?
    ensures r.requested && reply.GameOk? ==>
      (r.effects.nav == Some(Nav("/game/join?code=" + code, true)) <==>
        !(myId != "" && myId in AdminIdsOf(reply.game)) && !(exists p :: p in reply.game.players && p.id == myId))
    ensures r.requested && reply.GameOk? ==> r.effects.notice.None? && !r.effects.logout
    ensures r.requested && !reply.GameOk? ==> r.lobby.game == s.game && r.lobby.error.Some? && r.effects == NoEffects
    ensures r.requested && !reply.GameOk? ==>
      r.lobby.error == Some(if reply.GameNotOk? then OrElse(reply.message, "Erreur de chargement") else OrElse(reply.message, "Erreur"))
  {
    if !HasToken(token) then Step(s, SessionExpired, false)
    else if code == "" then Step(s, NoEffects, false)
    else
      match reply
      case GameNotOk(m) => Step(s.(loading := false, error := Some(OrElse(m, "Erreur de chargement"))), NoEffects, true)
      case GameThrew(m) => Step(s.(loading := false, error := Some(OrElse(m, "Erreur"))), NoEffects, true)
      case GameOk(g) =>
        var isAdmin := myId != "" && myId in AdminIdsOf(g);
        var isPlayer := exists p :: p in g.players && p.id == myId;
        var nav := if !isAdmin && !isPlayer then Some(Nav("/game/join?code=" + code, true)) else None;
        Step(s.(game := Some(g), loading := false, error := None), Effects(None, false, nav), true)
  }

  /** The redirect decided while loading agrees with the status the page
      shows afterwards: it happens exactly when I am neither admin nor
      player of the stored game. */
  lemma RedirectMatchesStatus(s: Lobby, token: Option<string>, code: string, myId: string, g: Game)
    requires HasToken(token) && code != ""
    ensures var r := FetchGame(s, token, code, myId, GameOk(g));
      r.effects.nav.Some? <==> !IsMeAdmin(r.lobby.game, myId) && !IsMePlayer(r.lobby.game, myId)
  {
    var r := FetchGame(s, token, code, myId, GameOk(g));
    if exists p :: p in g.players && p.id == myId {
      var p :| p in g.players && p.id == myId;
      var i :| 0 <= i < |g.players| && g.players[i] == p;
      assert IsMePlayer(r.lobby.game, myId);
    }
    if IsMePlayer(r.lobby.game, myId) {
      var i :| 0 <= i < |g.players| && g.players[i].id == myId;
      assert g.players[i] in g.players;
    }
  }

  /** `askLeave`. */
  function AskLeave(s: Lobby): (r: Lobby)
    ensures r.leaveOpen && r == s.(leaveOpen := true)
  {
    s.(leaveOpen := true)
  }

  /** `closeLeave`: does nothing while leaving is in progress. */
  function CloseLeave(s: Lobby): (r: Lobby)
    ensures s.leaveBusy ==> r == s
    ensures !s.leaveBusy ==> r == s.(leaveOpen := false)
  {
    if s.leaveBusy then s else s.(leaveOpen := false)
  }

  datatype Begun = Begun(step: Step, snapshot: seq<Player>)

  /** The first half of `confirmLeave`: without a game nothing happens,
      without a token the session ends; otherwise the page is busy, my
      entries leave the roster, and the previous roster is kept. */
  function LeaveBegin(s: Lobby, token: Option<string>, myId: string): (r: Begun)
    ensures r.step.requested <==> s.game.Some? && HasToken(token)
    ensures !r.step.requested ==> r.step.lobby == s
    ensures s.game.Some? && !HasToken(token) ==> r.step.effects == SessionExpired
    ensures r.step.requested ==> (
      && r.snapshot == s.game.value.players
      && r.step.lobby == s.(leaveBusy := true, game := WithPlayers(s.game, Without(s.game.value.players, myId))))
  {
    if s.game.None? then Begun(Step(s, NoEffects, false), [])
    else if !HasToken(token) then Begun(Step(s, SessionExpired, false), [])
    else
      var g := s.game.value;
      Begun(Step(s.(leaveBusy := true, game := Some(g.(players := Without(g.players, myId)))), NoEffects, true), g.players)
  }

  /** The second half: success frees the page, closes the dialog and goes to
      the dashboard; failure puts the roster back and keeps the dialog. */
  function LeaveFinish(s: Lobby, snapshot: seq<Player>, reply: ActionReply): (r: Step)
    ensures !r.lobby.leaveBusy && !r.requested && !r.effects.logout
    ensures reply.Done? ==> r.lobby == s.(leaveBusy := false, leaveOpen := false)
    ensures reply.Done? ==> r.effects == Effects(Some(Success("Tu as quitté la partie.")), false, Some(Nav("/dashboard", false)))
    ensures !reply.Done? ==> r.lobby == s.(leaveBusy := false, game := WithPlayers(s.game, snapshot))
    ensures !reply.Done? ==> r.effects == Toast(Error(FailureText(reply, "Impossible de quitter la partie.", "Erreur lors du départ.")))
  {
    if reply.Done? then
      Step(s.(leaveBusy := false, leaveOpen := false), Effects(Some(Success("Tu as quitté la partie.")), false, Some(Nav("/dashboard", false))), false)
    else
      Step(s.(leaveBusy := false, game := WithPlayers(s.game, snapshot)), Toast(Error(FailureText(reply, "Impossible de quitter la partie.", "Erreur lors du départ."))), false)
  }

  /** While the request runs I am no longer listed, and the dialog cannot be
      closed. */
  lemma LeavingHidesMe(s: Lobby, token: Option<string>, myId: string)
    requires LeaveBegin(s, token, myId).step.requested
    ensures !IsMePlayer(LeaveBegin(s, token, myId).step.lobby.game, myId)
    ensures CloseLeave(LeaveBegin(s, token, myId).step.lobby) == LeaveBegin(s, token, myId).step.lobby
  {
    var g := LeaveBegin(s, token, myId).step.lobby.game.value;
    forall i | 0 <= i < |g.players| ensures g.players[i].id != myId {
      assert g.players[i] in g.players;
    }
  }

  /** A failed leave gives back exactly the game the page had. */
  lemma LeaveRollsBack(s: Lobby, token: Option<string>, myId: string, reply: ActionReply)
    requires !reply.Done?
    requires LeaveBegin(s, token, myId).step.requested
    ensures LeaveFinish(LeaveBegin(s, token, myId).step.lobby, LeaveBegin(s, token, myId).snapshot, reply).lobby.game == s.game
  {
  }
}

=== FILE: preferences.dfy ===
/** The onboarding preferences page (src/pages/PreferencesPage.tsx): the
    chip inputs for likes, dislikes and allergies, the list cleaning and
    validation done on submit, the request body, and the draft kept in local
    storage. `lower` stands for `String.prototype.toLowerCase`. */
module Preferences {
  import opened Wrappers
  import opened JsText
  import opened Payload
  import opened ListOps
  import FO = FirstOccurrence

  // ————— Whitespace normalisation —————

  /** The longest prefix of `s` holding no whitespace. */
  function RunPrefix(s: string): (w: string)
    ensures w <= s
    ensures forall k :: 0 <= k < |w| ==> !IsSpace(w[k])
    ensures |w| < |s| ==> IsSpace(s[|w|])
  {
    if s == [] || IsSpace(s[0]) then [] else [s[0]] + RunPrefix(s[1..])
  }

  /** The maximal whitespace-free pieces of `s`, in order: what
      `s.split(/\s+/)` gives once the empty pieces are dropped. */
  function Tokens(s: string): (ts: seq<string>)
    ensures forall i :: 0 <= i < |ts| ==> ts[i] != []
    decreases |s|
  {
    if s == [] then []
    else if IsSpace(s[0]) then Tokens(s[1..])
    else
      var w := RunPrefix(s);
      [w] + Tokens(s[|w|..])
  }

  /** The pieces joined with one space between neighbours. */
  function JoinSpaced(ts: seq<string>): string {
    if ts == [] then [] else if |ts| == 1 then ts[0] else ts[0] + " " + JoinSpaced(ts[1..])
  }

  /** A string has no pieces exactly when it is blank. */
  lemma {:induction false} TokensEmpty(s: string)
    ensures Tokens(s) == [] <==> Blank(s)
    decreases |s|
  {
    if s != [] && IsSpace(s[0]) {
      TokensEmpty(s[1..]);
      assert Blank(s) <==> Blank(s[1..]) by {
        assert forall k :: 1 <= k < |s| ==> s[k] == s[1..][k - 1];
      }
    }
  }

  /** Leading whitespace does not change the pieces. */
  lemma {:induction false} TokensTrimStart(s: string)
    ensures Tokens(TrimStart(s)) == Tokens(s)
    decreases |s|
  {
    if s != [] && IsSpace(s[0]) {
      TokensTrimStart(s[1..]);
    }
  }

  lemma {:induction false} RunPrefixAppendBlank(a: string, q: string)
    requires Blank(q)
    ensures RunPrefix(a + q) == RunPrefix(a)
    decreases |a|
  {
    if a == [] {
      assert a + q == q;
    } else if !IsSpace(a[0]) {
      assert (a + q)[1..] == a[1..] + q;
      RunPrefixAppendBlank(a[1..], q);
    }
  }

  /** Trailing whitespace does not change the pieces. */
  lemma {:induction false} TokensAppendBlank(a: string, q: string)
    requires Blank(q)
    ensures Tokens(a + q) == Tokens(a)
    decreases |a| + |q|
  {
    if a == [] {
      assert a + q == q;
      TokensEmpty(q);
    } else if IsSpace(a[0]) {
      assert (a + q)[1..] == a[1..] + q;
      TokensAppendBlank(a[1..], q);
    } else {
      var w := RunPrefix(a);
      RunPrefixAppendBlank(a, q);
      assert (a + q)[|w|..] == a[|w|..] + q;
      TokensAppendBlank(a[|w|..], q);
    }
  }

  /** Trimming does not change the pieces. */
  lemma TokensTrim(s: string)
    ensures Tokens(Trim(s)) == Tokens(s)
  {
    var a := TrimStart(s);
    TokensTrimStart(s);
    TrimEndRest(a);
    TokensAppendBlank(TrimEnd(a), a[|TrimEnd(a)|..]);
  }

  /** A non-whitespace character put in front of `x` starts a new piece when
      `x` starts with whitespace (or is empty), and joins `x`'s first piece
      otherwise. */
  lemma TokensCons(c: char, x: string)
    requires !IsSpace(c)
    ensures x == [] || IsSpace(x[0]) ==> Tokens([c] + x) == [[c]] + Tokens(x)
    ensures x != [] && !IsSpace(x[0]) ==> Tokens(x) != [] && Tokens([c] + x) == [[c] + Tokens(x)[0]] + Tokens(x)[1..]
  {
    var s := [c] + x;
    assert s[0] == c && s[1..] == x;
    var w := RunPrefix(x);
    assert RunPrefix(s) == [c] + w;
    assert s[|w| + 1..] == x[|w|..];
    assert Tokens(s) == [[c] + w] + Tokens(s[|w| + 1..]);
    if x == [] || IsSpace(x[0]) {
      assert w == [] && [c] + w == [c];
      assert s[|w| + 1..] == x;
    } else {
      assert Tokens(x) == [w] + Tokens(x[|w|..]);
      assert Tokens(s) == [[c] + w] + Tokens(s[|w| + 1..]);
    }
  }

  /** Joining after growing the first piece at its front. */
  lemma JoinSpacedConsHead(c: char, ts: seq<string>)
    requires ts != []
    ensures JoinSpaced([[c] + ts[0]] + ts[1..]) == [c] + JoinSpaced(ts)
  {
    var us := [[c] + ts[0]] + ts[1..];
    assert us[1..] == ts[1..];
  }

  /** What `replace(/\s+/g, ' ')` yields, stated without it: the
      whitespace-free pieces of `s` joined by single spaces, with one space in
      front when `s` starts with whitespace and one behind when it ends with
      whitespace after some piece. */
  function CollapseSpec(s: string): string {
    Spaced(s != [] && IsSpace(s[0]), Tokens(s), Tokens(s) != [] && IsSpace(s[|s| - 1]))
  }

  /** The pieces joined by single spaces, with an optional space at each
      end. */
  function Spaced(lead: bool, ts: seq<string>, trail: bool): string {
    (if lead then " " else "") + JoinSpaced(ts) + (if trail then " " else "")
  }

  /** `u` has the pieces of `s`, starts with no whitespace, and ends with
      the last character of `s` whenever there is a piece. */
  ghost predicate SameRest(s: string, u: string) {
    && Tokens(u) == Tokens(s)
    && (u == [] || !IsSpace(u[0]))
    && (Tokens(s) != [] ==> u != [] && s != [] && u[|u| - 1] == s[|s| - 1])
  }

  /** Dropping leading whitespace keeps the pieces and the last character
      whenever there is a piece. */
  lemma TrimStartFacts(s: string)
    ensures SameRest(s, TrimStart(s))
  {
    var u := TrimStart(s);
    TokensTrimStart(s);
    if u != [] {
      assert u == s[|s| - |u|..];
      assert u[|u| - 1] == s[|s| - 1];
    } else {
      assert Tokens(u) == [];
    }
  }

  /** `CollapseSpec` of a string that starts with whitespace, from the rest
      once its leading whitespace is gone. */
  lemma CollapseSpecShift(s: string, u: string)
    requires s != [] && IsSpace(s[0])
    requires SameRest(s, u)
    ensures CollapseSpec(s) == " " + CollapseSpec(u)
  {
    var ts := Tokens(s);
    var trail := ts != [] && IsSpace(s[|s| - 1]);
    assert CollapseSpec(s) == Spaced(true, ts, trail);
    assert CollapseSpec(u) == Spaced(false, ts, trail);
    SpacedLead(ts, trail);
  }

  /** A leading space is one more character in front. */
  lemma SpacedLead(ts: seq<string>, trail: bool)
    ensures Spaced(true, ts, trail) == " " + Spaced(false, ts, trail)
  {
    AppendAssoc(" ", JoinSpaced(ts), if trail then " " else "");
  }

  /** The step of `CollapseSpec` for a leading whitespace character. */
  lemma CollapseSpecSpace(s: string)
    requires s != [] && IsSpace(s[0])
    ensures CollapseSpec(s) == " " + CollapseSpec(TrimStart(s))
  {
    var u := TrimStart(s);
    TrimStartFacts(s);
    CollapseSpecShift(s, u);
  }

  /** A one-character piece in front of spaced pieces. */
  lemma SpacedNewPiece(c: char, ts: seq<string>, trail: bool)
    requires ts != []
    ensures Spaced(false, [[c]] + ts, trail) == [c] + Spaced(true, ts, trail)
  {
    var us := [[c]] + ts;
    assert us[1..] == ts;
    var t := if trail then " " else "";
    assert JoinSpaced(us) == [c] + " " + JoinSpaced(ts);
    AppendAssoc([c] + " ", JoinSpaced(ts), t);
    AppendAssoc([c], " ", JoinSpaced(ts));
    AppendAssoc([c], " " + JoinSpaced(ts), t);
  }

  /** A character put in front of the first piece. */
  lemma SpacedGrowPiece(c: char, ts: seq<string>, trail: bool)
    requires ts != []
    ensures Spaced(false, [[c] + ts[0]] + ts[1..], trail) == [c] + Spaced(false, ts, trail)
  {
    JoinSpacedConsHead(c, ts);
    AppendAssoc([c], JoinSpaced(ts), if trail then " " else "");
  }

  /** The step of `CollapseSpec` for a leading non-whitespace character
      followed by whitespace. */
  lemma CollapseSpecWordEnd(c: char, x: string)
    requires !IsSpace(c) && x != [] && IsSpace(x[0])
    ensures CollapseSpec([c] + x) == [c] + CollapseSpec(x)
  {
    var s := [c] + x;
    assert s[0] == c && s[|s| - 1] == x[|x| - 1];
    TokensCons(c, x);
    TokensEmpty(x);
    var tx := Tokens(x);
    if tx == [] {
      assert IsSpace(x[|x| - 1]);
      assert CollapseSpec(s) == Spaced(false, [[c]], true);
      assert CollapseSpec(x) == Spaced(true, [], false);
    } else {
      SpacedNewPiece(c, tx, IsSpace(x[|x| - 1]));
    }
  }

  /** The step of `CollapseSpec` for two leading non-whitespace characters. */
  lemma CollapseSpecWordInside(c: char, x: string)
    requires !IsSpace(c) && x != [] && !IsSpace(x[0])
    ensures CollapseSpec([c] + x) == [c] + CollapseSpec(x)
  {
    var s := [c] + x;
    assert s[0] == c && s[|s| - 1] == x[|x| - 1];
    TokensCons(c, x);
    SpacedGrowPiece(c, Tokens(x), IsSpace(x[|x| - 1]));
  }

  /** The step of `CollapseSpec` for a leading non-whitespace character. */
  lemma CollapseSpecWord(s: string)
    requires s != [] && !IsSpace(s[0])
    ensures CollapseSpec(s) == [s[0]] + CollapseSpec(s[1..])
  {
    var x := s[1..];
    assert s == [s[0]] + x;
    if x == [] {
      TokensCons(s[0], x);
      assert Tokens(s) == [[s[0]]];
    } else if IsSpace(x[0]) {
      CollapseSpecWordEnd(s[0], x);
    } else {
      CollapseSpecWordInside(s[0], x);
    }
  }

  /** `s.replace(/\s+/g, ' ')`: every maximal whitespace run becomes one
      space. Empty exactly when the input is, and starts with whitespace
      exactly when the input does; `CollapseMatchesSpec` gives the whole
      result. */
  function Collapse(s: string): (r: string)
    ensures r == [] <==> s == []
    ensures r != [] ==> (IsSpace(r[0]) <==> IsSpace(s[0]))
    decreases |s|
  {
    if s == [] then []
    else if IsSpace(s[0]) then
      assert TrimStart(s) == TrimStart(s[1..]);
      [' '] + Collapse(TrimStart(s))
    else
      [s[0]] + Collapse(s[1..])
  }

  /** Collapsing yields `CollapseSpec`: the whitespace-free pieces joined by
      single spaces, plus one space for leading and one for trailing
      whitespace. */
  lemma {:induction false} CollapseMatchesSpec(s: string)
    ensures Collapse(s) == CollapseSpec(s)
    decreases |s|
  {
    if s != [] {
      if IsSpace(s[0]) {
        assert TrimStart(s) == TrimStart(s[1..]);
        CollapseMatchesSpec(TrimStart(s));
        CollapseSpecSpace(s);
      } else {
        CollapseMatchesSpec(s[1..]);
        CollapseSpecWord(s);
      }
    }
  }

  /** The only whitespace is ' ', and never twice in a row. */
  predicate SingleSpaced(r: string) {
    && (forall k :: 0 <= k < |r| && IsSpace(r[k]) ==> r[k] == ' ')
    && (forall k :: 0 <= k < |r| - 1 ==> !(r[k] == ' ' && r[k + 1] == ' '))
  }

  lemma SingleSpacedCons(c: char, rest: string)
    requires SingleSpaced(rest)
    requires !IsSpace(c) || (c == ' ' && (rest == [] || !IsSpace(rest[0])))
    ensures SingleSpaced([c] + rest)
  {
    var r := [c] + rest;
    forall k | 0 <= k < |r| && IsSpace(r[k]) ensures r[k] == ' ' {
      if k > 0 {
        assert r[k] == rest[k - 1];
      }
    }
    forall k | 0 <= k < |r| - 1 ensures !(r[k] == ' ' && r[k + 1] == ' ') {
      assert r[k + 1] == rest[k];
      if k > 0 {
        assert r[k] == rest[k - 1];
      }
    }
  }

  /** After collapsing, the only whitespace left is ' ', never twice in a row. */
  lemma {:induction false} CollapseSingleSpaces(s: string)
    ensures SingleSpaced(Collapse(s))
    decreases |s|
  {
    if s != [] {
      if IsSpace(s[0]) {
        var t := TrimStart(s);
        assert t == TrimStart(s[1..]);
        CollapseSingleSpaces(t);
        SingleSpacedCons(' ', Collapse(t));
      } else {
        CollapseSingleSpaces(s[1..]);
        SingleSpacedCons(s[0], Collapse(s[1..]));
      }
    }
  }

  /** Collapsing ends with whitespace exactly when the input does. */
  lemma {:induction false} CollapseLast(s: string)
    requires s != []
    ensures IsSpace(Collapse(s)[|Collapse(s)| - 1]) <==> IsSpace(s[|s| - 1])
    decreases |s|
  {
    if IsSpace(s[0]) {
      var t := TrimStart(s);
      assert t == TrimStart(s[1..]);
      if t != [] {
        CollapseLast(t);
        assert t[|t| - 1] == s[|s| - 1];
      } else {
        assert IsSpace(s[|s| - 1]);
      }
    } else if |s| > 1 {
      CollapseLast(s[1..]);
    }
  }

  /** The shape every normalised chip has: no whitespace at either end, no
      whitespace other than ' ', and never two spaces in a row. */
  predicate Canonical(r: string) {
    && (r != [] ==> !IsSpace(r[0]) && !IsSpace(r[|r| - 1]))
    && SingleSpaced(r)
  }

  /** `normalized`: trim, then collapse whitespace runs. The result is
      canonical, and empty exactly when the input is blank;
      `NormalizedJoinsTokens` gives the whole result. */
  function Normalized(s: string): (r: string)
    ensures Canonical(r)
    ensures r == [] <==> Blank(s)
  {
    var t := Trim(s);
    CollapseSingleSpaces(t);
    if t != [] then CollapseLast(t); Collapse(t) else Collapse(t)
  }

  /** The normal form is the whitespace-free pieces of `s` joined by single
      spaces: every whitespace run inside becomes exactly one space, and the
      ends lose theirs. */
  lemma NormalizedJoinsTokens(s: string)
    ensures Normalized(s) == JoinSpaced(Tokens(s))
  {
    var t := Trim(s);
    assert Normalized(s) == Collapse(t);
    CollapseMatchesSpec(t);
    TokensTrim(s);
    assert t == [] || (!IsSpace(t[0]) && !IsSpace(t[|t| - 1]));
    assert CollapseSpec(t) == Spaced(false, Tokens(t), false);
    SpacedPlain(Tokens(t));
  }

  /** Without spaces at the ends, the pieces joined by single spaces. */
  lemma SpacedPlain(ts: seq<string>)
    ensures Spaced(false, ts, false) == JoinSpaced(ts)
  {
    assert "" + JoinSpaced(ts) + "" == JoinSpaced(ts);
  }

  lemma {:induction false} CollapseFixed(r: string)
    requires SingleSpaced(r)
    ensures Collapse(r) == r
    decreases |r|
  {
    if r != [] {
      CollapseFixed(r[1..]);
      if IsSpace(r[0]) {
        assert r[1..] != [] ==> !IsSpace(r[1]);
        assert TrimStart(r[1..]) == r[1..];
        assert TrimStart(r) == r[1..];
      }
    }
  }

  /** A canonical string is its own normal form. */
  lemma CanonicalFixed(r: string)
    requires Canonical(r)
    ensures Normalized(r) == r
  {
    assert TrimStart(r) == r;
    assert TrimEnd(r) == r;
    CollapseFixed(r);
  }

  /** Normalising twice is normalising once. */
  lemma NormalizedIdempotent(s: string)
    ensures Normalized(Normalized(s)) == Normalized(s)
  {
    CanonicalFixed(Normalized(s));
  }

  /** The characters of `s` that are not whitespace, in order. */
  function NonSpace(s: string): string {
    if s == [] then [] else (if IsSpace(s[0]) then [] else [s[0]]) + NonSpace(s[1..])
  }

  lemma {:induction false} NonSpaceAppend(a: string, b: string)
    ensures NonSpace(a + b) == NonSpace(a) + NonSpace(b)
    decreases |a|
  {
    if a == [] {
      assert a + b == b;
    } else {
      assert (a + b)[1..] == a[1..] + b;
      NonSpaceAppend(a[1..], b);
    }
  }

  lemma {:induction false} NonSpaceBlank(a: string)
    requires Blank(a)
    ensures NonSpace(a) == []
    decreases |a|
  {
    if a != [] {
      NonSpaceBlank(a[1..]);
    }
  }

  lemma NonSpaceTrimStart(s: string)
    ensures NonSpace(TrimStart(s)) == NonSpace(s)
  {
    var a := TrimStart(s);
    var p := s[..|s| - |a|];
    assert s == p + a;
    assert Blank(p) by {
      forall k | 0 <= k < |p| ensures IsSpace(p[k]) {
        assert p[k] == s[k];
      }
    }
    NonSpaceAppend(p, a);
    NonSpaceBlank(p);
  }

  lemma NonSpaceTrimEnd(a: string)
    ensures NonSpace(TrimEnd(a)) == NonSpace(a)
  {
    var b := TrimEnd(a);
    var q := a[|b|..];
    assert a == b + q;
    assert Blank(q) by {
      forall k | 0 <= k < |q| ensures IsSpace(q[k]) {
        assert q[k] == a[|b| + k];
      }
    }
    NonSpaceAppend(b, q);
    NonSpaceBlank(q);
  }

  lemma NonSpaceTrim(s: string)
    ensures NonSpace(Trim(s)) == NonSpace(s)
  {
    NonSpaceTrimStart(s);
    NonSpaceTrimEnd(TrimStart(s));
  }

  lemma {:induction false} NonSpaceCollapse(s: string)
    ensures NonSpace(Collapse(s)) == NonSpace(s)
    decreases |s|
  {
    if s != [] {
      if IsSpace(s[0]) {
        var t := TrimStart(s);
        assert TrimStart(s) == TrimStart(s[1..]);
        NonSpaceCollapse(t);
        assert s == s[..|s| - |t|] + t;
        NonSpaceAppend(s[..|s| - |t|], t);
        NonSpaceBlank(s[..|s| - |t|]);
        assert Collapse(s) == [' '] + Collapse(t);
        NonSpaceAppend([' '], Collapse(t));
      } else {
        NonSpaceCollapse(s[1..]);
        assert Collapse(s) == [s[0]] + Collapse(s[1..]);
        NonSpaceAppend([s[0]], Collapse(s[1..]));
      }
    }
  }

  /** Normalising only moves whitespace: the non-whitespace characters are
      kept, in order. */
  lemma NormalizedKeepsContent(s: string)
    ensures NonSpace(Normalized(s)) == NonSpace(s)
  {
    NonSpaceCollapse(Trim(s));
    NonSpaceTrim(s);
  }

  // ————— ChipsInput —————

  /** A chip list and the text being typed next to it. */
  datatype Chips = Chips(values: seq<string>, input: string)

  /** `exists`: some chip equals `s` up to case. */
  predicate Exists(s: string, values: seq<string>, lower: string -> string) {
    exists i :: 0 <= i < |values| && lower(values[i]) == lower(s)
  }

  /** `addFromInput`: a blank input changes nothing; a value already present
      up to case only clears the input; anything else is appended in its
      normalised form and the input cleared. */
  function AddFromInput(c: Chips, lower: string -> string): (r: Chips)
    ensures Blank(c.input) ==> r == c
    ensures !Blank(c.input) ==> r.input == ""
    ensures r.values == c.values || r.values == c.values + [Normalized(c.input)]
    ensures r.values != c.values <==> !Blank(c.input) && !Exists(Normalized(c.input), c.values, lower)
  {
    var v := Normalized(c.input);
    if v == "" then c
    else if Exists(v, c.values, lower) then c.(input := "")
    else
      var r := Chips(c.values + [v], "");
      assert |r.values| == |c.values| + 1;
      r
  }

  /** The toast `addFromInput` shows: an information naming the value when
      it is already present up to case, nothing otherwise. It is shown
      exactly when a non-blank input adds no chip. */
  function AddNotice(c: Chips, lower: string -> string): (n: Option<Notice>)
    ensures n.Some? <==> !Blank(c.input) && Exists(Normalized(c.input), c.values, lower)
    ensures n.Some? <==> !Blank(c.input) && AddFromInput(c, lower).values == c.values
    ensures n.Some? ==> n.value == Info("“" + Normalized(c.input) + "” est déjà ajouté")
  {
    var v := Normalized(c.input);
    if v != "" && Exists(v, c.values, lower) then Some(Info("“" + v + "” est déjà ajouté")) else None
  }

  /** Appending a value whose key is new keeps the keys distinct. */
  lemma AppendDistinct(vs: seq<string>, v: string, lower: string -> string)
    requires FO.Distinct(vs, lower)
    requires forall i :: 0 <= i < |vs| ==> lower(vs[i]) != lower(v)
    ensures FO.Distinct(vs + [v], lower)
  {
    var r := vs + [v];
    forall i, j | 0 <= i < j < |r| ensures lower(r[i]) != lower(r[j]) {
      assert r[i] == vs[i];
      if j < |vs| {
        assert r[j] == vs[j];
      }
    }
  }

  /** Adding never puts two chips equal up to case in the list. */
  lemma AddFromInputDistinct(c: Chips, lower: string -> string)
    requires FO.Distinct(c.values, lower)
    ensures FO.Distinct(AddFromInput(c, lower).values, lower)
  {
    var r := AddFromInput(c, lower).values;
    if r != c.values {
      var v := Normalized(c.input);
      assert !Exists(v, c.values, lower);
      AppendDistinct(c.values, v, lower);
    }
  }

  /** Typing the same text again never adds a second chip. */
  lemma AddFromInputOnce(c: Chips, lower: string -> string)
    ensures AddFromInput(AddFromInput(c, lower).(input := c.input), lower).values == AddFromInput(c, lower).values
  {
    var r := AddFromInput(c, lower);
    if !Blank(c.input) && r.values != c.values {
      var v := Normalized(c.input);
      assert r.values[|c.values|] == v;
      assert Exists(v, r.values, lower);
    }
  }

  /** `handleKeyDown`: Enter and ',' add the input; Backspace on an empty
      input drops the last chip and nothing else. */
  function ChipsKeyDown(c: Chips, key: Key, lower: string -> string): (r: Chips)
    ensures key == Enter || key == Comma ==> r == AddFromInput(c, lower)
    ensures key == Backspace && c.input == "" && c.values != [] ==>
      r.input == c.input && r.values + [c.values[|c.values| - 1]] == c.values
    ensures key == Backspace && (c.input != "" || c.values == []) ==> r == c
    ensures key == Semicolon || key == OtherKey ==> r == c
  {
    if key == Enter || key == Comma then AddFromInput(c, lower)
    else if key == Backspace && c.input == "" && |c.values| > 0 then c.(values := DropLast(c.values))
    else c
  }

  /** `removeAt`: drops exactly the chip at `i`. */
  function RemoveAt(c: Chips, i: int): (r: Chips)
    ensures 0 <= i < |c.values| ==> r.values == c.values[..i] + c.values[i + 1..]
    ensures !(0 <= i < |c.values|) ==> r.values == c.values
    ensures r.input == c.input
  {
    c.(values := RemoveIndex(c.values, i))
  }

  // ————— cleanList / validate —————

  /** `.filter(Boolean)` on strings. */
  function NonEmptyOnly(s: seq<string>): (r: seq<string>)
    ensures forall j :: 0 <= j < |r| ==> r[j] != "" && r[j] in s
    ensures r == [] <==> forall i :: 0 <= i < |s| ==> s[i] == ""
    ensures (forall i :: 0 <= i < |s| ==> s[i] != "") ==> r == s
    ensures forall i :: 0 <= i < |s| && s[i] != "" ==> s[i] in r
  {
    if s == [] then []
    else
      var rest := NonEmptyOnly(s[1..]);
      assert forall i :: 1 <= i < |s| ==> s[i] == s[1..][i - 1];
      if s[0] == "" then rest else [s[0]] + rest
  }

  function NormalizeAll(arr: seq<string>): (r: seq<string>)
    ensures |r| == |arr|
    ensures forall i :: 0 <= i < |arr| ==> r[i] == Normalized(arr[i])
  {
    Map(Normalized, arr)
  }

  /** `f` applied to every element. */
  function Map<A, B>(f: A -> B, s: seq<A>): (r: seq<B>)
    ensures |r| == |s|
    ensures forall i :: 0 <= i < |s| ==> r[i] == f(s[i])
  {
    seq(|s|, i requires 0 <= i < |s| => f(s[i]))
  }

  /** Mapping a sequence with one more element at the end. */
  lemma MapSnoc<A, B>(f: A -> B, u: seq<A>, x: A)
    ensures Map(f, u + [x]) == Map(f, u) + [f(x)]
  {
    var a := Map(f, u + [x]);
    var b := Map(f, u) + [f(x)];
    forall i | 0 <= i < |a| ensures a[i] == b[i] {
      if i < |u| {
        assert (u + [x])[i] == u[i];
      }
    }
  }

  /** The normalised, non-empty entries: canonical, and none at all exactly
      when every entry is blank. */
  lemma NormalizedEntries(arr: seq<string>)
    ensures forall j :: 0 <= j < |NonEmptyOnly(NormalizeAll(arr))| ==>
      NonEmptyOnly(NormalizeAll(arr))[j] != "" && Canonical(NonEmptyOnly(NormalizeAll(arr))[j])
    ensures NonEmptyOnly(NormalizeAll(arr)) == [] <==> forall i :: 0 <= i < |arr| ==> Blank(arr[i])
  {
    var ns := NormalizeAll(arr);
    var ne := NonEmptyOnly(ns);
    forall j | 0 <= j < |ne| ensures ne[j] != "" && Canonical(ne[j]) {
      assert ne[j] in ns;
    }
    assert forall i :: 0 <= i < |arr| ==> (ns[i] == "" <==> Blank(arr[i]));
  }

  /** Every non-blank entry, normalised, has an entry equal up to case in
      the first-occurrence filter of the normalised non-empty entries. */
  lemma NormalizedEntryKept(arr: seq<string>, lower: string -> string, i: nat)
    requires i < |arr| && !Blank(arr[i])
    ensures exists j :: (0 <= j < |FO.KeepFirst(NonEmptyOnly(NormalizeAll(arr)), lower)| &&
      lower(FO.KeepFirst(NonEmptyOnly(NormalizeAll(arr)), lower)[j]) == lower(Normalized(arr[i])))
  {
    var ns := NormalizeAll(arr);
    var ne := NonEmptyOnly(ns);
    assert ns[i] != "" && ns[i] in ne;
    var m :| 0 <= m < |ne| && ne[m] == ns[i];
    FO.KeepFirstCovers(ne, lower, m);
  }

  /** Entry `i` is the first non-blank entry whose normal form has its
      lower-cased form: the entry of its case-group that `cleanList` keeps. */
  ghost predicate Leads(arr: seq<string>, lower: string -> string, i: nat)
    requires i < |arr|
  {
    && !Blank(arr[i])
    && forall m :: 0 <= m < i && !Blank(arr[m]) ==> lower(Normalized(arr[m])) != lower(Normalized(arr[i]))
  }

  /** The normal forms of the leading entries, in input order. */
  ghost function Leaders(arr: seq<string>, lower: string -> string): seq<string>
    decreases |arr|
  {
    if arr == [] then []
    else
      var n := |arr| - 1;
      Leaders(arr[..n], lower) + (if Leads(arr, lower, n) then [Normalized(arr[n])] else [])
  }

  lemma {:induction false} NonEmptyOnlySnoc(u: seq<string>, v: string)
    ensures NonEmptyOnly(u + [v]) == NonEmptyOnly(u) + (if v == "" then [] else [v])
    decreases |u|
  {
    if u == [] {
      assert u + [v] == [v];
      assert [v][1..] == [];
    } else {
      assert (u + [v])[1..] == u[1..] + [v];
      NonEmptyOnlySnoc(u[1..], v);
    }
  }

  /** The keys of the non-empty strings of `ns` are the keys of its
      non-empty entries. */
  lemma NonEmptyKeys(ns: seq<string>, lower: string -> string, k: string)
    ensures k in FO.KeysOf(NonEmptyOnly(ns), lower) <==> exists m :: 0 <= m < |ns| && ns[m] != "" && lower(ns[m]) == k
  {
    var ne := NonEmptyOnly(ns);
    if k in FO.KeysOf(ne, lower) {
      var j :| 0 <= j < |ne| && lower(ne[j]) == k;
      assert ne[j] in ns;
    }
    if exists m :: 0 <= m < |ns| && ns[m] != "" && lower(ns[m]) == k {
      var m :| 0 <= m < |ns| && ns[m] != "" && lower(ns[m]) == k;
      assert ns[m] in ne;
      var j :| 0 <= j < |ne| && ne[j] == ns[m];
    }
  }

  /** An earlier non-blank entry with the same lower-cased normal form as the
      last one gives that form a key among the earlier entries. */
  lemma LastFollows(arr: seq<string>, lower: string -> string, m: nat)
    requires m < |arr| - 1 && !Blank(arr[m])
    requires lower(Normalized(arr[m])) == lower(Normalized(arr[|arr| - 1]))
    ensures lower(Normalized(arr[|arr| - 1])) in FO.KeysOf(NonEmptyOnly(NormalizeAll(arr[..|arr| - 1])), lower)
  {
    var p := arr[..|arr| - 1];
    var ns := NormalizeAll(p);
    assert p[m] == arr[m];
    assert ns[m] == Normalized(arr[m]) && ns[m] != "";
    NonEmptyKeys(ns, lower, lower(Normalized(arr[|arr| - 1])));
  }

  /** A key among the earlier entries comes from an earlier non-blank entry. */
  lemma LastKeyBefore(arr: seq<string>, lower: string -> string)
    requires arr != []
    requires lower(Normalized(arr[|arr| - 1])) in FO.KeysOf(NonEmptyOnly(NormalizeAll(arr[..|arr| - 1])), lower)
    ensures exists m :: 0 <= m < |arr| - 1 && !Blank(arr[m]) && lower(Normalized(arr[m])) == lower(Normalized(arr[|arr| - 1]))
  {
    var p := arr[..|arr| - 1];
    var ns := NormalizeAll(p);
    var k := lower(Normalized(arr[|arr| - 1]));
    NonEmptyKeys(ns, lower, k);
    var m :| 0 <= m < |ns| && ns[m] != "" && lower(ns[m]) == k;
    assert p[m] == arr[m] && ns[m] == Normalized(p[m]);
  }

  /** The last entry leads exactly when no earlier non-blank entry has its
      lower-cased normal form. */
  lemma LastLeads(arr: seq<string>, lower: string -> string)
    requires arr != [] && !Blank(arr[|arr| - 1])
    ensures var n := |arr| - 1;
      Leads(arr, lower, n) <==> lower(Normalized(arr[n])) !in FO.KeysOf(NonEmptyOnly(NormalizeAll(arr[..n])), lower)
  {
    var n := |arr| - 1;
    if !Leads(arr, lower, n) {
      var m :| 0 <= m < n && !Blank(arr[m]) && lower(Normalized(arr[m])) == lower(Normalized(arr[n]));
      LastFollows(arr, lower, m);
    } else if lower(Normalized(arr[n])) in FO.KeysOf(NonEmptyOnly(NormalizeAll(arr[..n])), lower) {
      LastKeyBefore(arr, lower);
    }
  }

  lemma NormalizeAllSnoc(u: seq<string>, x: string)
    ensures NormalizeAll(u + [x]) == NormalizeAll(u) + [Normalized(x)]
  {
    MapSnoc(Normalized, u, x);
  }

  /** The normalised non-empty entries grow by the last entry's normal form
      exactly when that entry is not blank. */
  lemma EntriesSnoc(arr: seq<string>)
    requires arr != []
    ensures var n := |arr| - 1;
      NonEmptyOnly(NormalizeAll(arr)) == NonEmptyOnly(NormalizeAll(arr[..n])) + (if Blank(arr[n]) then [] else [Normalized(arr[n])])
  {
    var n := |arr| - 1;
    assert arr == arr[..n] + [arr[n]];
    NormalizeAllSnoc(arr[..n], arr[n]);
    NonEmptyOnlySnoc(NormalizeAll(arr[..n]), Normalized(arr[n]));
  }

  /** The three steps of `cleanList` give exactly the leaders. */
  lemma {:induction false} CleanedIsLeaders(arr: seq<string>, lower: string -> string)
    ensures FO.KeepFirst(NonEmptyOnly(NormalizeAll(arr)), lower) == Leaders(arr, lower)
    decreases |arr|
  {
    if arr != [] {
      var n := |arr| - 1;
      var nep := NonEmptyOnly(NormalizeAll(arr[..n]));
      CleanedIsLeaders(arr[..n], lower);
      EntriesSnoc(arr);
      if Blank(arr[n]) {
        assert nep + [] == nep;
      } else {
        FO.KeepFirstSnoc(nep, Normalized(arr[n]), lower);
        LastLeads(arr, lower);
      }
    }
  }

  /** `cleanList`: normalise every entry, drop the empty ones, and keep the
      first of each group of entries equal up to case. The result is the
      normal forms of the leading entries in input order; it holds no empty
      and no non-canonical entry, and no two entries equal up to case. */
  function CleanList(arr: seq<string>, lower: string -> string): (r: seq<string>)
    ensures r == Leaders(arr, lower)
    ensures forall j :: 0 <= j < |r| ==> r[j] != "" && Canonical(r[j])
    ensures FO.Distinct(r, lower)
  {
    CleanedCanonical(arr, lower);
    CleanedIsLeaders(arr, lower);
    FO.KeepFirst(NonEmptyOnly(NormalizeAll(arr)), lower)
  }

  /** What the first-occurrence filter keeps is canonical and non-empty. */
  lemma CleanedCanonical(arr: seq<string>, lower: string -> string)
    ensures var k := FO.KeepFirst(NonEmptyOnly(NormalizeAll(arr)), lower);
      forall j :: 0 <= j < |k| ==> k[j] != "" && Canonical(k[j])
  {
    var ne := NonEmptyOnly(NormalizeAll(arr));
    var k := FO.KeepFirst(ne, lower);
    NormalizedEntries(arr);
    forall j | 0 <= j < |k| ensures k[j] != "" && Canonical(k[j]) {
      var m := FO.FindIndex(ne, lower, lower(k[j]));
      assert k[j] == ne[m];
    }
  }

  /** The cleaned list is empty exactly when every entry is blank. */
  lemma CleanListEmpty(arr: seq<string>, lower: string -> string)
    ensures CleanList(arr, lower) == [] <==> forall i :: 0 <= i < |arr| ==> Blank(arr[i])
  {
    NormalizedEntries(arr);
    FO.KeepFirstNonEmpty(NonEmptyOnly(NormalizeAll(arr)), lower);
  }

  /** Every non-blank entry, normalised, is still in the cleaned list up to
      case: cleaning drops only blanks and repeats. */
  lemma CleanListCovers(arr: seq<string>, lower: string -> string, i: nat)
    requires i < |arr| && !Blank(arr[i])
    ensures exists j :: 0 <= j < |CleanList(arr, lower)| && lower(CleanList(arr, lower)[j]) == lower(Normalized(arr[i]))
  {
    assert CleanList(arr, lower) == FO.KeepFirst(NonEmptyOnly(NormalizeAll(arr)), lower);
    NormalizedEntryKept(arr, lower, i);
  }

  /** Cleaning a cleaned list changes nothing. */
  lemma CleanListIdempotent(arr: seq<string>, lower: string -> string)
    ensures CleanList(CleanList(arr, lower), lower) == CleanList(arr, lower)
  {
    var r := CleanList(arr, lower);
    forall j | 0 <= j < |r| ensures Normalized(r[j]) == r[j] {
      CanonicalFixed(r[j]);
    }
    assert NormalizeAll(r) == r;
    assert NonEmptyOnly(r) == r;
    FO.KeepFirstDistinct(r, lower);
  }

  /** The form state of the page. */
  datatype PrefsForm = PrefsForm(likes: seq<string>, dislikes: seq<string>, allergies: seq<string>, color: string, animal: string)

  datatype Errors = Errors(likes: bool, color: bool, animal: bool)

  /** `validate`: `likes` is flagged exactly when every like is blank, and
      `color` / `animal` exactly when they are blank. */
  function Validate(f: PrefsForm, lower: string -> string): (e: Errors)
    ensures e.likes <==> forall i :: 0 <= i < |f.likes| ==> Blank(f.likes[i])
    ensures e.color <==> Blank(f.color)
    ensures e.animal <==> Blank(f.animal)
  {
    CleanListEmpty(f.likes, lower);
    Errors(CleanList(f.likes, lower) == [], Trim(f.color) == "", Trim(f.animal) == "")
  }

  /** `hasErrors`: some flag is set. */
  predicate HasErrors(e: Errors) {
    e.likes || e.color || e.animal
  }

  // ————— Submit —————

  /** The body posted to `/user/onboard`. */
  datatype OnboardBody = OnboardBody(likes: seq<string>, dislikes: seq<string>, allergies: seq<string>, color: string, animal: string)

  datatype SubmitStart =
    | NotAuthenticated(notice: Notice, nav: Nav)
    | Invalid(errors: Errors)
    | Send(body: OnboardBody)

  /** The synchronous part of `handleSubmit`: without a token it says so and
      goes back to the entry screen before validating; with errors it sends
      nothing; otherwise the body holds, for each list, the normal forms of
      its leading entries in order, and the trimmed color and animal, so a
      sent body always has a like, a color and an animal. */
  function Submit(f: PrefsForm, token: Option<string>, lower: string -> string): (r: SubmitStart)
    ensures !HasToken(token) ==> r == NotAuthenticated(Error("Non authentifié"), Nav("/", false))
    ensures r.Invalid? <==> HasToken(token) && HasErrors(Validate(f, lower))
    ensures r.Invalid? ==> r.errors == Validate(f, lower)
    ensures r.Send? <==> HasToken(token) && !HasErrors(Validate(f, lower))
    ensures r.Send? ==> r.body.likes == Leaders(f.likes, lower) && r.body.dislikes == Leaders(f.dislikes, lower)
                        && r.body.allergies == Leaders(f.allergies, lower)
    ensures r.Send? ==> r.body.likes != [] && r.body.color != [] && r.body.animal != []
    ensures r.Send? ==> r.body.color == Trim(f.color) && r.body.animal == Trim(f.animal)
    ensures r.Send? ==> FO.Distinct(r.body.likes, lower) && FO.Distinct(r.body.dislikes, lower) && FO.Distinct(r.body.allergies, lower)
  {
    if !HasToken(token) then NotAuthenticated(Error("Non authentifié"), Nav("/", false))
    else
      var e := Validate(f, lower);
      if HasErrors(e) then Invalid(e)
      else Send(OnboardBody(CleanList(f.likes, lower), CleanList(f.dislikes, lower), CleanList(f.allergies, lower), Trim(f.color), Trim(f.animal)))
  }

  /** How the onboarding request ended. `message` is the server's `message`
      field, or the raw text when the body is not JSON. */
  datatype OnboardReply = Saved | Refused(message: Option<string>) | Failed(error: string)

  datatype SubmitEnd = SubmitEnd(notice: Notice, clearDraft: bool, nav: Option<Nav>)

  /** The asynchronous part of `handleSubmit`: only a saved reply clears the
      draft and (after the toast delay) replaces the page by the dashboard;
      a refusal shows the server message or a fixed fallback. */
  function FinishSubmit(reply: OnboardReply): (r: SubmitEnd)
    ensures r.clearDraft <==> reply.Saved?
    ensures r.nav.Some? <==> reply.Saved?
    ensures reply.Saved? ==> r.nav == Some(Nav("/dashboard", true))
    ensures reply.Refused? ==> r.notice == Error(OrElse(reply.message, "Erreur lors de l'envoi des préférences"))
    ensures reply.Saved? ==> r.notice == Success("Préférences enregistrées avec succès !")
    ensures reply.Failed? ==> r.notice == Error(OrElse(Some(reply.error), "Une erreur est survenue."))
  {
    match reply
    case Saved => SubmitEnd(Success("Préférences enregistrées avec succès !"), true, Some(Nav("/dashboard", true)))
    case Refused(m) => SubmitEnd(Error(OrElse(m, "Erreur lors de l'envoi des préférences")), false, None)
    case Failed(m) => SubmitEnd(Error(OrElse(Some(m), "Une erreur est survenue.")), false, None)
  }

  // ————— Draft —————

  /** What `localStorage.getItem('prefs_draft')` and `JSON.parse` gave. */
  datatype Draft =
    | NoDraft
    | Unparsable
    | ParsedNull
    | Parsed(fields: map<string, Field>)

  /** The draft written on every change. */
  function SaveDraft(f: PrefsForm): map<string, Field> {
    map["likes" := StrArray(f.likes), "dislikes" := StrArray(f.dislikes), "allergies" := StrArray(f.allergies),
        "color" := Str(f.color), "animal" := Str(f.animal)]
  }

  /** Loading the draft on mount: no draft, unparsable JSON or a `null` draft
      (whose first field read throws) leave the form as it is; otherwise a
      list field that is not an array becomes [] and a color or animal that
      is not a string becomes ''. */
  function LoadDraft(f: PrefsForm, d: Draft): (r: PrefsForm)
    ensures !d.Parsed? ==> r == f
    ensures d.Parsed? ==> r.likes == (if Get(d.fields, "likes").StrArray? then Get(d.fields, "likes").items else [])
    ensures d.Parsed? ==> r.dislikes == (if Get(d.fields, "dislikes").StrArray? then Get(d.fields, "dislikes").items else [])
    ensures d.Parsed? ==> r.allergies == (if Get(d.fields, "allergies").StrArray? then Get(d.fields, "allergies").items else [])
    ensures d.Parsed? ==> r.color == (if Get(d.fields, "color").Str? then Get(d.fields, "color").s else "")
    ensures d.Parsed? ==> r.animal == (if Get(d.fields, "animal").Str? then Get(d.fields, "animal").s else "")
  {
    match d
    case Parsed(m) =>
      PrefsForm(ListOrEmpty(Get(m, "likes")), ListOrEmpty(Get(m, "dislikes")), ListOrEmpty(Get(m, "allergies")),
                StringOrEmpty(Get(m, "color")), StringOrEmpty(Get(m, "animal")))
    case _ => f
  }

  /** A saved draft loads back as the same form, whatever the form was
      before. */
  lemma DraftRoundTrip(before: PrefsForm, f: PrefsForm)
    ensures LoadDraft(before, Parsed(SaveDraft(f))) == f
  {
  }
}

=== FILE: profile.dfy ===
/** The profile page (src/pages/Profile.tsx): its chip input `TagInput`
    (default limits of 50 tags of 48 characters), the bio cap, loading the
    stored preferences, and the checks `saveAll` runs before its two
    requests. */
module Profile {
  import opened Wrappers
  import opened JsText
  import opened Payload
  import opened ListOps
  import opened Email
  import opened Users

  const MaxItems: nat := 50
  const MaxLen: nat := 48
  const BioMax: nat := 500

  // ————— TagInput —————

  /** The tags (`values`, owned by the page) and the text being typed. */
  datatype Tags = Tags(values: seq<string>, draft: string)

  datatype TagStep = TagStep(tags: Tags, notice: Option<Notice>)

  /** The tag `add(raw)` would append: trimmed, then cut to `MaxLen`. */
  function Candidate(raw: string): (v: string)
    ensures |v| <= MaxLen
    ensures v == [] <==> Blank(raw)
    ensures v != [] ==> !IsSpace(v[0])
    ensures v <= Trim(raw)
    ensures |v| == if |Trim(raw)| <= MaxLen then |Trim(raw)| else MaxLen
  {
    Take(Trim(raw), MaxLen)
  }

  /** `add`: blank text changes nothing; a tag already present (exactly)
      changes nothing; a full list only warns; otherwise the tag is appended
      at the end and the draft cleared. */
  function Add(t: Tags, raw: string): (r: TagStep)
    ensures Blank(raw) ==> r == TagStep(t, None)
    ensures r.tags.values == t.values || r.tags.values == t.values + [Candidate(raw)]
    ensures r.tags.values != t.values <==> !Blank(raw) && Candidate(raw) !in t.values && |t.values| < MaxItems
    ensures r.tags.draft == (if r.tags.values != t.values then "" else t.draft)
    ensures r.notice.Some? <==> !Blank(raw) && Candidate(raw) !in t.values && |t.values| >= MaxItems
    ensures r.notice.Some? ==> r.notice.value == Warning("Maximum 50 éléments")
  {
    var v := Candidate(raw);
    if v == "" then TagStep(t, None)
    else if v in t.values then TagStep(t, None)
    else if |t.values| >= MaxItems then TagStep(t, Some(Warning("Maximum 50 éléments")))
    else
      var r := TagStep(Tags(t.values + [v], ""), None);
      assert |r.tags.values| == |t.values| + 1;
      r
  }

  /** No tag twice. */
  predicate NoRepeats(s: seq<string>) {
    forall i, j :: 0 <= i < j < |s| ==> s[i] != s[j]
  }

  /** The shape every tag added through the input has, and the limits on
      the list: distinct, non-empty, at most `MaxLen` characters, not
      starting with whitespace, at most `MaxItems` of them. */
  predicate WellFormed(values: seq<string>) {
    && NoRepeats(values)
    && |values| <= MaxItems
    && forall i :: 0 <= i < |values| ==> values[i] != "" && |values[i]| <= MaxLen && !IsSpace(values[i][0])
  }

  /** `add` keeps a well-formed list well-formed: it never appends a
      duplicate and never grows the list past `MaxItems`. */
  lemma AddKeepsWellFormed(t: Tags, raw: string)
    requires WellFormed(t.values)
    ensures WellFormed(Add(t, raw).tags.values)
  {
    var r := Add(t, raw).tags.values;
    if r != t.values {
      assert r == t.values + [Candidate(raw)];
      forall i, j | 0 <= i < j < |r| ensures r[i] != r[j] {
        if j == |t.values| {
          assert r[i] == t.values[i];
        }
      }
    }
  }

  /** Adding the same text a second time changes nothing more. */
  lemma AddTwice(t: Tags, raw: string)
    ensures Add(Add(t, raw).tags, raw).tags.values == Add(t, raw).tags.values
  {
    var r := Add(t, raw).tags.values;
    if r != t.values {
      assert r[|t.values|] == Candidate(raw);
    }
  }

  /** `remove(idx)`: drops exactly the tag at `idx`. */
  function Remove(t: Tags, idx: int): (r: Tags)
    ensures 0 <= idx < |t.values| ==> r.values == t.values[..idx] + t.values[idx + 1..]
    ensures !(0 <= idx < |t.values|) ==> r.values == t.values
    ensures r.draft == t.draft
  {
    t.(values := RemoveIndex(t.values, idx))
  }

  /** `onKeyDown`: Enter, ',' and ';' add the draft; Backspace on an empty
      draft drops only the last tag. (Leaving the field adds the draft too,
      which is `KeyDown(t, Enter)`.) */
  function KeyDown(t: Tags, key: Key): (r: TagStep)
    ensures key == Enter || key == Comma || key == Semicolon ==> r == Add(t, t.draft)
    ensures key == Backspace && t.draft == "" && t.values != [] ==>
      r.tags.draft == "" && r.tags.values + [t.values[|t.values| - 1]] == t.values && r.notice.None?
    ensures key == OtherKey || (key == Backspace && (t.draft != "" || t.values == [])) ==> r == TagStep(t, None)
  {
    if key == Enter || key == Comma || key == Semicolon then Add(t, t.draft)
    else if key == Backspace && t.draft == "" && |t.values| > 0 then TagStep(t.(values := DropLast(t.values)), None)
    else TagStep(t, None)
  }

  /** Deleting a tag keeps the list well-formed. */
  lemma RemoveKeepsWellFormed(t: Tags, idx: int)
    requires WellFormed(t.values)
    ensures WellFormed(Remove(t, idx).values)
  {
    var r := Remove(t, idx).values;
    if 0 <= idx < |t.values| {
      forall i | 0 <= i < |r| ensures r[i] == t.values[if i < idx then i else i + 1] {
        if i < idx {
          assert r[i] == t.values[..idx][i];
        } else {
          assert r[i] == t.values[idx + 1..][i - idx];
        }
      }
    }
  }

  /** Every key keeps the list well-formed. */
  lemma KeyDownKeepsWellFormed(t: Tags, key: Key)
    requires WellFormed(t.values)
    ensures WellFormed(KeyDown(t, key).tags.values)
  {
    if key == Enter || key == Comma || key == Semicolon {
      AddKeepsWellFormed(t, t.draft);
    } else if key == Backspace && t.draft == "" && |t.values| > 0 {
      RemoveKeepsWellFormed(t, |t.values| - 1);
      assert DropLast(t.values) == RemoveIndex(t.values, |t.values| - 1);
    }
  }

  // ————— The page's preferences —————

  /** The page state `prefs`. Color and animal hold whatever the server sent
      when it was truthy, so they are JSON values; an absent bio reads as ''
      wherever the page uses it, so it is a string. */
  datatype ProfilePrefs = ProfilePrefs(likes: seq<string>, dislikes: seq<string>, allergies: seq<string>, color: Field, animal: Field, bio: string)

  const InitialPrefs := ProfilePrefs([], [], [], Str(""), Str(""), "")

  /** Typing in the bio field: the text is cut to 500 characters; nothing
      else changes. */
  function SetBio(p: ProfilePrefs, text: string): (r: ProfilePrefs)
    ensures |r.bio| <= BioMax && r.bio <= text
    ensures |text| <= BioMax ==> r.bio == text
    ensures r == p.(bio := r.bio)
  {
    p.(bio := Take(text, BioMax))
  }

  /** How the preferences request ended: `data` is the body's `data` field. */
  datatype PrefsReply = PrefsOk(data: Field) | PrefsNotOk(message: Option<string>) | PrefsThrew(message: Option<string>)

  datatype LoadEnd = LoadEnd(prefs: ProfilePrefs, loading: bool, requested: bool, effects: Effects)

  /** `json.data.user || {}` for a `data` that is neither null nor undefined. */
  function UserOf(data: Field): (u: Field)
    requires !data.Undefined? && !data.Null?
    ensures Truthy(u)
  {
    Or(Member(data, "user"), Object(map[]))
  }

  /** The loading effect. Without an id it does nothing (and the page keeps
      its loader); without a token it ends the session before any request.
      A response without a `data` object fails on `json.data.user` with the
      engine's `TypeError` message, `typeError`. Otherwise the lists are the
      payload's arrays or [], color and animal are the payload's when truthy
      or '', and the bio is dropped: the page sets the preferences without
      it. */
  function Load(meId: string, token: Option<string>, reply: PrefsReply, p: ProfilePrefs, loading: bool, typeError: string): (r: LoadEnd)
    ensures r.requested <==> meId != "" && HasToken(token)
    ensures !r.requested ==> r.prefs == p && r.loading == loading
    ensures meId != "" && !HasToken(token) ==> r.effects == SessionExpired
    ensures r.requested ==> !r.loading && !r.effects.logout && r.effects.nav.None?
    ensures r.requested && !reply.PrefsOk? ==> r.prefs == p && r.effects.notice.Some? && r.effects.notice.value.Error?
    ensures r.requested && reply.PrefsOk? && !reply.data.Undefined? && !reply.data.Null? ==>
      && r.effects == NoEffects
      && (!Member(UserOf(reply.data), "likes").StrArray? ==> r.prefs.likes == [])
      && (!Member(UserOf(reply.data), "dislikes").StrArray? ==> r.prefs.dislikes == [])
      && (!Member(UserOf(reply.data), "allergies").StrArray? ==> r.prefs.allergies == [])
      && (Member(UserOf(reply.data), "likes").StrArray? ==> r.prefs.likes == Member(UserOf(reply.data), "likes").items)
      && (Member(UserOf(reply.data), "dislikes").StrArray? ==> r.prefs.dislikes == Member(UserOf(reply.data), "dislikes").items)
      && (Member(UserOf(reply.data), "allergies").StrArray? ==> r.prefs.allergies == Member(UserOf(reply.data), "allergies").items)
      && (Truthy(Member(UserOf(reply.data), "favoriteColor")) ==> r.prefs.color == Member(UserOf(reply.data), "favoriteColor"))
      && (Truthy(Member(UserOf(reply.data), "favoriteAnimal")) ==> r.prefs.animal == Member(UserOf(reply.data), "favoriteAnimal"))
      && (Truthy(r.prefs.color) || r.prefs.color == Str(""))
      && (Truthy(r.prefs.animal) || r.prefs.animal == Str(""))
      && r.prefs.bio == ""
    ensures r.requested && reply.PrefsOk? && (reply.data.Undefined? || reply.data.Null?) ==>
      r.prefs == p && r.effects == Toast(Error(OrElse(Some(typeError), "Erreur de chargement du profil")))
    ensures r.requested && reply.PrefsNotOk? ==> r.effects == Toast(Error(OrElse(reply.message, "Impossible de charger le profil")))
    ensures r.requested && reply.PrefsThrew? ==> r.effects == Toast(Error(OrElse(reply.message, "Erreur de chargement du profil")))
  {
    if meId == "" then LoadEnd(p, loading, false, NoEffects)
    else if !HasToken(token) then LoadEnd(p, loading, false, SessionExpired)
    else
      match reply
      case PrefsNotOk(m) => LoadEnd(p, false, true, Toast(Error(OrElse(m, "Impossible de charger le profil"))))
      case PrefsThrew(m) => LoadEnd(p, false, true, Toast(Error(OrElse(m, "Erreur de chargement du profil"))))
      case PrefsOk(data) =>
        if data.Undefined? || data.Null? then
          LoadEnd(p, false, true, Toast(Error(OrElse(Some(typeError), "Erreur de chargement du profil"))))
        else
          var u := UserOf(data);
          var loaded := ProfilePrefs(
            ListOrEmpty(Member(u, "likes")), ListOrEmpty(Member(u, "dislikes")), ListOrEmpty(Member(u, "allergies")),
            Or(Member(u, "favoriteColor"), Str("")), Or(Member(u, "favoriteAnimal"), Str("")), "");
          LoadEnd(loaded, false, true, NoEffects)
  }

  /** The fields of the preferences `PUT` body after `JSON.stringify`:
      `x || undefined` fields are left out when falsy. */
  function PrefsBody(p: ProfilePrefs): map<string, Field> {
    var base := map["likes" := StrArray(p.likes), "dislikes" := StrArray(p.dislikes), "allergies" := StrArray(p.allergies)];
    var withColor := if Truthy(p.color) then base["favoriteColor" := p.color] else base;
    var withAnimal := if Truthy(p.animal) then withColor["favoriteAnimal" := p.animal] else withColor;
    if p.bio != "" then withAnimal["bio" := Str(p.bio)] else withAnimal
  }

  /** Preferences saved and served back unchanged load as the same
      preferences, except the bio, which loading drops. */
  lemma SaveThenLoad(meId: string, token: string, p: ProfilePrefs, before: ProfilePrefs, loading: bool, typeError: string)
    requires meId != "" && token != ""
    requires p.color.Str? && p.animal.Str?
    ensures Load(meId, Some(token), PrefsOk(Object(map["user" := Object(PrefsBody(p))])), before, loading, typeError).prefs
      == p.(bio := "")
  {
  }

  // ————— saveAll —————

  datatype SaveStart = SaveStopped(effects: Effects) | SaveAccount(name: string, email: string)

  /** The checks of `saveAll`, in order: a blank name, then an invalid
      address, each stop with a warning before anything is sent; then a
      missing token ends the session. Otherwise the account update carries
      the trimmed name and the address, which a valid address already is
      trimmed. */
  function SaveAll(name: string, email: string, token: Option<string>): (r: SaveStart)
    ensures r.SaveAccount? <==> !Blank(name) && EmailValid(email) && HasToken(token)
    ensures Blank(name) ==> r == SaveStopped(Toast(Warning("Le nom est requis.")))
    ensures !Blank(name) && !EmailValid(email) ==> r == SaveStopped(Toast(Warning("Adresse courriel invalide.")))
    ensures !Blank(name) && EmailValid(email) && !HasToken(token) ==> r == SaveStopped(SessionExpired)
    ensures r.SaveAccount? ==> r.name == Trim(name) && r.name != "" && r.email == email
  {
    if Blank(name) then SaveStopped(Toast(Warning("Le nom est requis.")))
    else if !EmailValid(email) then SaveStopped(Toast(Warning("Adresse courriel invalide.")))
    else if !HasToken(token) then SaveStopped(SessionExpired)
    else
      ValidEmailIsTrimmed(email);
      SaveAccount(Trim(name), Trim(email))
  }

  /** A valid address has no whitespace, so trimming leaves it as it is. */
  lemma ValidEmailIsTrimmed(e: string)
    requires EmailValid(e)
    ensures Trim(e) == e
  {
    EmailValidShape(e);
    assert !IsSpace(e[0]);
    assert TrimStart(e) == e;
    assert !IsSpace(e[|e| - 1]);
    assert TrimEnd(e) == e;
  }

  /** How one of the two saving requests ended. */
  datatype Reply = Ok | NotOk(message: Option<string>) | Threw(message: Option<string>)

  datatype SaveEnd = SaveEnd(prefsSent: bool, notice: Notice)

  /** The two requests of `saveAll`: the preferences are sent only after
      the account update succeeded, and success is reported only when both
      did. */
  function FinishSave(account: Reply, prefs: Reply): (r: SaveEnd)
    ensures r.prefsSent <==> account.Ok?
    ensures r.notice.Success? <==> account.Ok? && prefs.Ok?
    ensures !r.notice.Success? ==> r.notice.Error?
    ensures account.NotOk? ==> r.notice == Error(OrElse(account.message, "Impossible de mettre à jour le compte"))
    ensures account.Ok? && prefs.NotOk? ==> r.notice == Error(OrElse(prefs.message, "Impossible de mettre à jour les préférences"))
    ensures account.Threw? ==> r.notice == Error(OrElse(account.message, "Erreur lors de la sauvegarde"))
    ensures account.Ok? && prefs.Threw? ==> r.notice == Error(OrElse(prefs.message, "Erreur lors de la sauvegarde"))
    ensures account.Ok? && prefs.Ok? ==> r.notice == Success("Profil mis à jour ✨")
  {
    match account
    case NotOk(m) => SaveEnd(false, Error(OrElse(m, "Impossible de mettre à jour le compte")))
    case Threw(m) => SaveEnd(false, Error(OrElse(m, "Erreur lors de la sauvegarde")))
    case Ok =>
      match prefs
      case Ok => SaveEnd(true, Success("Profil mis à jour ✨"))
      case NotOk(m) => SaveEnd(true, Error(OrElse(m, "Impossible de mettre à jour les préférences")))
      case Threw(m) => SaveEnd(true, Error(OrElse(m, "Erreur lors de la sauvegarde")))
  }

  /** Once both requests succeeded, the page writes the trimmed name and
      address into the provider's user object in place (the provider has no
      `setUser`, so the attempt to call one does nothing). Without a user,
      or after a failure, the user is left as it was; the identifiers never
      change, so the page keeps addressing the same account. */
  function SyncUser(user: Option<User>, name: string, email: string, account: Reply, prefs: Reply): (r: Option<User>)
    ensures r.Some? <==> user.Some?
    ensures MyId(r) == MyId(user)
    ensures !(account.Ok? && prefs.Ok?) ==> r == user
    ensures r.Some? && account.Ok? && prefs.Ok? ==> r.value.name == Trim(name) && r.value.email == Trim(email)
    ensures r.Some? ==> r.value.(name := user.value.name, email := user.value.email) == user.value
  {
    if account.Ok? && prefs.Ok? && user.Some? then Some(Renamed(user.value, Trim(name), Trim(email)))
    else user
  }

  /** The user record with a new name and address, and nothing else
      changed. */
  function Renamed(u: User, name: string, email: string): (v: User)
    ensures v.name == name && v.email == email
    ensures v.(name := u.name, email := u.email) == u
    ensures MyId(Some(v)) == MyId(Some(u))
  {
    u.(name := name, email := email)
  }

  /** The save's report and the in-place rename agree: the success toast is
      shown exactly when the user, if any, takes the trimmed name and
      address, and a failed save leaves the user untouched. The
      preferences reply matters only once the account update succeeded. */
  lemma SaveReportMatchesSync(u: User, name: string, email: string, account: Reply, prefs: Reply, prefs2: Reply)
    ensures FinishSave(account, prefs).notice.Success? ==>
      SyncUser(Some(u), name, email, account, prefs) == Some(Renamed(u, Trim(name), Trim(email)))
    ensures !FinishSave(account, prefs).notice.Success? ==> SyncUser(Some(u), name, email, account, prefs) == Some(u)
    ensures !account.Ok? ==> FinishSave(account, prefs) == FinishSave(account, prefs2)
  {
  }

  /** Whatever the server answers, a reload replaces the page's preferences
      entirely: edits made since the last load (tags, color, animal, bio)
      do not survive it. */
  lemma ReloadDiscardsEdits(meId: string, token: string, data: Field, p: ProfilePrefs, q: ProfilePrefs, loading: bool, typeError: string)
    requires meId != "" && token != ""
    requires !data.Undefined? && !data.Null?
    ensures Load(meId, Some(token), PrefsOk(data), p, loading, typeError).prefs
      == Load(meId, Some(token), PrefsOk(data), q, loading, typeError).prefs
  {
  }
}

=== FILE: roster.dfy ===
/** The game record both lobby pages load (src/pages/LobbyAdminPage.tsx,
    src/pages/PlayerLobby.tsx) and what they derive from it: the admin ids,
    who may be removed, and the searched, name-sorted player list.
    `lower` stands for `toLowerCase` and `compare` for
    `localeCompare(…, 'fr')`. */
module Roster {
  import opened Wrappers
  import opened JsText

  datatype Player = Player(id: string, name: string, email: string)

  /** A game; `adminUsers` holds the `_id`s of the optional `adminUsers`
      list. */
  datatype Game = Game(id: string, name: string, code: string, weeks: int, reminder: int,
                       adminIds: seq<string>, adminUsers: Option<seq<string>>, players: seq<Player>)

  /** `adminIdsOf`: the `adminIds` list when it is not empty, otherwise the
      ids of `adminUsers` (none when that is absent). */
  function AdminIdsOf(g: Game): (r: seq<string>)
    ensures forall x :: x in r <==> x in g.adminIds || (g.adminIds == [] && g.adminUsers.Some? && x in g.adminUsers.value)
    ensures g.adminIds != [] ==> r == g.adminIds
  {
    if |g.adminIds| > 0 then g.adminIds else g.adminUsers.GetOr([])
  }

  /** `adminIdSet`: the admin ids of the loaded game, none before loading. */
  function AdminSet(game: Option<Game>): (r: set<string>)
    ensures game.None? ==> r == {}
    ensures game.Some? ==> forall x :: x in r <==> x in AdminIdsOf(game.value)
  {
    if game.Some? then set x | x in AdminIdsOf(game.value) else {}
  }

  /** `canRemove`: neither an admin nor the current user. */
  predicate CanRemove(game: Option<Game>, p: Player, myId: string) {
    p.id !in AdminSet(game) && p.id != myId
  }

  /** `players.filter(p => p._id !== id)`: the optimistic removal of both
      lobbies. Keeps exactly the players with another id. */
  function Without(players: seq<Player>, id: string): (r: seq<Player>)
    ensures forall p :: p in r <==> p in players && p.id != id
    ensures |r| <= |players|
    ensures (forall i :: 0 <= i < |players| ==> players[i].id != id) ==> r == players
  {
    if players == [] then []
    else
      var rest := Without(players[1..], id);
      assert forall p :: p in players <==> p == players[0] || p in players[1..];
      if players[0].id != id then [players[0]] + rest else rest
  }

  /** The removal works piecewise, so the players kept stay in their
      order. */
  lemma {:induction false} WithoutAppend(a: seq<Player>, b: seq<Player>, id: string)
    ensures Without(a + b, id) == Without(a, id) + Without(b, id)
    decreases |a|
  {
    if a == [] {
      assert a + b == b;
    } else {
      assert (a + b)[1..] == a[1..] + b;
      WithoutAppend(a[1..], b, id);
    }
  }

  /** How `/game/code/:code` answered. */
  datatype GameReply = GameOk(game: Game) | GameNotOk(message: Option<string>) | GameThrew(message: Option<string>)

  /** The players of a game, replaced. */
  function WithPlayers(game: Option<Game>, players: seq<Player>): (r: Option<Game>)
    ensures game.None? ==> r.None?
    ensures game.Some? ==> r == Some(game.value.(players := players))
  {
    if game.Some? then Some(game.value.(players := players)) else None
  }

  /** How an admin or leave request ended: done, refused, or thrown, each
      with the body's or error's message when there is one. */
  datatype ActionReply = Done(message: Option<string>) | Rejected(message: Option<string>) | Threw(message: Option<string>)

  /** The error text shown for a failed action: a refusal shows the server
      message or `refused`, and a throw shows its message or `thrown`. */
  function FailureText(reply: ActionReply, refused: string, thrown: string): string {
    match reply
    case Done(_) => ""
    case Rejected(m) => OrElse(m, refused)
    case Threw(m) => OrElse(m, thrown)
  }

  // ————— filtered —————

  /** The player's lower-cased name or address contains the query. */
  predicate Matches(p: Player, q: string, lower: string -> string) {
    Includes(lower(p.name), q) || Includes(lower(p.email), q)
  }

  /** The players kept for the query `q`: all when it is empty, otherwise
      those that match, in roster order. */
  function Select(players: seq<Player>, q: string, lower: string -> string): (r: seq<Player>)
    ensures forall p :: p in r <==> p in players && (q == "" || Matches(p, q, lower))
    ensures forall p :: multiset(r)[p] == if q == "" || Matches(p, q, lower) then multiset(players)[p] else 0
    ensures |r| <= |players|
    ensures q == "" ==> r == players
  {
    if q == "" || players == [] then players
    else
      var rest := Select(players[1..], q, lower);
      assert players == [players[0]] + players[1..];
      assert forall p :: p in players <==> p == players[0] || p in players[1..];
      if Matches(players[0], q, lower) then [players[0]] + rest else rest
  }

  /** `localeCompare` places `a` before or with `b`. */
  predicate Before(a: Player, b: Player, compare: (string, string) -> int) {
    compare(a.name, b.name) <= 0
  }

  /** Adjacent players are in order. */
  predicate SortedByName(s: seq<Player>, compare: (string, string) -> int) {
    forall i :: 0 <= i < |s| - 1 ==> Before(s[i], s[i + 1], compare)
  }

  /** A comparator that never puts each of two names strictly after the
      other: what `localeCompare` promises. */
  ghost predicate Consistent(compare: (string, string) -> int) {
    forall a, b :: compare(a, b) > 0 ==> compare(b, a) <= 0
  }

  /** Inserts `p` after every leading player that goes before or with it:
      the step of a stable insertion sort. */
  function Insert(p: Player, s: seq<Player>, compare: (string, string) -> int): (r: seq<Player>)
    ensures multiset(r) == multiset(s) + multiset{p}
    ensures |r| == |s| + 1
    ensures r[0] == p || (s != [] && r[0] == s[0])
  {
    if s == [] then [p]
    else if Before(s[0], p, compare) then
      assert s == [s[0]] + s[1..];
      [s[0]] + Insert(p, s[1..], compare)
    else [p] + s
  }

  /** Inserting into a sorted list keeps it sorted. */
  lemma {:induction false} InsertSorted(p: Player, s: seq<Player>, compare: (string, string) -> int)
    requires Consistent(compare)
    requires SortedByName(s, compare)
    ensures SortedByName(Insert(p, s, compare), compare)
    decreases |s|
  {
    if s != [] && Before(s[0], p, compare) {
      var rest := Insert(p, s[1..], compare);
      assert SortedByName(s[1..], compare) by {
        forall i | 0 <= i < |s[1..]| - 1 ensures Before(s[1..][i], s[1..][i + 1], compare) {
          assert s[1..][i] == s[i + 1] && s[1..][i + 1] == s[i + 2];
        }
      }
      InsertSorted(p, s[1..], compare);
      var r := [s[0]] + rest;
      forall i | 0 <= i < |r| - 1 ensures Before(r[i], r[i + 1], compare) {
        if i == 0 {
          if rest[0] != p {
            assert rest[0] == s[1];
          }
        } else {
          assert r[i] == rest[i - 1] && r[i + 1] == rest[i];
        }
      }
    } else if s != [] {
      assert compare(p.name, s[0].name) <= 0;
      var r := [p] + s;
      forall i | 1 <= i < |r| - 1 ensures Before(r[i], r[i + 1], compare) {
        assert r[i] == s[i - 1] && r[i + 1] == s[i];
      }
    }
  }

  /** `[...list].sort((a, b) => a.name.localeCompare(b.name, 'fr'))`, as a
      stable insertion sort: a permutation of its input. */
  function SortByName(s: seq<Player>, compare: (string, string) -> int): (r: seq<Player>)
    ensures multiset(r) == multiset(s)
    ensures |r| == |s|
  {
    if s == [] then []
    else
      assert s == s[..|s| - 1] + [s[|s| - 1]];
      Insert(s[|s| - 1], SortByName(s[..|s| - 1], compare), compare)
  }

  /** The sort orders by name under a consistent comparator. */
  lemma {:induction false} SortByNameSorted(s: seq<Player>, compare: (string, string) -> int)
    requires Consistent(compare)
    ensures SortedByName(SortByName(s, compare), compare)
    decreases |s|
  {
    if s != [] {
      SortByNameSorted(s[..|s| - 1], compare);
      InsertSorted(s[|s| - 1], SortByName(s[..|s| - 1], compare), compare);
    }
  }

  /** `filtered`: the query is the trimmed, lower-cased search text; the
      result holds exactly the roster players that match it (every player
      when it is empty), each as often as in the roster. */
  function Filtered(players: seq<Player>, search: string, lower: string -> string, compare: (string, string) -> int): (r: seq<Player>)
    ensures var q := lower(Trim(search));
      forall p :: p in r <==> p in players && (q == "" || Matches(p, q, lower))
    ensures var q := lower(Trim(search));
      forall p :: multiset(r)[p] == if q == "" || Matches(p, q, lower) then multiset(players)[p] else 0
    ensures lower(Trim(search)) == "" ==> multiset(r) == multiset(players)
    ensures |r| <= |players|
  {
    var sel := Select(players, lower(Trim(search)), lower);
    var r := SortByName(sel, compare);
    assert forall p :: p in r <==> p in multiset(r);
    assert forall p :: p in sel <==> p in multiset(sel);
    r
  }

  /** `filtered` is sorted by name. */
  lemma FilteredSorted(players: seq<Player>, search: string, lower: string -> string, compare: (string, string) -> int)
    requires Consistent(compare)
    ensures SortedByName(Filtered(players, search, lower, compare), compare)
  {
    SortByNameSorted(Select(players, lower(Trim(search)), lower), compare);
  }
}

=== FILE: session.dfy ===
/** The session kept by the authentication provider
    (src/context/AuthProvider.tsx): the token slot in local storage, the
    current user and the loading flag; and the route guard
    (src/components/RequireAuth.tsx) that reads it. Responses are abstract
    outcomes. */
module Session {
  import opened Wrappers
  import opened Users

  datatype Session = Session(token: Option<string>, user: Option<User>, loading: bool)

  /** The provider on mount: no user yet, loading, and whatever token the
      storage holds. */
  function Initial(stored: Option<string>): (s: Session)
    ensures s.loading && s.user.None? && s.token == stored
  {
    Session(stored, None, true)
  }

  /** How `/users/me` answered: ok with the body's `data` (absent when the
      body has none), not ok, or a thrown fetch or body read. */
  datatype MeReply = MeOk(data: Option<User>) | MeNotOk | MeThrew

  datatype FetchEnd = FetchEnd(session: Session, requested: bool)

  /** `fetchUser`: without a token, no request and no user; otherwise an ok
      answer sets the user to the payload, a refusal clears it, and a throw
      leaves it as it was. Loading always ends, and the token is never
      touched: a refused token stays stored. */
  function FetchUser(s: Session, reply: MeReply): (r: FetchEnd)
    ensures r.requested <==> HasToken(s.token)
    ensures !r.session.loading && r.session.token == s.token
    ensures !HasToken(s.token) ==> r.session.user.None?
    ensures HasToken(s.token) && reply.MeOk? ==> r.session.user == reply.data
    ensures HasToken(s.token) && reply.MeNotOk? ==> r.session.user.None?
    ensures HasToken(s.token) && reply.MeThrew? ==> r.session.user == s.user
  {
    if !HasToken(s.token) then FetchEnd(s.(user := None, loading := false), false)
    else
      match reply
      case MeOk(d) => FetchEnd(s.(user := d, loading := false), true)
      case MeNotOk => FetchEnd(s.(user := None, loading := false), true)
      case MeThrew => FetchEnd(s.(loading := false), true)
  }

  /** `handleAuth`: stores the body's token and re-fetches the user. A body
      without a token stores the text "undefined", which then counts as a
      token. */
  function HandleAuth(s: Session, token: Option<string>, me: MeReply): (r: Session)
    ensures r.token == Some(token.GetOr("undefined"))
    ensures token.None? ==> r.token == Some("undefined") && HasToken(r.token)
    ensures !r.loading
    ensures HasToken(r.token) && me.MeOk? ==> r.user == me.data
    ensures !HasToken(r.token) ==> r.user.None?
    ensures HasToken(r.token) && me.MeNotOk? ==> r.user.None?
    ensures HasToken(r.token) && me.MeThrew? ==> r.user == s.user
  {
    FetchUser(s.(token := Some(token.GetOr("undefined"))), me).session
  }

  /** What the sign-in or sign-up request gave: accepted with the body's
      token, refused, an accepted response whose body is not JSON, or a
      thrown fetch; the last two carry the error's message. */
  datatype AuthResponse = Accepted(token: Option<string>) | Refused | Unreadable(message: string) | Unreachable(message: string)

  /** The session after the call and the message of the error it throws, if
      any. */
  datatype AuthEnd = AuthEnd(session: Session, error: Option<string>)

  const LoginRefused := "Identifiants invalides"
  const SignupRefused := "Erreur d’inscription"

  /** `login` (and `signup` with `isLogin` false): an accepted response goes
      through `handleAuth`; a refusal throws a fixed message; nothing but an
      accepted response writes the token or changes the session. */
  function Authenticate(s: Session, isLogin: bool, resp: AuthResponse, me: MeReply): (r: AuthEnd)
    ensures r.error.None? <==> resp.Accepted?
    ensures resp.Accepted? ==> r.session == HandleAuth(s, resp.token, me)
    ensures !resp.Accepted? ==> r.session == s
    ensures resp.Refused? ==> r.error == Some(if isLogin then LoginRefused else SignupRefused)
    ensures resp.Unreadable? || resp.Unreachable? ==> r.error == Some(resp.message)
  {
    match resp
    case Accepted(t) => AuthEnd(HandleAuth(s, t, me), None)
    case Refused => AuthEnd(s, Some(if isLogin then LoginRefused else SignupRefused))
    case Unreadable(m) => AuthEnd(s, Some(m))
    case Unreachable(m) => AuthEnd(s, Some(m))
  }

  /** `logout`: no token and no user; loading is left alone. */
  function Logout(s: Session): (r: Session)
    ensures r.token.None? && r.user.None? && r.loading == s.loading
  {
    s.(token := None, user := None)
  }

  /** Logging out twice is logging out once. */
  lemma LogoutIdempotent(s: Session)
    ensures Logout(Logout(s)) == Logout(s)
  {
  }

  /** After a logout, re-fetching the user sends nothing and keeps no user. */
  lemma FetchAfterLogout(s: Session, reply: MeReply)
    ensures !FetchUser(Logout(s), reply).requested
    ensures FetchUser(Logout(s), reply).session.user.None?
  {
  }

  /** The provider renders its children only once loading is over. */
  predicate ChildrenShown(s: Session) {
    !s.loading
  }

  /** The first user fetch always ends the loading, so the children are
      shown after it whatever the answer. */
  lemma ChildrenShownAfterMount(stored: Option<string>, reply: MeReply)
    ensures !ChildrenShown(Initial(stored))
    ensures ChildrenShown(FetchUser(Initial(stored), reply).session)
  {
  }

  // ————— RequireAuth —————

  datatype GuardResult = Redirect(nav: Nav) | Render

  /** The guard: without a provider (`ctx` absent) or without a user it
      replaces the current entry by "/", otherwise it renders its children.
      It reads nothing but the user. */
  function Guard(ctx: Option<Session>): (r: GuardResult)
    ensures r.Render? <==> ctx.Some? && ctx.value.user.Some?
    ensures r.Redirect? ==> r.nav == Nav("/", true)
  {
    if ctx.Some? && ctx.value.user.Some? then Render else Redirect(Nav("/", true))
  }

  /** Two sessions with the same user get the same decision. */
  lemma GuardReadsOnlyUser(a: Session, b: Session)
    requires a.user == b.user
    ensures Guard(Some(a)) == Guard(Some(b))
  {
  }

  /** An accepted sign-in whose user fetch returns a user opens the guarded
      pages, provided the stored token is not empty; a logout closes them
      again. */
  lemma SignInOpensGuard(s: Session, isLogin: bool, token: string, u: User)
    requires token != ""
    ensures Guard(Some(Authenticate(s, isLogin, Accepted(Some(token)), MeOk(Some(u))).session)) == Render
    ensures Guard(Some(Logout(Authenticate(s, isLogin, Accepted(Some(token)), MeOk(Some(u))).session))) == Redirect(Nav("/", true))
  {
  }

  /** A refused sign-in leaves whatever the guard decided before. */
  lemma RefusalKeepsGuard(s: Session, isLogin: bool, me: MeReply)
    ensures Guard(Some(Authenticate(s, isLogin, Refused, me).session)) == Guard(Some(s))
  {
  }
}

=== FILE: users.dfy ===
/** The signed-in user as the pages read it from the session: the record
    returned by `/users/me`, whose identifier may sit under `_id`, `id` or
    `userId`. */
module Users {
  import opened Wrappers

  datatype User = User(dbId: Option<string>, id: Option<string>, userId: Option<string>, name: string, email: string)

  /** `String(user?._id ?? user?.id ?? user?.userId ?? '')`: the first
      identifier present, or "" without a user or without any identifier.
      `??` skips only absent values, so an empty `_id` is kept. */
  function MyId(user: Option<User>): (r: string)
    ensures user.None? ==> r == ""
    ensures user.Some? && user.value.dbId.Some? ==> r == user.value.dbId.value
    ensures user.Some? && user.value.dbId.None? && user.value.id.Some? ==> r == user.value.id.value
    ensures user.Some? && user.value.dbId.None? && user.value.id.None? ==> r == user.value.userId.GetOr("")
    ensures r != "" ==> user.Some?
  {
    match user
    case None => ""
    case Some(u) =>
      if u.dbId.Some? then u.dbId.value
      else if u.id.Some? then u.id.value
      else u.userId.GetOr("")
  }

  /** The first identifier present among `ids`, if any. */
  function FirstPresent(ids: seq<Option<string>>): Option<string> {
    if ids == [] then None else if ids[0].Some? then ids[0] else FirstPresent(ids[1..])
  }

  /** My id is the first of `_id`, `id`, `userId` that is present, or "":
      `??` chains pick the first value that is not absent. */
  lemma MyIdIsFirstPresent(u: User)
    ensures MyId(Some(u)) == FirstPresent([u.dbId, u.id, u.userId]).GetOr("")
  {
    var ids := [u.dbId, u.id, u.userId];
    assert ids[1..] == [u.id, u.userId];
    assert ids[1..][1..] == [u.userId];
    assert ids[1..][1..][1..] == [];
    assert FirstPresent([u.userId]) == u.userId;
    assert FirstPresent([u.id, u.userId]) == if u.id.Some? then u.id else u.userId;
  }
}

=== FILE: wrappers.dfy ===
/** Option for absent values (the token slot, undefined fields) and the small
    records that describe what a page handler does besides updating its state. */
module Wrappers {

  datatype Option<+T> = None | Some(value: T) {

    /** The value inside `Some`, or `default` for `None`. */
    function GetOr(default: T): T {
      match this
      case Some(v) => v
      case None => default
    }
  }

  /** A router navigation: the target path and whether it replaces the
      current history entry. */
  datatype Nav = Nav(path: string, replace: bool)

  /** The keys the chip inputs react to; every other key is `OtherKey`. */
  datatype Key = Enter | Comma | Semicolon | Backspace | OtherKey

  /** A toast shown to the user. */
  datatype Notice = Success(text: string) | Info(text: string) | Warning(text: string) | Error(text: string)

  /** What a handler does besides updating page state: the toast it shows,
      whether it calls the session's `logout`, and where it navigates. */
  datatype Effects = Effects(notice: Option<Notice>, logout: bool, nav: Option<Nav>)

  const NoEffects := Effects(None, false, None)

  /** Only a toast. */
  function Toast(n: Notice): Effects {
    Effects(Some(n), false, None)
  }

  /** `ensureAuth` without a token, and the pages' handling of a 401: the
      session-expired toast, `logout`, then `/login`. */
  const SessionExpired := Effects(Some(Error("Session expirée. Connecte-toi à nouveau.")), true, Some(Nav("/login", false)))

  /** JavaScript's `a || b` on a possibly missing string: an absent or empty
      string falls back to `b`. */
  function OrElse(a: Option<string>, b: string): (r: string)
    ensures a.Some? && a.value != "" ==> r == a.value
    ensures a.None? || a.value == "" ==> r == b
  {
    if a.Some? && a.value != "" then a.value else b
  }

  /** `if (!token)` in the pages: a missing or empty token counts as absent. */
  predicate HasToken(token: Option<string>) {
    token.Some? && token.value != ""
  }
}
